=== FILE: README.md ===
# Research repository access policy, in Dafny

This project models the authorisation and policy core of a research-paper
repository back end (Java, Spring Boot). In the system, members of a school
sign in with Google. A privileged-user registry makes some of them super
admins, department admins or teachers, and everyone else is a student. Papers
belong to departments. Students and teachers ask for a paper's file through a
document request that an admin accepts or rejects. Admins upload, edit,
archive and delete papers within their scope.

The model is functional. Every entity is an immutable datatype, and the
database tables are maps or sequences passed in and returned. Every service
method is a pure function that returns either its result or the error the
Java code would throw:

- `Errors.Error` is either an `ApiException` with its `ErrorCode`, or a Java
  runtime exception (null pointer, no such element, illegal argument, illegal
  state, number format, class cast, incorrect result size).
- The modules follow the source's components:
  - `Wrappers`, `Strings`: option/result types and ASCII string helpers (Java `trim`, `toLowerCase`, `lastIndexOf`, `split`).
  - `SqlLike`: the JPA `LIKE` matcher with `%` and `_`.
  - `Errors`: error codes and `ApiException.getDisplayMessage`.
  - `Model`: users, departments, papers, requests, refresh tokens and their stores.
  - `Security`: `CustomUserPrincipal` and `RoleBasedAccess`.
  - `Jwt`: the access-token claims and both claim-to-principal converters.
  - `Privileged`: the privileged-user registry, its department-admin map and load-time validation.
  - `GoogleAuth`: the verified-email check, privileged lookup and domain restriction, with the Google verifier as a parameter.
  - `UserService`: `findOrCreateUser`, role precedence, department resolution and update-only-if-changed.
  - `Tokens`, `AuthService`: refresh-token issuance, the token-store queries and the two login flows.
  - `Sorting`: sort-field mapping, `SortUtil`, `RequestParamValidator` and the search-request defaults.
  - `Filters`: the three paper specifications and the request specification as predicates.
  - `Requests`: the document-request state machine (`PENDING`, `ACCEPTED`, `REJECTED`).
  - `Files`: upload validation, path containment in `saveFile`, extension and file-name helpers, content type and disposition.
  - `Papers`: listings, visibility, archive and unarchive, edit, delete, download authorisation and upload-path construction.
  - `Listing`: the departments and years offered to the search form.
  - `Cookies`: the refresh-token cookie.

Clocks, UUIDs, fresh database ids and the Google token verifier are
parameters. File contents, YAML parsing and the network are not modelled.

## Model

| member | source | states |
|---|---|---|
| AuthService.CreateRefreshToken | src/main/java/com/acd/researchrepo/service/AuthService.java:95-104 | every earlier refresh token of the user is deleted, other users' tokens stay as they were, and the one new row holds the fresh value and expires 30 days after `now` |
| AuthService.ExactlyOneTokenPerUser | src/main/java/com/acd/researchrepo/service/AuthService.java:95-104 | after issuance the set of the user's tokens is exactly the new one |
| AuthService.IssuanceKeepsKeyed | src/main/java/com/acd/researchrepo/service/AuthService.java:95-104 | issuance keeps the token table keyed by token value, and `findByToken` then finds the new row |
| AuthService.FindOrCreateUser | src/main/java/com/acd/researchrepo/service/AuthService.java:76-93 | a user stored under exactly that email is returned and nothing is saved; otherwise a STUDENT without department or picture is inserted under the email |
| AuthService.AuthenticateWithGoogle | src/main/java/com/acd/researchrepo/service/AuthService.java:46-93 | fails exactly when the Google validation fails; otherwise the returned user is the row stored under the Google-verified email (with that email, in an email-keyed table): the existing row, unchanged and with the user table untouched, or a new STUDENT without department; the token table is untouched, existing users are kept and the access token is the one generated for the user |
| AuthService.AuthenticateWithGoogleAndGetRefreshToken | src/main/java/com/acd/researchrepo/service/AuthService.java:64-104 | fails exactly when the Google validation fails; otherwise the returned user is the row stored under the Google-verified email, as in the first flow; the returned refresh token is stored for that user and expires 30 days after `now`, it is the user's only token, and every other user's tokens are kept unchanged |
| AuthService.FlowsAgree | src/main/java/com/acd/researchrepo/service/AuthService.java:46-74 | the two sign-in flows succeed together and agree on the user, the access token and the user table |
| AuthService.FirstSignInIsStudent | src/main/java/com/acd/researchrepo/service/AuthService.java:83-90 | a first sign-in is stored as a STUDENT without department, whatever the privileged registry says, and its access token has role STUDENT and no departmentId claim |
| Tokens.FindByToken | src/main/java/com/acd/researchrepo/repository/RefreshTokenRepository.java:14 | a row is found exactly when one is stored under the value, and it is that row |
| Tokens.DeleteByUserId | src/main/java/com/acd/researchrepo/repository/UserRepository.java:18-20 | exactly the rows of the user are removed, and the others are kept unchanged |
| Tokens.DeleteExpiredTokens | src/main/java/com/acd/researchrepo/repository/UserRepository.java:22-24 | exactly the rows whose expiry lies strictly before `now` are removed |
| Tokens.DeleteExpiredByUserId | src/main/java/com/acd/researchrepo/repository/RefreshTokenRepository.java:22-24 | exactly the user's rows that expired strictly before `now` are removed; other users' rows are untouched |
| Tokens.DeletesIdempotent | src/main/java/com/acd/researchrepo/repository/UserRepository.java:18-24 | running any of the three deletes twice removes nothing more |
| Tokens.PerUserPurgeWithinGlobalPurge | src/main/java/com/acd/researchrepo/repository/RefreshTokenRepository.java:23-24 | the per-user purge is the global purge restricted to one user, so it keeps everything the global one keeps |
| Tokens.ExpiryIsStrict | src/main/java/com/acd/researchrepo/repository/RefreshTokenRepository.java:23 | a token expiring exactly at `now` survives both purges |
| Tokens.DeletesKeepKeyed | src/main/java/com/acd/researchrepo/repository/UserRepository.java:18-24 | each delete keeps the table keyed by token value |
| Errors.HttpStatus | src/main/java/com/acd/researchrepo/exception/ErrorCode.java:11-44 | every code maps to a 4xx or 5xx status, and to a 5xx one exactly for INTERNAL_ERROR, FILE_STORAGE_ERROR and SERVICE_UNAVAILABLE |
| Errors.DefaultMessagesDistinct | src/main/java/com/acd/researchrepo/exception/ErrorCode.java:12-44 | no two codes share a default message |
| Errors.WithCode | src/main/java/com/acd/researchrepo/exception/ApiException.java:17-19 | the exception has the code, the code's default message, no details and no custom message |
| Errors.WithMessage | src/main/java/com/acd/researchrepo/exception/ApiException.java:22-24 | the given text becomes the logged message, and the custom message stays empty |
| Errors.WithDetails | src/main/java/com/acd/researchrepo/exception/ApiException.java:27-29 | the details are kept, the message is the default one, and there is no custom message |
| Errors.DisplayMessage | src/main/java/com/acd/researchrepo/exception/ApiException.java:40-42 | a custom message is shown when present, otherwise the code's default |
| Errors.DisplayIsAlwaysDefault | src/main/java/com/acd/researchrepo/exception/ApiException.java:17-36 | no public constructor sets the custom message, so every exception displays its code's default message |
| Errors.DetailsOnlyFromFieldErrors | src/main/java/com/acd/researchrepo/exception/ApiException.java:17-29 | only the field-error constructor carries details |
| GoogleAuth.GetVerifiedEmail | src/main/java/com/acd/researchrepo/service/GoogleAuthService.java:142-151 | the email is returned exactly when it is verified and present; an unverified or missing one gives INVALID_TOKEN, and a missing verified flag throws on unboxing |
| GoogleAuth.AnyLowerMatch | src/main/java/com/acd/researchrepo/service/GoogleAuthService.java:129 | true exactly when some entry, lower-cased, equals the name |
| GoogleAuth.IsPrivilegedUser | src/main/java/com/acd/researchrepo/service/GoogleAuthService.java:122-140 | no registry means not privileged; a listed super admin or teacher is privileged; otherwise the department-admin map decides, and its failure propagates |
| GoogleAuth.EnforceDomainRestrictions | src/main/java/com/acd/researchrepo/service/GoogleAuthService.java:110-120 | in production the email must end with "acdeducation.com", elsewhere with ".com"; a refusal is DOMAIN_NOT_ALLOWED |
| GoogleAuth.VerifyAndExtractPayload | src/main/java/com/acd/researchrepo/service/GoogleAuthService.java:91-108 | a missing or unverifiable ID token is INVALID_TOKEN; a verified one yields its payload |
| GoogleAuth.ValidateCodeAndGetUserInfo | src/main/java/com/acd/researchrepo/service/GoogleAuthService.java:61-78 | a failed code exchange is INVALID_TOKEN; a success carries the payload's email, name and subject and no picture |
| GoogleAuth.SignInPolicy | src/main/java/com/acd/researchrepo/service/GoogleAuthService.java:61-78 | for a verified token, the outcome is: the email check first, then the privilege lookup; a privileged user is admitted, and anyone else only with the domain the environment requires |
| GoogleAuth.UnverifiedEmailRefusedFirst | src/main/java/com/acd/researchrepo/service/GoogleAuthService.java:142-149 | an unverified or missing email is refused with INVALID_TOKEN before any privilege or domain check |
| GoogleAuth.UnverifiableTokenRefused | src/main/java/com/acd/researchrepo/service/GoogleAuthService.java:91-105 | a missing or unverifiable ID token refuses the sign-in with INVALID_TOKEN |
| GoogleAuth.ProductionSuffixQuirks | src/main/java/com/acd/researchrepo/service/GoogleAuthService.java:111-113 | the suffix test is case-sensitive and has no "@", so "jo@ACDEDUCATION.COM" is refused and "jo@notacdeducation.com" admitted |
| GoogleAuth.MixedCaseSuperAdminPrivileged | src/main/java/com/acd/researchrepo/service/GoogleAuthService.java:123-130 | a mixed-case registry entry matches a mixed-case, space-padded sign-in email |
| Jwt.GenerateAccessToken | src/main/java/com/acd/researchrepo/service/JwtService.java:40-61 | the claims carry the email, the full name and the role name, a departmentId exactly when the user has a department, the user id as subject, the issuer, and an expiry `accessTokenExpirySeconds` after the issue time; there is no picture claim |
| Jwt.ClaimAsString | src/main/java/com/acd/researchrepo/security/CustomJwtAuthConverter.java:22-26 | absent exactly when the claim is missing; a string claim is returned as is |
| Jwt.ClaimAsNumber | src/main/java/com/acd/researchrepo/security/CustomJwtAuthConverter.java:30 | a missing claim is null, a numeric one its number, and any other kind a class-cast failure |
| Jwt.ParseRole | src/main/java/com/acd/researchrepo/security/CustomJwtAuthConverter.java:24-25 | a missing role stays null, a role name parses to its role, and any other text is an illegal-argument failure |
| Jwt.ParseSubject | src/main/java/com/acd/researchrepo/security/CustomJwtAuthConverter.java:21 | the subject parses exactly when it is a decimal 32-bit integer; otherwise a number-format failure |
| Jwt.Convert | src/main/java/com/acd/researchrepo/security/CustomJwtAuthConverter.java:20-55 | conversion succeeds exactly when the subject parses as an int, a role claim names a role exactly, and a departmentId claim is a number; a bad subject is a number-format error, then a bad role an illegal-argument error, and otherwise a class-cast error; on success the principal takes the subject as id, the string claims as they are, the claimed role (none when unclaimed), and a department exactly when departmentId is claimed (truncated to 32 bits); its authorities are the principal's and its attributes the claims |
| Jwt.ConvertWithoutDepartment | src/main/java/com/acd/researchrepo/security/CustomJwtAuthenticationConverter.java:19-48 | succeeds exactly when the subject parses and a role claim names a role, failing with a number-format or else an illegal-argument error; as `Convert` for id, email, name and role, but the principal never has a department or picture |
| Jwt.ConvertRoundTrip | src/main/java/com/acd/researchrepo/service/JwtService.java:44-58 | converting a generated token gives back the user's id, email, name, role and department, and exactly the authority ROLE_<role> |
| Jwt.ConvertersAgree | src/main/java/com/acd/researchrepo/security/CustomJwtAuthenticationConverter.java:19-48 | whenever the full converter succeeds, the older one gives the same principal without department and picture |
| Jwt.OlderConverterDropsDepartment | src/main/java/com/acd/researchrepo/security/CustomJwtAuthenticationConverter.java:28-33 | a department admin's token carries departmentId, yet the older converter's principal has no department |
| Jwt.MissingRoleGrantsNothing | src/main/java/com/acd/researchrepo/security/CustomJwtAuthConverter.java:24-25 | a token without a role converts to a principal with no authority that passes no role check |
| Jwt.UnknownRoleRejected | src/main/java/com/acd/researchrepo/security/CustomJwtAuthConverter.java:25 | for every token with a parsable subject, a role claim that is not the exact name of a role makes both converters fail with an illegal-argument error |
| Jwt.LowerCaseRoleRejected | src/main/java/com/acd/researchrepo/security/CustomJwtAuthConverter.java:25 | the lower-case role "admin" is such a name |
| SqlLike.ContainsPattern | src/main/java/com/acd/researchrepo/spec/ResearchPaperSpec.java:78 | the pattern is the term between two `%` signs |
| SqlLike.LikeAnything | src/main/java/com/acd/researchrepo/spec/ResearchPaperSpec.java:78-82 | the pattern `%` matches every text |
| SqlLike.LikePrefix | src/main/java/com/acd/researchrepo/spec/ResearchPaperSpec.java:78-82 | for a term without wildcards, `term%` matches exactly the texts that start with the term |
| SqlLike.LikeLeadingPercent | src/main/java/com/acd/researchrepo/spec/ResearchPaperSpec.java:78-82 | `%q` matches a text exactly when `q` matches one of its suffixes |
| SqlLike.ContainsPatternIsSubstring | src/main/java/com/acd/researchrepo/spec/ResearchPaperSpec.java:78-82 | for a term without wildcards, `%term%` matches exactly the texts that contain the term |
| SqlLike.UnderscoreIsWildcard | src/main/java/com/acd/researchrepo/spec/ResearchPaperSpec.java:78 | the search term is not escaped, so a search for "_" matches "a", which does not contain "_" |
| Model.RoleValueOf | src/main/java/com/acd/researchrepo/security/CustomJwtAuthConverter.java:25 | a parsed role's name is exactly the text parsed |
| Model.RoleNameRoundTrip | src/main/java/com/acd/researchrepo/service/JwtService.java:47 | the role name written into a token parses back to the same role |
| Model.RoleValueOfLowerCase | src/main/java/com/acd/researchrepo/security/CustomJwtAuthConverter.java:25 | role names are case-sensitive: "student" is not a role |
| Model.WithinYearIffSameYear | src/main/java/com/acd/researchrepo/spec/ResearchPaperSpec.java:94-97 | for a valid date, lying between January 1 and December 31 of a year means having that year |
| Filters.MatchesAppend | src/main/java/com/acd/researchrepo/spec/ResearchPaperSpec.java:38 | the conjunction of two lists of predicates is the conjunction of their conjunctions |
| Filters.MatchesSingleton | src/main/java/com/acd/researchrepo/spec/ResearchPaperSpec.java:38 | a one-predicate conjunction is that predicate |
| Filters.SearchKey | src/main/java/com/acd/researchrepo/spec/ResearchPaperSpec.java:78 | the search key is lower case and adds no wildcard |
| Filters.AddCommonPredicates | src/main/java/com/acd/researchrepo/spec/ResearchPaperSpec.java:67-106 | no predicate is added exactly when the term is missing or blank, both lists are missing or empty, and no archive flag is given |
| Filters.PaperSpec | src/main/java/com/acd/researchrepo/spec/ResearchPaperSpec.java:29-65 | with no filter every paper passes; a passing paper lies in a listed department, has the requested archive flag and, for a valid date, a listed submission year |
| Filters.ContainsSearch | src/main/java/com/acd/researchrepo/spec/ResearchPaperSpec.java:79-82 | for a term without wildcards, the search predicate holds exactly when the lower-cased title, author or abstract contains the term |
| Filters.SearchCriteriaMeaning | src/main/java/com/acd/researchrepo/spec/ResearchPaperSpec.java:76-83 | for a term without wildcards, a paper passes the search exactly when the term is missing or blank or one of the three fields contains the trimmed, lower-cased term |
| Filters.YearsCriteriaMeaning | src/main/java/com/acd/researchrepo/spec/ResearchPaperSpec.java:90-100 | a paper with a valid date passes the year filter exactly when no years are given or its year is among them |
| Filters.PaperSpecMeaning | src/main/java/com/acd/researchrepo/spec/ResearchPaperSpec.java:29-106 | a paper with a valid date passes `build` exactly when it passes each of the four filters, each ignored when its input is missing or empty |
| Filters.PercentSearchMatchesAll | src/main/java/com/acd/researchrepo/spec/ResearchPaperSpec.java:77-78 | searching for "%" matches every paper |
| Filters.RangeSpecification | src/main/java/com/acd/researchrepo/specification/ResearchPaperSpecification.java:32-73 | a given year adds the January-to-December range and a non-empty term adds the untrimmed search |
| Filters.ExtractSpecification | src/main/java/com/acd/researchrepo/specifications/ResearchPaperSpecifications.java:13-51 | a given year adds the `year(submissionDate)` test and a non-empty term adds the untrimmed search |
| Filters.SingleYearSpecificationsAgree | src/main/java/com/acd/researchrepo/specifications/ResearchPaperSpecifications.java:40-42 | on papers with valid dates the two single-year specifications accept the same papers |
| Filters.ExtractSpecificationMeaning | src/main/java/com/acd/researchrepo/specifications/ResearchPaperSpecifications.java:13-51 | for a term without `%` or `_`, the specification accepts a paper exactly when the lower-cased, untrimmed term occurs in a lower-cased title, author or abstract, the department is listed, the submission year is the one asked for and the archive flag agrees; each absent filter, and an empty term, accepts everything |
| Filters.RangeSpecificationMeaning | src/main/java/com/acd/researchrepo/specification/ResearchPaperSpecification.java:32-73 | for a term without `%` or `_` and a paper with a valid date, the range specification accepts exactly what the extraction specification is stated to accept |
| Filters.UntrimmedSearchMeaning | src/main/java/com/acd/researchrepo/specification/ResearchPaperSpecification.java:41-50 | for a term without `%` or `_`, the untrimmed search accepts a paper exactly when the term is empty or, lower-cased, occurs in a lower-cased title, author or abstract |
| Filters.SingleYearIsOneElementList | src/main/java/com/acd/researchrepo/specification/ResearchPaperSpecification.java:42-63 | when the term needs no trimming, the single-year specification accepts what `build` with a one-year list accepts |
| Filters.SwapMiddle | src/main/java/com/acd/researchrepo/spec/ResearchPaperSpec.java:38 | replacing one predicate by an equivalent one keeps the conjunction's meaning |
| Filters.WhitespaceSearchDiffers | src/main/java/com/acd/researchrepo/specification/ResearchPaperSpecification.java:42-43 | a search for " " matches everything in `ResearchPaperSpec` (trimmed away) but nothing without a space in the single-year specification (not trimmed) |
| Filters.AdminRequestFilter | src/main/java/com/acd/researchrepo/spec/DocumentRequestSpec.java:27-31 | a request passes exactly when its paper lies in the department (any, when none is given) and its status is one of the statuses (any, when the list is null or empty) |
| Filters.HasDepartmentId | src/main/java/com/acd/researchrepo/spec/DocumentRequestSpec.java:12-17 | no department id accepts every request; otherwise exactly the requests whose paper is in that department |
| Filters.HasStatusIn | src/main/java/com/acd/researchrepo/spec/DocumentRequestSpec.java:19-25 | a null or empty status list accepts every request; otherwise exactly the requests whose status is listed |
| Filters.StatusListIsUnion | src/main/java/com/acd/researchrepo/spec/DocumentRequestSpec.java:20-31 | for every department and request, a non-empty status list passes exactly the requests that one of its one-status lists passes |
| Privileged.Collect | src/main/java/com/acd/researchrepo/config/PrivilegedUserConfig.java:29-30 | building the map fails only with a null-pointer error (missing email) or an illegal-state error (duplicate key) |
| Privileged.CollectSpec | src/main/java/com/acd/researchrepo/config/PrivilegedUserConfig.java:29-30 | the map is built exactly when every entry has an email and a department and the lower-cased emails are distinct and new; it then maps each lower-cased email to its department and nothing else |
| Privileged.DepartmentAdminsMapSpec | src/main/java/com/acd/researchrepo/config/PrivilegedUserConfig.java:26-31 | the map is built exactly when the entries are complete with distinct lower-cased emails, and it maps each such email to its department |
| Privileged.DepartmentAdminsMap | src/main/java/com/acd/researchrepo/config/PrivilegedUserConfig.java:26-31 | a missing list gives the empty map; otherwise the map is built exactly when the entries are complete with distinct lower-cased emails, fails only with a null-pointer or illegal-state error, and maps each entry's lower-cased email, and no other key, to its department id |
| Privileged.DepartmentAdminsMapMeaning | src/main/java/com/acd/researchrepo/config/PrivilegedUserConfig.java:26-31 | with or without a `department_admins` list, the map is built exactly when the entries are complete with distinct lower-cased emails; its keys are exactly the lower-cased emails of the entries, each mapped to its entry's department, and a failure is a null-pointer or illegal-state error |
| Privileged.NoDepartmentAdminsListIsEmptyMap | src/main/java/com/acd/researchrepo/config/PrivilegedUserConfig.java:27-28 | a missing list gives the empty map |
| Privileged.MixedCaseEntryFoundLowerCase | src/main/java/com/acd/researchrepo/config/PrivilegedUserConfig.java:30 | an entry "Dean@School.com" is stored under "dean@school.com" |
| Privileged.CaseVariantsCollide | src/main/java/com/acd/researchrepo/config/PrivilegedUserConfig.java:29-30 | two entries that differ only in case make the map fail with an illegal-state error |
| Privileged.Validate | src/main/java/com/acd/researchrepo/service/PrivilegedUserConfigLoader.java:47-68 | a null registry fails with a null-pointer error; otherwise validation passes exactly when every department-admin entry has an email and a department, and fails with SERVICE_UNAVAILABLE |
| Privileged.LoadConfig | src/main/java/com/acd/researchrepo/service/PrivilegedUserConfigLoader.java:33-45 | a read failure leaves the loader as it was; a parsed registry is stored before validation; the load passes exactly when parsing and validation pass, and any failure becomes an illegal-state error |
| Privileged.GetPrivilegedUserConfig | src/main/java/com/acd/researchrepo/service/PrivilegedUserConfigLoader.java:71-73 | the getter has no contract of its own; Privileged.SuccessfulLoadIsVisible and Privileged.FailedValidationStillStored state what it returns after a load |
| Privileged.SuccessfulLoadIsVisible | src/main/java/com/acd/researchrepo/service/PrivilegedUserConfigLoader.java:33-45 | after a successful load the getter returns the registry just read, which is not null |
| Privileged.FailedValidationStillStored | src/main/java/com/acd/researchrepo/service/PrivilegedUserConfigLoader.java:37-39 | a registry that fails validation is still returned by the getter, although the load threw |
| Privileged.MissingListsAccepted | src/main/java/com/acd/researchrepo/service/PrivilegedUserConfigLoader.java:50-58 | a registry with all three lists missing passes validation |
| Privileged.ValidateMissesCollision | src/main/java/com/acd/researchrepo/service/PrivilegedUserConfigLoader.java:47-68 | a registry with entries "a@x.com" and "A@x.com" passes validation, yet its map cannot be built |
| Privileged.ValidateDistinct | src/main/java/com/acd/researchrepo/service/PrivilegedUserConfigLoader.java:47-68 | the stricter validation fails with the same errors as `validate`, and whatever it accepts `validate` accepts too |
| Privileged.ValidateDistinctSound | src/main/java/com/acd/researchrepo/config/PrivilegedUserConfig.java:26-31 | every registry the stricter validation accepts yields a department-admin map |
| Privileged.LoadConfigDistinct | src/main/java/com/acd/researchrepo/service/PrivilegedUserConfigLoader.java:33-45 | after a successful load with the stricter validation, the stored registry's map can always be built |
| UserService.NormalizeEmail | src/main/java/com/acd/researchrepo/service/UserService.java:62-64 | the normalised email is lower case and has no leading or trailing space |
| UserService.NormalizeIdempotent | src/main/java/com/acd/researchrepo/service/UserService.java:62-64 | normalising twice is normalising once |
| UserService.DetermineUserRole | src/main/java/com/acd/researchrepo/service/UserService.java:66-77 | a null registry throws; an email written exactly in the super-admin list is SUPER_ADMIN whatever else lists it; otherwise one written exactly in the teacher list is TEACHER; otherwise it is DEPARTMENT_ADMIN exactly when a department-admin entry names it once lower-cased, and STUDENT when none does; an incomplete or colliding department-admin list then throws a null-pointer or illegal-state error |
| UserService.PrivilegedRoleSignsIn | src/main/java/com/acd/researchrepo/service/GoogleAuthService.java:121-139 | for every registry, an email whose normalised form is given any role other than STUDENT passes the sign-in privilege check |
| UserService.UnprivilegedBecomesStudent | src/main/java/com/acd/researchrepo/service/UserService.java:66-77 | for every registry, an email the sign-in privilege check finds unprivileged is provisioned as a STUDENT |
| UserService.ResolveDepartment | src/main/java/com/acd/researchrepo/service/UserService.java:79-89 | a null registry throws and so does an incomplete or colliding department-admin list; an email no entry names has no department; for an email an entry names, the answer is a stored department with that entry's id, or an illegal-argument error exactly when no department has that id |
| UserService.DepartmentFollowsRole | src/main/java/com/acd/researchrepo/service/UserService.java:66-89 | a STUDENT is given no department, and a DEPARTMENT_ADMIN is given a stored department or provisioning fails with an illegal-argument error |
| UserService.UpdateUserIfChanged | src/main/java/com/acd/researchrepo/service/UserService.java:91-120 | the user ends up with the new role, department, name and picture and keeps id and email, and `changed` holds exactly when something differs |
| UserService.UpdateIdempotent | src/main/java/com/acd/researchrepo/service/UserService.java:91-120 | a second update with the same data changes nothing |
| UserService.FindOrCreateUser | src/main/java/com/acd/researchrepo/service/UserService.java:34-60 | fails exactly when the role or the department cannot be determined; otherwise the user under the normalised email has the determined role and department, Google's name and picture, keeps an existing id, and is the only row written |
| UserService.UnchangedUserNotSaved | src/main/java/com/acd/researchrepo/service/UserService.java:43-49 | an existing user whose data is unchanged is returned as stored and the table is not written |
| UserService.TeacherWithDepartment | src/main/java/com/acd/researchrepo/service/UserService.java:66-89 | an email listed as teacher and as department admin becomes a TEACHER that still gets the department |
| UserService.UnknownDepartmentRejected | src/main/java/com/acd/researchrepo/service/UserService.java:83-85 | a department admin mapped to a department that is not stored makes provisioning fail |
| UserService.MixedCaseSuperAdminBecomesStudent | src/main/java/com/acd/researchrepo/service/UserService.java:67 | an entry "Boss@x.com" counts as privileged at sign-in, but the exact `contains` on the normalised email makes the user a STUDENT |
| Security.Authorities | src/main/java/com/acd/researchrepo/security/CustomUserPrincipal.java:26-31 | a principal without role has no authority; one with a role has exactly one, starting with "ROLE_" |
| Security.AuthorityNamesRole | src/main/java/com/acd/researchrepo/security/CustomUserPrincipal.java:28 | stripping "ROLE_" from the authority gives back the principal's role |
| Security.GetDepartmentId | src/main/java/com/acd/researchrepo/security/CustomUserPrincipal.java:53-55 | null exactly when the user has no department, otherwise that department's id |
| Security.GetName | src/main/java/com/acd/researchrepo/security/CustomUserPrincipal.java:69-71 | the name is never empty |
| Security.GetNameIdentifiesUser | src/main/java/com/acd/researchrepo/security/CustomUserPrincipal.java:69-71 | parsing the name gives back the user id |
| Security.RoleAmong | src/main/java/com/acd/researchrepo/util/RoleBasedAccess.java:39-50 | true exactly when the role is present and listed; a null role matches nothing |
| Security.IsUserStudentOrTeacher | src/main/java/com/acd/researchrepo/util/RoleBasedAccess.java:15-17 | true exactly when the principal's role is STUDENT or TEACHER; a null principal or role gives false |
| Security.IsUserAdmin | src/main/java/com/acd/researchrepo/util/RoleBasedAccess.java:19-21 | true exactly when the role is DEPARTMENT_ADMIN or SUPER_ADMIN |
| Security.IsUserStudent | src/main/java/com/acd/researchrepo/util/RoleBasedAccess.java:23-25 | true exactly when the role is STUDENT |
| Security.IsUserTeacher | src/main/java/com/acd/researchrepo/util/RoleBasedAccess.java:27-29 | true exactly when the role is TEACHER |
| Security.IsUserDepartmentAdmin | src/main/java/com/acd/researchrepo/util/RoleBasedAccess.java:31-33 | true exactly when the role is DEPARTMENT_ADMIN |
| Security.IsUserSuperAdmin | src/main/java/com/acd/researchrepo/util/RoleBasedAccess.java:35-37 | true exactly when the role is SUPER_ADMIN |
| Security.RolePredicatesByRole | src/main/java/com/acd/researchrepo/util/RoleBasedAccess.java:15-37 | each role check holds exactly when the principal exists and has one of its roles |
| Security.AdminOrStudentTeacher | src/main/java/com/acd/researchrepo/util/RoleBasedAccess.java:15-21 | a principal with a role is an admin exactly when it is not a student or teacher; without a role it is neither |
| Security.CompositePredicates | src/main/java/com/acd/researchrepo/util/RoleBasedAccess.java:15-37 | the admin check is the union of the two admin roles, and the student-or-teacher check the union of those two |
| Sorting.DirectionOf | src/main/java/com/acd/researchrepo/util/SortUtil.java:30 | ascending exactly when the order is "asc" in any case; anything else, null included, is descending |
| Sorting.CreateSort | src/main/java/com/acd/researchrepo/util/SortUtil.java:20-36 | the field is an allowed target or the default; a listed key maps to its target, an unlisted one falls back to the default; the direction follows the requested order |
| Sorting.CreateSortDescending | src/main/java/com/acd/researchrepo/util/SortUtil.java:47-49 | the overload always sorts descending and otherwise agrees with the general one |
| Sorting.BlankSortByUsesDefault | src/main/java/com/acd/researchrepo/util/SortUtil.java:26-33 | a missing or blank field sorts by the default, looked up in the map like any other key |
| Sorting.ValidatePagination | src/main/java/com/acd/researchrepo/util/RequestParamValidator.java:17-25 | passes exactly when the page is non-negative and the size lies in 1..100, else INVALID_REQUEST |
| Sorting.IsValidSortByField | src/main/java/com/acd/researchrepo/util/RequestParamValidator.java:51-61 | true exactly when the field is null or equal to one of the allowed fields |
| Sorting.ValidateSortParams | src/main/java/com/acd/researchrepo/util/RequestParamValidator.java:34-42 | passes exactly when the field is null or allowed and the order is "asc" or "desc" in any case; a null order fails; failures are INVALID_REQUEST |
| Sorting.ValidateStatus | src/main/java/com/acd/researchrepo/util/RequestParamValidator.java:69-89 | a missing or blank value passes; otherwise it passes exactly when every piece of the Java split on "," matches an allowed status after trimming, ignoring case |
| Sorting.SplitAllJoin | src/main/java/com/acd/researchrepo/util/RequestParamValidator.java:74 | splitting joined pieces that hold no separator gives the pieces back |
| Sorting.JavaSplitJoin | src/main/java/com/acd/researchrepo/util/RequestParamValidator.java:74 | the Java split of joined pieces gives a prefix of them (trailing empty pieces are dropped) |
| Sorting.JoinedStatusesAccepted | src/main/java/com/acd/researchrepo/util/RequestParamValidator.java:69-89 | a comma-joined list of allowed statuses passes |
| Sorting.LoneCommaAccepted | src/main/java/com/acd/researchrepo/util/RequestParamValidator.java:74-75 | the value "," passes, because the split yields no pieces |
| Sorting.LeadingEmptyPieceRefused | src/main/java/com/acd/researchrepo/util/RequestParamValidator.java:74-87 | ",a" is refused, because its leading empty piece is kept |
| Sorting.FromApiField | src/main/java/com/acd/researchrepo/util/enums/ResearchPaperSortField.java:19-26 | the result is the default or a table entry's entity field; when some entry's name matches ignoring case, the result is the entity field of a matching entry, else the default; the first matching entry decides |
| Sorting.FromApiFieldCanonical | src/main/java/com/acd/researchrepo/util/enums/ResearchPaperSortField.java:7-26 | in a table whose api and entity names coincide, a matched name maps to itself up to case |
| Sorting.SortFieldTables | src/main/java/com/acd/researchrepo/util/enums/DocumentRequestSortField.java:7-27 | both tables name each field the same on both sides; "TITLE" maps to "title", a missing field to the default, and "paper_title" is not a request field |
| Sorting.DefaultPaperSearch | src/main/java/com/acd/researchrepo/dto/external/papers/ResearchPaperSearchRequest.java:20-36 | an unbound paper search asks for page 0 of 20, newest submissions first |
| Sorting.PageRequestOf | src/main/java/com/acd/researchrepo/dto/external/papers/ResearchPaperSearchRequest.java:41 | a page request is built exactly when the page is non-negative and the size positive, else an illegal-argument error |
| Sorting.PaperToPageable | src/main/java/com/acd/researchrepo/dto/external/papers/ResearchPaperSearchRequest.java:38-42 | succeeds exactly when page and size are in range, and then keeps them, maps the field through the paper table and takes the requested direction |
| Sorting.ValidPaperSearchSortsAsRequested | src/main/java/com/acd/researchrepo/dto/external/papers/ResearchPaperSearchRequest.java:25-42 | a search that passes the bean constraints becomes a page request sorted by the field and direction asked for |
| Sorting.DefaultRequestSearch | src/main/java/com/acd/researchrepo/dto/external/requests/DocumentRequestSearchRequest.java:21-36 | an unbound request search asks for page 0 of 20, newest first, without a status filter |
| Sorting.RequestToPageable | src/main/java/com/acd/researchrepo/dto/external/requests/DocumentRequestSearchRequest.java:38-42 | succeeds exactly when page and size are in range, and then maps the field through the request table and takes the requested direction |
| Sorting.RequestSortPatternDot | src/main/java/com/acd/researchrepo/dto/external/requests/DocumentRequestSearchRequest.java:32-40 | the dot in the field pattern is unescaped, so "paper_title" passes validation and then sorts by creation date |
| Sorting.LineBreakRefusedBySortPattern | src/main/java/com/acd/researchrepo/dto/external/requests/DocumentRequestSearchRequest.java:32 | the regular-expression dot matches no line terminator, so "paper\ntitle" fails the sort-field pattern |
| Requests.CreateGuards | src/main/java/com/acd/researchrepo/service/DocumentRequestService.java:76-90 | the guards pass exactly when the caller is a student or teacher, the paper id is positive and the caller has no PENDING or ACCEPTED request for it |
| Requests.NewRequest | src/main/java/com/acd/researchrepo/service/DocumentRequestService.java:92-95 | a new request is PENDING, has no rejection reason, and records user, paper and date |
| Requests.CreateRequest | src/main/java/com/acd/researchrepo/service/DocumentRequestService.java:72-102 | a refusal changes nothing: not a student or teacher is ACCESS_DENIED, a missing or non-positive id INVALID_REQUEST, and a missing paper that passes the guards a no-such-element failure; success adds exactly one PENDING request under the fresh id and keeps every other request |
| Requests.CreateRequestChecked | src/main/java/com/acd/researchrepo/service/DocumentRequestService.java:84-94 | the same request is created in the same cases, but a missing paper is RESOURCE_NOT_FOUND and every failure is an API error |
| Requests.CreateRequestMissingPaperThrows | src/main/java/com/acd/researchrepo/service/DocumentRequestService.java:84-94 | a student asking for paper 7 in an empty store gets a no-such-element failure as written and RESOURCE_NOT_FOUND once corrected |
| Requests.CreatePreservesInvariants | src/main/java/com/acd/researchrepo/service/DocumentRequestService.java:86-97 | creating keeps both tables well formed and keeps at most one active request per user and paper |
| Requests.DeleteRequest | src/main/java/com/acd/researchrepo/service/DocumentRequestService.java:104-127 | a refusal changes nothing; someone else's or a missing request is RESOURCE_NOT_FOUND; the owner deletes exactly that request when it is PENDING or REJECTED, and an ACCEPTED one is refused |
| Requests.DeletePreservesInvariants | src/main/java/com/acd/researchrepo/service/DocumentRequestService.java:122-123 | deleting keeps the tables well formed and active requests unique |
| Requests.Decided | src/main/java/com/acd/researchrepo/service/DocumentRequestService.java:217-256 | a decision sets the status and, for a rejection, the reason, and keeps the request's id, owner, paper and date |
| Requests.DepartmentGuard | src/main/java/com/acd/researchrepo/service/DocumentRequestService.java:206-214 | only a department admin is checked: they pass exactly when their department is the paper's; a missing department gives the configured error, another department ACCESS_DENIED |
| Requests.AdminDecision | src/main/java/com/acd/researchrepo/service/DocumentRequestService.java:185-260 | a refusal changes nothing; the checks run admin, existence, terminal state, archived paper, department in that order with their codes; success replaces exactly the one request by its decided form |
| Requests.AcceptRequest | src/main/java/com/acd/researchrepo/service/DocumentRequestService.java:185-221 | only a PENDING request is accepted, and a refusal changes nothing |
| Requests.RejectRequest | src/main/java/com/acd/researchrepo/service/DocumentRequestService.java:223-260 | a PENDING or ACCEPTED request is rejected with the given reason, and a refusal changes nothing |
| Requests.AcceptRequestChecked | src/main/java/com/acd/researchrepo/service/DocumentRequestService.java:206-214 | succeeds in exactly the cases the original does, and every refusal is an API error |
| Requests.RejectRequestChecked | src/main/java/com/acd/researchrepo/service/DocumentRequestService.java:244-252 | succeeds in exactly the cases the original does, and every refusal is an API error |
| Requests.DepartmentlessAdminThrows | src/main/java/com/acd/researchrepo/service/DocumentRequestService.java:207-210 | a department admin without a department accepting a pending request of a live paper hits a null-pointer error as written, and ACCESS_DENIED once corrected |
| Requests.DecisionPreservesInvariants | src/main/java/com/acd/researchrepo/service/DocumentRequestService.java:216-257 | accepting or rejecting keeps the tables well formed and active requests unique |
| Requests.RejectedIsTerminal | src/main/java/com/acd/researchrepo/service/DocumentRequestService.java:197-237 | no decision changes a REJECTED request |
| Requests.AcceptedCanOnlyBeRejected | src/main/java/com/acd/researchrepo/service/DocumentRequestService.java:197-237 | an ACCEPTED request can be neither accepted again nor deleted by its owner (the delete guard at lines 122-125), but a super admin can still reject it while the paper is live |
| Requests.GetUserRequestForPaper | src/main/java/com/acd/researchrepo/service/DocumentRequestService.java:129-154 | the role, id and paper checks fail with their codes; for a live paper the caller has no request of, the answer is RESOURCE_NOT_FOUND, for exactly one it is that request, and for two or more the lookup throws an incorrect-result-size error |
| Requests.FirstRequestIsFound | src/main/java/com/acd/researchrepo/service/DocumentRequestService.java:84-154 | after a first request for a live paper is created, asking for the caller's request for that paper returns exactly the new PENDING row |
| Requests.RequestAfterRejectionThrows | src/main/java/com/acd/researchrepo/service/DocumentRequestService.java:144-146 | a user with a rejected and a newer pending request for one paper makes the lookup fail with an incorrect-result-size error |
| Requests.DepartmentIdIfDepartmentAdmin | src/main/java/com/acd/researchrepo/service/DocumentRequestService.java:262-271 | anyone but a department admin gets null; a department admin gets their department, or ACCESS_DENIED without one |
| Requests.AdminDepartmentFilter | src/main/java/com/acd/researchrepo/service/DocumentRequestService.java:166-173 | non-admins are ACCESS_DENIED; a super admin keeps the requested department; a department admin is pinned to their own, and refused without one |
| Requests.GetAdminRequests | src/main/java/com/acd/researchrepo/service/DocumentRequestService.java:156-183 | succeeds exactly when the department filter does, and then lists exactly the requests whose paper and status pass the filter |
| Requests.DepartmentAdminScoped | src/main/java/com/acd/researchrepo/service/DocumentRequestService.java:171-178 | a department admin sees requests only for papers of their own department, and nothing without a department |
| Requests.RequestSort | src/main/java/com/acd/researchrepo/service/DocumentRequestService.java:273-282 | the sort field is one of the four mapped targets, and the direction follows the order |
| Requests.RequestSortKeys | src/main/java/com/acd/researchrepo/service/DocumentRequestService.java:275-281 | "userId" sorts by "user.userId", the API's "user.fullName" is not accepted and falls back to "createdAt", and "ASC" sorts ascending |
| Files.UtilValidateFile | src/main/java/com/acd/researchrepo/util/FileStorageUtil.java:67-82 | a file passes exactly when present, non-empty, at most 20 MiB and of one of three types (PDF, Word, DOCX); a missing or empty file is INVALID_REQUEST and an oversized one FILE_TOO_LARGE |
| Files.ValidateUpload | src/main/java/com/acd/researchrepo/service/FileStorageService.java:96-109 | a file passes exactly when non-empty, at most 20 MiB and PDF or DOCX; otherwise VALIDATION_ERROR, FILE_TOO_LARGE or UNSUPPORTED_MEDIA_TYPE in that order |
| Files.ValidatorsCompared | src/main/java/com/acd/researchrepo/service/FileStorageService.java:96-109 | the service validator is the stricter: whatever it accepts the utility accepts, a Word file passes only the utility, an empty file gets different codes, and exactly 20 MiB PDF passes both |
| Files.FileExtension | src/main/java/com/acd/researchrepo/util/FileStorageUtil.java:84-93 | a non-empty extension is a dot-led suffix with no further dot, shorter than the name; it is empty exactly for a null name or when the last dot is missing or first |
| Files.FilenameFromPath | src/main/java/com/acd/researchrepo/util/FileStorageUtil.java:95-104 | null maps to null; otherwise the result is the slash-free text after the path's last slash, and a slash-free path maps to itself |
| Files.StoreFile | src/main/java/com/acd/researchrepo/util/FileStorageUtil.java:28-52 | stores exactly the files the utility validator passes, under "/files/" with the original name's extension |
| Files.FilenameFromPathRoundTrip | src/main/java/com/acd/researchrepo/util/FileStorageUtil.java:95-104 | the file name is recovered from the "/files/" path the store returns |
| Files.DeleteFindsStoredFile | src/main/java/com/acd/researchrepo/util/FileStorageUtil.java:41-59 | deleting by the path the store returned targets exactly the file it wrote |
| Files.DeleteFileTarget | src/main/java/com/acd/researchrepo/util/FileStorageUtil.java:54-59 | a null path deletes nothing; any other deletes the text after the path's last slash, resolved against the upload directory |
| Files.DeleteTargetMayLeaveUploadDir | src/main/java/com/acd/researchrepo/util/FileStorageUtil.java:54-59 | the last component is not checked: "x/.." targets ".." and "x/" targets the upload directory itself |
| Files.Names | src/main/java/com/acd/researchrepo/service/FileStorageService.java:50 | a path splits into non-empty, slash-free names |
| Files.Normalize | src/main/java/com/acd/researchrepo/service/FileStorageService.java:50 | normalising leaves no "." name, drops ".." at the start of an absolute path so that an absolute result has no ".." at all, and never lengthens the path |
| Files.SaveFile | src/main/java/com/acd/researchrepo/service/FileStorageService.java:46-65 | validation failures come first; the file is saved exactly when valid and the normalised, absolute destination lies strictly inside the root as configured, made absolute but not normalised, and then the sub-path is returned; a destination with no parent is a null-pointer failure and one outside the root INVALID_REQUEST |
| Files.AbsoluteRoot | src/main/java/com/acd/researchrepo/service/FileStorageService.java:52 | the root keeps its configured names as written, "." and ".." included; an absolute root is just those names and a relative one follows the working directory |
| Files.Destination | src/main/java/com/acd/researchrepo/service/FileStorageService.java:50 | an absolute sub-path replaces the root and is normalised; under an absolute root or sub-path no "." or ".." remains |
| Files.NormalizeAppendPlain | src/main/java/com/acd/researchrepo/service/FileStorageService.java:50 | for absolute and relative paths alike, appending names free of "." and ".." commutes with normalising |
| Files.NormalizeOfPlain | src/main/java/com/acd/researchrepo/service/FileStorageService.java:50 | for absolute and relative paths alike, normalising is the identity on names free of "." and ".." |
| Files.PlainSubPathAccepted | src/main/java/com/acd/researchrepo/service/FileStorageService.java:50-60 | under an upload directory written without "." or ".." names, absolute or relative, a valid file under a relative sub-path free of "." and ".." is saved beneath the root at exactly that sub-path |
| Files.DotRootRefusesPlainSubPaths | src/main/java/com/acd/researchrepo/service/FileStorageService.java:50-55 | with the upload directory written "./uploads", every valid file under a plain relative sub-path is refused with INVALID_REQUEST, whatever the working directory: the normalised destination has lost the "." that the root it is compared with still has |
| Files.PlainSubPathFailsWithApiError | src/main/java/com/acd/researchrepo/service/FileStorageService.java:50-55 | a plain relative sub-path never normalises to "/", so saving it fails only with API errors |
| Files.DotDotEscapeRefused | src/main/java/com/acd/researchrepo/service/FileStorageService.java:52-55 | under the upload directory "/srv/uploads" a sub-path "../x" is refused with INVALID_REQUEST |
| Files.DotSafeNamesPlain | src/main/java/com/acd/researchrepo/service/FileStorageService.java:50 | a path whose names never start with a dot has no "." or ".." names |
| Files.NamesOfRelative | src/main/java/com/acd/researchrepo/service/FileStorageService.java:50 | a non-empty relative path has at least one name |
| Files.ContentTypeFor | src/main/java/com/acd/researchrepo/controller/FileController.java:60-68 | PDF exactly for names ending ".pdf" ignoring case, DOCX exactly for ".docx", and octet-stream otherwise |
| Files.ContentTypeIgnoresCase | src/main/java/com/acd/researchrepo/controller/FileController.java:61 | the type does not depend on the name's case, and every recognised type is one the upload validator admits |
| Files.UpperCaseExtension | src/main/java/com/acd/researchrepo/controller/FileController.java:61-63 | "A.PDF" is served as PDF |
| Files.Disposition | src/main/java/com/acd/researchrepo/controller/FileController.java:47-52 | the header starts with "inline" exactly when viewing, and ends with the quoted file name |
| Files.DispositionRoundTrip | src/main/java/com/acd/researchrepo/controller/FileController.java:52 | the file name can be read back from the header exactly when it holds no double quote |
| Papers.ArchivedFlagEnforced | src/main/java/com/acd/researchrepo/spec/ResearchPaperSpec.java:102-105 | a listing filtered on the archived flag returns only papers with that flag |
| Papers.DepartmentListEnforced | src/main/java/com/acd/researchrepo/spec/ResearchPaperSpec.java:85-88 | a non-empty department list restricts the listing to those departments |
| Papers.ListingArchived | src/main/java/com/acd/researchrepo/service/ResearchPaperService.java:63-66 | a student's archived filter is forced to false; anyone else's is kept |
| Papers.GetPapers | src/main/java/com/acd/researchrepo/service/ResearchPaperService.java:59-77 | the listing holds only stored papers; a student sees exactly the live papers that match the other filters, whatever archive flag was asked for; everyone else sees exactly the papers that match all the filters |
| Papers.StudentListingHidesArchived | src/main/java/com/acd/researchrepo/service/ResearchPaperService.java:63-72 | every paper matching a student's forced filter is live |
| Papers.AdminDepartmentIds | src/main/java/com/acd/researchrepo/service/ResearchPaperService.java:89-106 | non-admins are ACCESS_DENIED; a super admin keeps the requested departments; a department admin is pinned to their own and refused without one |
| Papers.GetAdminPapers | src/main/java/com/acd/researchrepo/service/ResearchPaperService.java:85-117 | succeeds exactly when the department scoping does, and then lists exactly the papers matching the scoped filters, archived ones included |
| Papers.DepartmentAdminListingScoped | src/main/java/com/acd/researchrepo/service/ResearchPaperService.java:96-102 | a department admin's admin listing holds only papers of their own department |
| Papers.SuperAdminListingsAgree | src/main/java/com/acd/researchrepo/service/ResearchPaperService.java:59-117 | for a super admin the admin listing and the public listing coincide |
| Papers.GetPaperById | src/main/java/com/acd/researchrepo/service/ResearchPaperService.java:119-133 | a paper is returned exactly when stored and not hidden from a student or teacher by archiving; every failure is RESOURCE_NOT_FOUND |
| Papers.ListingAndLookupCompared | src/main/java/com/acd/researchrepo/service/ResearchPaperService.java:63-130 | a student can open every paper they are listed, but a teacher is listed archived papers that the lookup then reports as not found |
| Papers.AdminAccess | src/main/java/com/acd/researchrepo/service/ResearchPaperService.java:279-295 | access is granted exactly to an admin for a stored paper, a department admin only within their department; refusals are ACCESS_DENIED or RESOURCE_NOT_FOUND |
| Papers.ForceReject | src/main/java/com/acd/researchrepo/service/ResearchPaperService.java:153-161 | exactly the PENDING and ACCEPTED requests for the paper become REJECTED with reason "Paper archived"; every other request is untouched |
| Papers.ArchivePaper | src/main/java/com/acd/researchrepo/service/ResearchPaperService.java:146-162 | succeeds exactly when admin access does; only that paper changes, becoming archived at the given time, and its active requests are force-rejected |
| Papers.UnarchivePaper | src/main/java/com/acd/researchrepo/service/ResearchPaperService.java:207-213 | succeeds exactly when admin access does; only that paper changes, losing its archived flag and time |
| Papers.ArchiveEndsActivity | src/main/java/com/acd/researchrepo/service/ResearchPaperService.java:153-161 | after archiving no request for the paper is active, and archiving twice rejects nothing more |
| Papers.ArchivePreservesInvariants | src/main/java/com/acd/researchrepo/service/ResearchPaperService.java:146-162 | archiving keeps the tables well formed and active requests unique |
| Papers.UnarchiveDoesNotRestore | src/main/java/com/acd/researchrepo/service/ResearchPaperService.java:207-213 | unarchiving an archived paper succeeds for the same admin but leaves its requests rejected |
| Papers.UpdatePaper | src/main/java/com/acd/researchrepo/service/ResearchPaperService.java:165-192 | admin-access refusals pass through; the edit succeeds exactly when access passes and the department is unchanged, or is changed by someone other than a department admin to a stored department; a saved paper takes the new title, author, abstract, date and department and keeps its id, file and archive state; a change of department is ACCESS_DENIED for a department admin, a null-argument failure for a null department and VALIDATION_ERROR for an unknown one |
| Papers.DepartmentAdminCannotMovePaper | src/main/java/com/acd/researchrepo/service/ResearchPaperService.java:179-183 | a department admin's successful edit keeps the paper in their own department |
| Papers.DeletePaper | src/main/java/com/acd/researchrepo/service/ResearchPaperService.java:195-204 | succeeds exactly when admin access does; removes exactly that paper and its requests and returns its file path for deletion |
| Papers.DeletePreservesInvariants | src/main/java/com/acd/researchrepo/service/ResearchPaperService.java:195-201 | deleting keeps the tables well formed and active requests unique |
| Papers.ValidateDownloadAccess | src/main/java/com/acd/researchrepo/service/ResearchPaperService.java:297-321 | a super admin always may; a department admin exactly within their department; a student or teacher exactly for a live paper with an ACCEPTED request of theirs; an archived paper is RESOURCE_NOT_AVAILABLE to non-admins |
| Papers.DownloadPaper | src/main/java/com/acd/researchrepo/service/ResearchPaperService.java:215-222 | a missing paper is RESOURCE_NOT_FOUND; the stored path is returned exactly when download access passes |
| Papers.AcceptGrantsDownload | src/main/java/com/acd/researchrepo/service/ResearchPaperService.java:315-320 | once a request is accepted its student or teacher owner can download the paper |
| Papers.ArchiveRevokesDownload | src/main/java/com/acd/researchrepo/service/ResearchPaperService.java:311-320 | after archiving a student or teacher gets RESOURCE_NOT_AVAILABLE, and after unarchiving ACCESS_DENIED, since the acceptance is gone |
| Papers.DepartmentSlug | src/main/java/com/acd/researchrepo/service/ResearchPaperService.java:258 | the slug has the name's length and only lower-case letters, digits and underscores; a character that lower-cases to a letter or digit is kept lower-cased, and every other character becomes an underscore |
| Papers.SlugIdempotent | src/main/java/com/acd/researchrepo/service/ResearchPaperService.java:258 | slugging a slug changes nothing |
| Papers.SlugExample | src/main/java/com/acd/researchrepo/service/ResearchPaperService.java:258 | "Comp Sci" becomes "comp_sci" |
| Papers.UploadExtension | src/main/java/com/acd/researchrepo/service/ResearchPaperService.java:259-262 | the extension is the suffix from the last dot when the name has a dot, and ".pdf" otherwise |
| Papers.UploadPath | src/main/java/com/acd/researchrepo/service/ResearchPaperService.java:256-267 | the stored path starts with the submission year and a slash, ends with the upload's extension, and `getFileExtension` reads that extension back from it; for a named department and a slash-free extension its path names are exactly the year, the department slug and `paper_<millis><ext>` |
| Papers.UploadPathInjective | src/main/java/com/acd/researchrepo/service/ResearchPaperService.java:256-267 | two uploads share a path only when they share the year, the department slug, the millisecond timestamp and the extension |
| Papers.IntToStringShape | src/main/java/com/acd/researchrepo/service/ResearchPaperService.java:257-266 | a rendered number is non-empty, ends in a digit and holds no dot or slash |
| Papers.UploadPathDotSafe | src/main/java/com/acd/researchrepo/service/ResearchPaperService.java:256-267 | the generated path is relative and none of its names starts with a dot |
| Papers.UploadPathContained | src/main/java/com/acd/researchrepo/service/ResearchPaperService.java:267-270 | under an upload directory written without "." or ".." names, the generated path always resolves strictly inside the root, so saving fails only on file validation |
| Papers.UploadSaveOutcome | src/main/java/com/acd/researchrepo/service/ResearchPaperService.java:267-270 | for every upload directory, saving the generated path fails only with API errors, and under one written without "." or ".." names it succeeds exactly for a valid file |
| Papers.DotUploadsRefusesEveryUpload | src/main/java/com/acd/researchrepo/service/ResearchPaperService.java:267-270 | with the upload directory written "./uploads", saving any generated path with a valid file is refused with INVALID_REQUEST |
| Papers.PaperCreation | src/main/java/com/acd/researchrepo/service/ResearchPaperService.java:225-277 | non-admins are ACCESS_DENIED and a department admin is confined to their department; creation succeeds exactly for an admin naming a known department whose upload is saved, which under an upload directory without "." or ".." names means exactly a valid file; it then stores a live paper with the given fields at the generated path under the fresh id |
| Papers.CreatePaper | src/main/java/com/acd/researchrepo/service/ResearchPaperService.java:235-238 | a created paper is live with a valid file; a department admin without a department hits a null-pointer failure |
| Papers.CreatePaperChecked | src/main/java/com/acd/researchrepo/service/ResearchPaperService.java:235-238 | succeeds exactly when the original does, refuses a department admin without a department with ACCESS_DENIED, and fails only with API errors once the department id is given |
| Papers.CreatePreservesInvariants | src/main/java/com/acd/researchrepo/service/ResearchPaperService.java:248-274 | creating keeps the tables well formed |
| Papers.DotUploadsCreatesNoPaper | src/main/java/com/acd/researchrepo/service/ResearchPaperService.java:225-277 | with the upload directory written "./uploads", neither the as-written nor the corrected `createPaper` ever creates a paper |
| Model.FindDepartment | src/main/java/com/acd/researchrepo/service/DepartmentService.java:44-47 | a found department is stored under the requested id, and nothing is found exactly when no stored department has that id |
| Listing.NameLeTotal | src/main/java/com/acd/researchrepo/service/DepartmentYearService.java:48 | any two department names are comparable, so sorting by name is well defined |
| Listing.InsertByName | src/main/java/com/acd/researchrepo/service/DepartmentYearService.java:48 | inserting into a name-sorted list keeps it sorted and adds exactly that department |
| Listing.SortByName | src/main/java/com/acd/researchrepo/service/DepartmentYearService.java:48 | the result is sorted by name and a permutation of the input |
| Listing.WithPapers | src/main/java/com/acd/researchrepo/service/DepartmentYearService.java:41-47 | a department is kept exactly when some paper belongs to it |
| Listing.DepartmentsWithPapers | src/main/java/com/acd/researchrepo/service/DepartmentYearService.java:41-50 | the result is sorted by name, a permutation of the kept departments, and holds exactly the stored departments some paper belongs to |
| Listing.AllAvailableDepartments | src/main/java/com/acd/researchrepo/service/DepartmentYearService.java:35-53 | every caller is offered exactly the departments with papers, sorted by name |
| Listing.ScopedAvailableDepartments | src/main/java/com/acd/researchrepo/service/DepartmentService.java:34-67 | a null principal is a null-pointer failure; a department admin whose department is found is offered exactly that department when it has a paper and nothing otherwise, and at most their own department in any case; every offered department has a paper; the result is sorted by name |
| Listing.DepartmentServicesAgree | src/main/java/com/acd/researchrepo/service/DepartmentService.java:50-62 | for anyone but a department admin the two department services offer the same list |
| Listing.DepartmentlessAdminOffered | src/main/java/com/acd/researchrepo/service/DepartmentService.java:41-47 | a department admin without a department, or with an unknown one, is offered nothing |
| Listing.SetMax | src/main/java/com/acd/researchrepo/service/DepartmentYearService.java:78 | the chosen year is in the set and no smaller than any other |
| Listing.Descending | src/main/java/com/acd/researchrepo/service/DepartmentYearService.java:76-79 | the years come out strictly descending, each exactly once, and no other |
| Listing.GetAvailableYears | src/main/java/com/acd/researchrepo/service/DepartmentYearService.java:55-80 | a department admin without a department gets nothing; otherwise a year is offered exactly when a visible paper has it, newest first without repeats |
| Listing.StudentYearsAreLive | src/main/java/com/acd/researchrepo/service/DepartmentYearService.java:69-71 | a student is offered exactly the years of live papers |
| Listing.DepartmentAdminYearsScoped | src/main/java/com/acd/researchrepo/service/DepartmentYearService.java:58-63 | a department admin is offered only years of papers in their department |
| Cookies.RefreshCookie | src/main/java/com/acd/researchrepo/util/CookieUtil.java:38-48 | the cookie carries the configured name, is HTTP-only on path "/", and is secure with SameSite None exactly under the production profile, Lax otherwise |
| Cookies.SetRefreshTokenCookie | src/main/java/com/acd/researchrepo/util/CookieUtil.java:37-50 | the cookie holds the token for the configured lifetime, and is secure exactly when cross-site |
| Cookies.ClearRefreshTokenCookie | src/main/java/com/acd/researchrepo/util/CookieUtil.java:84-97 | the cookie has the configured name, an empty value and no lifetime |
| Cookies.ExtractRefreshToken | src/main/java/com/acd/researchrepo/util/CookieUtil.java:59-69 | no cookies gives none; otherwise the value of the first cookie with the configured name, and none exactly when no cookie has it |
| Cookies.SetThenExtract | src/main/java/com/acd/researchrepo/util/CookieUtil.java:37-69 | the token a login set is read back from the request, among other cookies, when none before it has the same name |
| Cookies.ClearMatchesSet | src/main/java/com/acd/researchrepo/util/CookieUtil.java:84-97 | clearing writes the set cookie with its value emptied and lifetime zero, so the browser replaces it |
| Cookies.ProductionProfiles | src/main/java/com/acd/researchrepo/util/CookieUtil.java:23-42 | "PROD" and "Prod" select production, while an unset profile and "production" do not |

## Left out

- Network and cryptography:
  - Google's OAuth code exchange and ID-token verification are not modelled; the verifier's answer is a parameter.
  - Only the checked exceptions the service catches become INVALID_TOKEN: `IOException` from the code exchange and `GeneralSecurityException` or `IOException` from the verifier. Unchecked exceptions thrown by the Google library propagate as server errors and are not modelled.
  - JWT signing and parsing with HS512 are not modelled; a token is its claims record.
- Refresh-token rotation, refresh and logout: no such operation exists in the code, so only issuance and the store queries are modelled.
- Controllers and the web plumbing are not modelled. This covers request binding, the security filter chain, CORS, exception handlers, trace ids and OpenAPI. The one exception is `FileController`'s content-type and disposition choice, which is modelled.
- File-system effects are not modelled:
  - `Files.copy`, `createDirectories` and `deleteIfExists` are omitted; the model computes the path an operation would touch.
  - An `IOException` becoming FILE_STORAGE_ERROR is not modelled.
  - `loadFile`'s existence check is not modelled. Its error code, `FILE_NOT_FOUND`, is not declared in `ErrorCode.java`.
  - `Papers.DownloadPaper` returns the stored relative path, not the resolved file.
- The upload directory is modelled as configured: `Storage` holds its text and the working directory that `toAbsolutePath` puts in front of a relative path. Which directory `AppProperties` supplies is not part of this model, since `AppProperties.java` declares no `getStorage()`; `FileStorageUtil` defaults to `./uploads`. `Files.DotRootRefusesPlainSubPaths` shows what the service does with that spelling.
- Persistence:
  - Paging, `Pageable` and the order of query results are not modelled; a listing is the set of matching ids.
  - DTO mapping and `PaginatedResponse` are not modelled.
  - `DocumentRequestRepository.java` declares none of the derived queries the services call on it. Each is modelled by the relation its name describes:
    - `findByUserIdAndPaperIdAndActiveStatus`, in `Requests.CreateRequest`;
    - `findByUserIdAndPaperId`, in `Requests.GetUserRequestForPaper`;
    - `findByIdAndUserId`, in `Requests.DeleteRequest`;
    - `findByPaperPaperIdAndStatusIn`, in `Papers.ForceReject`;
    - `existsByPaperPaperIdAndUserUserIdAndStatus`, in `Papers.HasAcceptedRequest`.
  - `ResearchPaperService.getAvailableYears` is not modelled. It calls `findDistinctYears`, which no repository declares. The years listing is modelled through `DepartmentYearService`, as `Listing.GetAvailableYears`.
- `getAdminRequests` passes a third `search` argument to `DocumentRequestSpec.adminRequestFilter`, which declares only two parameters. The model ignores the search text.
- `departmentRepository.findById(null)` is modelled as `Runtime(IllegalArgument)` in `Papers.PaperCreation` and `Papers.UpdatePaper`. Spring Data rejects a null id with an `IllegalArgumentException`, and the repository proxy's exception translation rethrows it as `InvalidDataAccessApiUsageException`. The model keeps the underlying kind, because the service catches neither.
- Transactions and concurrent access are not modelled. Each service method is one atomic step on the stores.
- Strings are ASCII only. `toLowerCase` and `equalsIgnoreCase` fold only A-Z, and there is no Unicode case folding or normalisation.
- Integers are unbounded. Java `Integer` ids, `long` millisecond times and sizes are not limited to 32 or 64 bits, because no modelled arithmetic on them can overflow.
- Null text fields in paper metadata (title, author, abstract) are not modelled. The department id and the file name are optional, because the code branches on them.
- Null values the code dereferences without a check are not modelled. Each would end in a `NullPointerException`, or a `ClassCastException` for the first one:
  - the Google payload's `name` claim, read by a cast in `GoogleAuthService.java` line 75, is taken to be a string;
  - null entries in the super-admin or teacher lists, which `String::toLowerCase` dereferences in `GoogleAuthService.java` lines 129 and 133;
  - a null submission date in `createPaper`, read in `ResearchPaperService.java` line 257;
  - a null element of the years filter, passed to `LocalDate.of` in `ResearchPaperSpec.java` line 96;
  - a null upload reaching `FileStorageService.validateFile`, which calls `isEmpty()` on it. The utility validator's null check is modelled.
- `AuthService` calls `refreshTokenRepository.deleteByUserId`, which `RefreshTokenRepository.java` does not declare. The model uses the query `UserRepository.java` lines 18-20 declare under that name, which deletes every refresh token of the user.
- Requests.AcceptRequest and Requests.RejectRequest: their own contracts state the status each accepts; the full ordered check ladder is stated on `Requests.AdminDecision`, which both instantiate.
- Papers.CreatePaper: its own contract states only the live-paper and null-department facts; the full behaviour is stated on `Papers.PaperCreation`, which it instantiates.
- Listing.ScopedAvailableDepartments: its contract states the department admin's list exactly, and for other roles only that the list is sorted and holds departments with papers; `Listing.DepartmentServicesAgree` states that list in full.
- Files.Normalize and Files.Names: their contracts state the shape of the result only; `Files.NormalizeOfPlain`, `Files.NormalizeAppendPlain`, `Files.PlainSubPathAccepted` and `Files.DotRootRefusesPlainSubPaths` state what normalising does to the paths the service builds.
- Privileged.Collect: its contract lists only which errors can occur; `Privileged.CollectSpec` states exactly when the map is built.
- Filters.RangeSpecification and Filters.ExtractSpecification: their contracts say which criteria are present; `Filters.RangeSpecificationMeaning` and `Filters.ExtractSpecificationMeaning` state what each accepts.

## Findings

| source | as written | input that shows it | evidently intended | confidence | as-written member | corrected member |
|---|---|---|---|---|---|---|
| src/main/java/com/acd/researchrepo/service/DocumentRequestService.java:84-94 | `createRequest` looks the paper up but never checks the result, and calls `paperOpt.get()` | a student asks for paper 7 and no paper 7 is stored | RESOURCE_NOT_FOUND, as every other paper lookup reports | high, not executed | Requests.CreateRequestMissingPaperThrows | Requests.CreateRequestChecked |
| src/main/java/com/acd/researchrepo/service/DocumentRequestService.java:207-210,245-248 | accept and reject call `adminDepartmentId.equals(...)` on the admin's department id | a department admin with no department accepts or rejects a pending request for a live paper | ACCESS_DENIED, as `getAndVerifyAdminAccess` and `getUserDepartmentIdIfDepartmentAdmin` answer for a missing department | high, not executed | Requests.DepartmentlessAdminThrows | Requests.AcceptRequestChecked |
| src/main/java/com/acd/researchrepo/service/PrivilegedUserConfigLoader.java:47-68 | `validate` collects every email into a set but never checks for duplicates | department-admin entries "a@x.com" and "A@x.com" | refuse the registry at load time, since `getDepartmentAdminsMap` (PrivilegedUserConfig.java:29-30) lower-cases the keys and then throws an illegal-state error on every lookup | medium, not executed | Privileged.ValidateMissesCollision | Privileged.ValidateDistinct |
| src/main/java/com/acd/researchrepo/service/ResearchPaperService.java:235-238 | `createPaper` calls `principal.getDepartmentId().equals(...)` for a department admin | a department admin with no department uploads a paper | ACCESS_DENIED, as the other admin paths answer for a missing department | high, not executed | Papers.CreatePaper | Papers.CreatePaperChecked |

=== FILE: auth_service.dfy ===
/** The two Google sign-in flows of `AuthService` as compositions of the
    sign-in policy, a user lookup of their own, access-token issuance and,
    for the second flow, refresh-token issuance. The random UUID, the clock
    and database ids enter as parameters. */
module AuthService {
  import opened Wrappers
  import opened Strings
  import opened Errors
  import opened Model
  import opened Tokens
  import opened Security
  import opened Privileged
  import GoogleAuth
  import Jwt
  import UserService

  /** 30 days, the lifetime of a refresh token, in seconds. */
  const RefreshTokenLifetime: int := 30 * 24 * 60 * 60

  /** The user and refresh-token tables. */
  datatype AuthState = AuthState(users: UserService.UserStore, tokens: TokenStore)

  datatype Issued = Issued(row: RefreshToken, tokens: TokenStore)

  /** `createRefreshToken`: every refresh token of the user is deleted, then one
      new row with the fresh value `token`, expiring 30 days after `now`, is
      inserted. */
  function CreateRefreshToken(tokens: TokenStore, user: User, token: string, now: int, tokenId: int): (r: Issued)
    requires token !in tokens
    ensures r.row.token == token && r.row.userId == user.userId
    ensures r.row.expiresAt == now + RefreshTokenLifetime && r.row.createdAt == now
    ensures token in r.tokens && r.tokens[token] == r.row
    ensures forall t :: t in r.tokens && r.tokens[t].userId == user.userId ==> t == token
    ensures forall t :: t in tokens && tokens[t].userId != user.userId ==> t in r.tokens && r.tokens[t] == tokens[t]
    ensures forall t :: t in r.tokens && t != token ==> t in tokens && tokens[t].userId != user.userId
  {
    var row := RefreshToken(tokenId, user.userId, token, now + RefreshTokenLifetime, now, None);
    Issued(row, DeleteByUserId(tokens, user.userId)[token := row])
  }

  /** After issuance the user owns exactly one refresh token, the new one. */
  lemma ExactlyOneTokenPerUser(tokens: TokenStore, user: User, token: string, now: int, tokenId: int)
    requires token !in tokens
    ensures var r := CreateRefreshToken(tokens, user, token, now, tokenId);
      (set t | t in r.tokens && r.tokens[t].userId == user.userId) == {token}
  {
  }

  /** Issuance keeps the table keyed by token value. */
  lemma IssuanceKeepsKeyed(tokens: TokenStore, user: User, token: string, now: int, tokenId: int)
    requires token !in tokens && TokensKeyed(tokens)
    ensures TokensKeyed(CreateRefreshToken(tokens, user, token, now, tokenId).tokens)
    ensures FindByToken(CreateRefreshToken(tokens, user, token, now, tokenId).tokens, token)
      == Some(CreateRefreshToken(tokens, user, token, now, tokenId).row)
  {
    DeletesKeepKeyed(tokens, user.userId, now);
  }

  /** `AuthService.findOrCreateUser`: a lookup by the email exactly as Google
      gave it; an existing row is returned untouched, otherwise a STUDENT
      without department or picture is inserted. */
  function FindOrCreateUser(users: UserService.UserStore, info: GoogleUserInfo, freshId: int): (r: UserService.Provisioned)
    ensures info.email in users ==> r.user == users[info.email] && r.users == users
    ensures info.email !in users ==>
      && r.user == User(freshId, info.email, info.name, Student, None, None)
      && r.users == users[info.email := r.user]
    ensures UserService.UsersKeyed(users) ==> UserService.UsersKeyed(r.users) && r.user.email == info.email
  {
    if info.email in users then UserService.Provisioned(users[info.email], users)
    else
      var user := User(freshId, info.email, info.name, Student, None, None);
      UserService.Provisioned(user, users[info.email := user])
  }

  /** The Google side of a sign-in: code exchange, verifier, registry and
      environment. */
  datatype SignIn = SignIn(
    exchange: Option<Option<string>>,
    verify: string -> GoogleAuth.Verification,
    config: Option<PrivilegedUserConfig>,
    environment: Option<string>)

  /** The response of `authenticateWithGoogle`: the access token (its claims)
      and the user. */
  datatype AuthResponse = AuthResponse(accessToken: Claims, user: User)

  /** The response of `authenticateWithGoogleAndGetRefreshToken`. */
  datatype AuthResponseWithRefreshToken = AuthResponseWithRefreshToken(accessToken: Claims, refreshToken: string, user: User)

  /** `authenticateWithGoogle`: no refresh token is created. */
  function AuthenticateWithGoogle(
    state: AuthState, signIn: SignIn, freshUserId: int, now: int, accessTokenExpirySeconds: int)
    : (r: Result<(AuthResponse, AuthState), Error>)
    ensures r.Success? ==> r.value.1.tokens == state.tokens
    ensures r.Success? ==> r.value.0.accessToken == Jwt.GenerateAccessToken(r.value.0.user, now, accessTokenExpirySeconds)
    ensures r.Success? ==> forall e :: e in state.users ==> e in r.value.1.users && r.value.1.users[e] == state.users[e]
    ensures r.Failure? <==>
      GoogleAuth.ValidateCodeAndGetUserInfo(signIn.exchange, signIn.verify, signIn.config, signIn.environment).Failure?
    ensures var v := GoogleAuth.ValidateCodeAndGetUserInfo(signIn.exchange, signIn.verify, signIn.config, signIn.environment);
      v.Success? ==>
        && r.Success?
        && v.value.email in r.value.1.users
        && r.value.1.users[v.value.email] == r.value.0.user
        && (UserService.UsersKeyed(state.users) ==> r.value.0.user.email == v.value.email)
    ensures var v := GoogleAuth.ValidateCodeAndGetUserInfo(signIn.exchange, signIn.verify, signIn.config, signIn.environment);
      (v.Success? && v.value.email in state.users) ==>
        r.value.0.user == state.users[v.value.email] && r.value.1.users == state.users
    ensures var v := GoogleAuth.ValidateCodeAndGetUserInfo(signIn.exchange, signIn.verify, signIn.config, signIn.environment);
      (v.Success? && v.value.email !in state.users) ==>
        r.value.0.user == User(freshUserId, v.value.email, v.value.name, Student, None, None)
  {
    var info :- GoogleAuth.ValidateCodeAndGetUserInfo(signIn.exchange, signIn.verify, signIn.config, signIn.environment);
    var found := FindOrCreateUser(state.users, info, freshUserId);
    var accessToken := Jwt.GenerateAccessToken(found.user, now, accessTokenExpirySeconds);
    Success((AuthResponse(accessToken, found.user), AuthState(found.users, state.tokens)))
  }

  /** `authenticateWithGoogleAndGetRefreshToken`: as `authenticateWithGoogle`,
      then a refresh token is issued and its value returned. */
  function AuthenticateWithGoogleAndGetRefreshToken(
    state: AuthState, signIn: SignIn, freshUserId: int, now: int, accessTokenExpirySeconds: int,
    freshToken: string, freshTokenId: int)
    : (r: Result<(AuthResponseWithRefreshToken, AuthState), Error>)
    requires freshToken !in state.tokens
    ensures r.Success? ==>
      var response := r.value.0;
      && response.refreshToken == freshToken
      && response.accessToken == Jwt.GenerateAccessToken(response.user, now, accessTokenExpirySeconds)
      && freshToken in r.value.1.tokens
      && r.value.1.tokens[freshToken].userId == response.user.userId
      && r.value.1.tokens[freshToken].expiresAt == now + RefreshTokenLifetime
    ensures r.Failure? <==>
      GoogleAuth.ValidateCodeAndGetUserInfo(signIn.exchange, signIn.verify, signIn.config, signIn.environment).Failure?
    ensures var v := GoogleAuth.ValidateCodeAndGetUserInfo(signIn.exchange, signIn.verify, signIn.config, signIn.environment);
      v.Success? ==>
        && r.Success?
        && v.value.email in r.value.1.users
        && r.value.1.users[v.value.email] == r.value.0.user
        && (UserService.UsersKeyed(state.users) ==> r.value.0.user.email == v.value.email)
    ensures var v := GoogleAuth.ValidateCodeAndGetUserInfo(signIn.exchange, signIn.verify, signIn.config, signIn.environment);
      (v.Success? && v.value.email in state.users) ==>
        r.value.0.user == state.users[v.value.email] && r.value.1.users == state.users
    ensures var v := GoogleAuth.ValidateCodeAndGetUserInfo(signIn.exchange, signIn.verify, signIn.config, signIn.environment);
      (v.Success? && v.value.email !in state.users) ==>
        r.value.0.user == User(freshUserId, v.value.email, v.value.name, Student, None, None)
    ensures r.Success? ==>
      && (forall t :: t in r.value.1.tokens && r.value.1.tokens[t].userId == r.value.0.user.userId ==> t == freshToken)
      && (forall t :: t in state.tokens && state.tokens[t].userId != r.value.0.user.userId ==>
            t in r.value.1.tokens && r.value.1.tokens[t] == state.tokens[t])
      && (forall t :: t in r.value.1.tokens && t != freshToken ==>
            t in state.tokens && state.tokens[t].userId != r.value.0.user.userId)
  {
    var info :- GoogleAuth.ValidateCodeAndGetUserInfo(signIn.exchange, signIn.verify, signIn.config, signIn.environment);
    var found := FindOrCreateUser(state.users, info, freshUserId);
    var accessToken := Jwt.GenerateAccessToken(found.user, now, accessTokenExpirySeconds);
    var issued := CreateRefreshToken(state.tokens, found.user, freshToken, now, freshTokenId);
    Success((AuthResponseWithRefreshToken(accessToken, issued.row.token, found.user), AuthState(found.users, issued.tokens)))
  }

  /** Both flows agree on the user and the access token; the second one alone
      touches the token table. */
  lemma FlowsAgree(
    state: AuthState, signIn: SignIn, freshUserId: int, now: int, accessTokenExpirySeconds: int,
    freshToken: string, freshTokenId: int)
    requires freshToken !in state.tokens
    ensures var a := AuthenticateWithGoogle(state, signIn, freshUserId, now, accessTokenExpirySeconds);
      var b := AuthenticateWithGoogleAndGetRefreshToken(state, signIn, freshUserId, now, accessTokenExpirySeconds,
                                                        freshToken, freshTokenId);
      && (a.Success? <==> b.Success?)
      && (a.Success? ==>
            && a.value.0.user == b.value.0.user
            && a.value.0.accessToken == b.value.0.accessToken
            && a.value.1.users == b.value.1.users)
  {
  }

  /** The sign-in flows never consult the registry for roles: a super admin
      signing in for the first time is stored, and issued a token, as a
      STUDENT without department. */
  lemma FirstSignInIsStudent(
    state: AuthState, signIn: SignIn, freshUserId: int, now: int, accessTokenExpirySeconds: int)
    requires UserService.UsersKeyed(state.users)
    requires var r := AuthenticateWithGoogle(state, signIn, freshUserId, now, accessTokenExpirySeconds);
      r.Success? && r.value.0.user.email !in state.users
    ensures var r := AuthenticateWithGoogle(state, signIn, freshUserId, now, accessTokenExpirySeconds);
      r.value.0.user.role == Student && r.value.0.user.department.None?
      && r.value.0.accessToken["role"] == Str("STUDENT")
      && "departmentId" !in r.value.0.accessToken
  {
  }
}

=== FILE: cookies.dfy ===
/** `CookieUtil`: the refresh-token cookie the auth endpoints set, read back
    and clear. The active profile decides the cross-site attributes. */
module Cookies {
  import opened Wrappers
  import opened Strings

  datatype SameSite = NoneSite | LaxSite

  /** A response cookie with the attributes `CookieUtil` sets. */
  datatype Cookie = Cookie(
    name: string,
    value: string,
    httpOnly: bool,
    path: string,
    maxAge: int,
    secure: bool,
    sameSite: SameSite)

  /** A cookie as the browser sends it back: a name and a value. */
  datatype RequestCookie = RequestCookie(name: string, value: string)

  /** The profile (`spring.profiles.active`, empty when unset) and the
      token settings from the application properties. */
  datatype CookieConfig = CookieConfig(environment: string, refreshTokenName: string, refreshTokenMaxAge: int)

  /** `"prod".equalsIgnoreCase(environment)`. */
  predicate IsProduction(config: CookieConfig) {
    EqualsIgnoreCase("prod", Some(config.environment))
  }

  /** The attributes shared by setting and clearing. */
  function RefreshCookie(config: CookieConfig, value: string, maxAge: int): (c: Cookie)
    ensures c.name == config.refreshTokenName && c.value == value && c.maxAge == maxAge
    ensures c.httpOnly && c.path == "/"
    ensures c.secure <==> IsProduction(config)
    ensures c.sameSite == (if IsProduction(config) then NoneSite else LaxSite)
  {
    if IsProduction(config) then Cookie(config.refreshTokenName, value, true, "/", maxAge, true, NoneSite)
    else Cookie(config.refreshTokenName, value, true, "/", maxAge, false, LaxSite)
  }

  /** `setRefreshTokenCookie`. */
  function SetRefreshTokenCookie(config: CookieConfig, refreshToken: string): (c: Cookie)
    ensures c.name == config.refreshTokenName && c.value == refreshToken
    ensures c.maxAge == config.refreshTokenMaxAge && c.httpOnly && c.path == "/"
    ensures c.secure <==> c.sameSite == NoneSite
    ensures c.secure <==> IsProduction(config)
  {
    RefreshCookie(config, refreshToken, config.refreshTokenMaxAge)
  }

  /** `clearRefreshTokenCookie`: an empty value that expires at once. */
  function ClearRefreshTokenCookie(config: CookieConfig): (c: Cookie)
    ensures c.name == config.refreshTokenName && c.value == "" && c.maxAge == 0
    ensures c.httpOnly && c.path == "/"
    ensures c.secure <==> IsProduction(config)
  {
    RefreshCookie(config, "", 0)
  }

  /** `extractRefreshTokenFromCookie`: the value of the first cookie with the
      configured name; none when the request has no cookies or no such one. */
  function ExtractRefreshToken(config: CookieConfig, cookies: Option<seq<RequestCookie>>): (r: Option<string>)
    ensures cookies.None? ==> r.None?
    ensures r.None? ==> cookies.None? || forall i :: 0 <= i < |cookies.value| ==> cookies.value[i].name != config.refreshTokenName
    ensures r.Some? ==> exists i :: FirstWithName(cookies.value, config.refreshTokenName, i) && cookies.value[i].value == r.value
  {
    if cookies.None? then None else FirstNamed(config.refreshTokenName, cookies.value)
  }

  /** `i` is the first position holding a cookie called `name`. */
  predicate FirstWithName(cookies: seq<RequestCookie>, name: string, i: int) {
    0 <= i < |cookies| && cookies[i].name == name && forall j :: 0 <= j < i ==> cookies[j].name != name
  }

  function FirstNamed(name: string, cookies: seq<RequestCookie>): (r: Option<string>)
    ensures r.None? ==> forall i :: 0 <= i < |cookies| ==> cookies[i].name != name
    ensures r.Some? ==> exists i :: FirstWithName(cookies, name, i) && cookies[i].value == r.value
  {
    if |cookies| == 0 then None
    else if cookies[0].name == name then Some(cookies[0].value)
    else
      var r := FirstNamed(name, cookies[1..]);
      if r.Some? then
        var i :| FirstWithName(cookies[1..], name, i) && cookies[1..][i].value == r.value;
        assert FirstWithName(cookies, name, i + 1);
        r
      else r
  }

  /** What the browser sends back for a cookie it holds. */
  function Echo(c: Cookie): RequestCookie {
    RequestCookie(c.name, c.value)
  }

  /** The refresh endpoint reads back the token the login set, even among
      other cookies, provided none before it bears the same name. */
  lemma {:induction false} SetThenExtract(config: CookieConfig, refreshToken: string, before: seq<RequestCookie>, after: seq<RequestCookie>)
    requires forall i :: 0 <= i < |before| ==> before[i].name != config.refreshTokenName
    ensures ExtractRefreshToken(config, Some(before + [Echo(SetRefreshTokenCookie(config, refreshToken))] + after)) == Some(refreshToken)
    decreases |before|
  {
    var c := Echo(SetRefreshTokenCookie(config, refreshToken));
    var all := before + [c] + after;
    if |before| == 0 {
      assert all[0] == c;
    } else {
      SetThenExtract(config, refreshToken, before[1..], after);
      assert all[1..] == before[1..] + [c] + after;
      assert all[0] == before[0];
    }
  }

  /** Clearing overwrites the cookie the login set: same name, path and
      cross-site attributes, with an empty value and no lifetime. */
  lemma ClearMatchesSet(config: CookieConfig, refreshToken: string)
    ensures ClearRefreshTokenCookie(config) == SetRefreshTokenCookie(config, refreshToken).(value := "", maxAge := 0)
  {
  }

  /** The profile comparison ignores case; an unset profile is not production. */
  lemma ProductionProfiles(name: string, maxAge: int)
    ensures IsProduction(CookieConfig("PROD", name, maxAge))
    ensures IsProduction(CookieConfig("Prod", name, maxAge))
    ensures !IsProduction(CookieConfig("", name, maxAge))
    ensures !IsProduction(CookieConfig("production", name, maxAge))
  {
    assert ToLower("PROD") == "prod";
    assert ToLower("Prod") == "prod";
  }
}

=== FILE: errors.dfy ===
/** The application's error vocabulary: the `ErrorCode` enumeration with its
    HTTP status and default message, the `ApiException` record and its display
    message, and the Java runtime exceptions the services can throw by accident. */
module Errors {
  import opened Wrappers

  datatype ErrorCode =
    | ValidationError
    | InvalidRequest
    | InvalidToken
    | Unauthenticated
    | RefreshTokenRevoked
    | AccessDenied
    | DomainNotAllowed
    | ResourceNotFound
    | ResourceNotAvailable
    | DuplicateRequest
    | RequestAlreadyFinal
    | FileTooLarge
    | UnsupportedMediaType
    | RateLimitExceeded
    | InternalError
    | FileStorageError
    | ServiceUnavailable

  /** The HTTP status each code is reported with. */
  function HttpStatus(code: ErrorCode): (status: int)
    ensures 400 <= status < 600
    ensures status >= 500 <==> code in {InternalError, FileStorageError, ServiceUnavailable}
  {
    match code
    case ValidationError | InvalidRequest | InvalidToken => 400
    case Unauthenticated | RefreshTokenRevoked => 401
    case AccessDenied | DomainNotAllowed => 403
    case ResourceNotFound | ResourceNotAvailable => 404
    case DuplicateRequest | RequestAlreadyFinal => 409
    case FileTooLarge => 413
    case UnsupportedMediaType => 415
    case RateLimitExceeded => 429
    case InternalError | FileStorageError => 500
    case ServiceUnavailable => 503
  }

  function DefaultMessage(code: ErrorCode): string {
    match code
    case ValidationError => "Invalid request data"
    case InvalidRequest => "Malformed request"
    case InvalidToken => "Authentication failed"
    case Unauthenticated => "Missing or invalid credentials"
    case RefreshTokenRevoked => "Refresh token expired or missing"
    case AccessDenied => "Access denied"
    case DomainNotAllowed => "Email domain not allowed"
    case ResourceNotFound => "Resource not found"
    case ResourceNotAvailable => "Resource not available"
    case DuplicateRequest => "Duplicate active request exists"
    case RequestAlreadyFinal => "Request in terminal state"
    case FileTooLarge => "File exceeds 20MB limit"
    case UnsupportedMediaType => "Unsupported file type"
    case RateLimitExceeded => "Rate limit exceeded"
    case InternalError => "Internal server error"
    case FileStorageError => "File storage error"
    case ServiceUnavailable => "Service unavailable"
  }

  /** No two codes share a default message, so a client can tell the codes
      apart by the message alone. */
  lemma DefaultMessagesDistinct(a: ErrorCode, b: ErrorCode)
    ensures DefaultMessage(a) == DefaultMessage(b) ==> a == b
  {
    if DefaultMessage(a) == DefaultMessage(b) {
      SignatureOfMessage(a);
      SignatureOfMessage(b);
      SignatureInjective(a, b);
    }
  }

  lemma SignatureInjective(a: ErrorCode, b: ErrorCode)
    ensures Signature(a) == Signature(b) ==> a == b
  {
  }

  /** A default message's length and first letter, which already tell the
      messages apart. */
  function Signature(code: ErrorCode): (int, char) {
    match code
    case ValidationError => (20, 'I')
    case InvalidRequest => (17, 'M')
    case InvalidToken => (21, 'A')
    case Unauthenticated => (30, 'M')
    case RefreshTokenRevoked => (32, 'R')
    case AccessDenied => (13, 'A')
    case DomainNotAllowed => (24, 'E')
    case ResourceNotFound => (18, 'R')
    case ResourceNotAvailable => (22, 'R')
    case DuplicateRequest => (31, 'D')
    case RequestAlreadyFinal => (25, 'R')
    case FileTooLarge => (23, 'F')
    case UnsupportedMediaType => (21, 'U')
    case RateLimitExceeded => (19, 'R')
    case InternalError => (21, 'I')
    case FileStorageError => (18, 'F')
    case ServiceUnavailable => (19, 'S')
  }

  lemma SignatureOfMessage(code: ErrorCode)
    ensures |DefaultMessage(code)| > 0 && Signature(code) == (|DefaultMessage(code)|, DefaultMessage(code)[0])
  {
  }

  /** Unchecked Java exceptions a service can raise besides `ApiException`. */
  datatype JavaException =
    | NullPointer
    | NoSuchElement
    | IllegalArgument
    | IllegalState
    | NumberFormat
    | ClassCast
    | IncorrectResultSize

  /** What a service call can throw. */
  datatype Error = Api(code: ErrorCode) | Runtime(exception: JavaException)

  datatype FieldError = FieldError(field: string, message: string)

  /** An `ApiException`: `message` is the `RuntimeException` message that is
      logged, `customMessage` the text meant for the client. */
  datatype ApiException = ApiException(
    errorCode: ErrorCode,
    message: Option<string>,
    details: Option<seq<FieldError>>,
    customMessage: Option<string>)

  /** `new ApiException(code)`. */
  function WithCode(code: ErrorCode): (e: ApiException)
    ensures e.errorCode == code && e.details.None? && e.customMessage.None?
    ensures e.message == Some(DefaultMessage(code))
  {
    ApiException(code, Some(DefaultMessage(code)), None, None)
  }

  /** `new ApiException(code, message)`: the message is only logged; the
      custom message stays null. */
  function WithMessage(code: ErrorCode, message: Option<string>): (e: ApiException)
    ensures e.errorCode == code && e.details.None? && e.customMessage.None?
    ensures e.message == message
  {
    ApiException(code, message, None, None)
  }

  /** `new ApiException(code, details)`. */
  function WithDetails(code: ErrorCode, details: Option<seq<FieldError>>): (e: ApiException)
    ensures e.errorCode == code && e.details == details && e.customMessage.None?
    ensures e.message == Some(DefaultMessage(code))
  {
    ApiException(code, Some(DefaultMessage(code)), details, None)
  }

  /** `getDisplayMessage`: the custom message when there is one, else the
      code's default message. */
  function DisplayMessage(e: ApiException): (m: string)
    ensures e.customMessage.Some? ==> m == e.customMessage.value
    ensures e.customMessage.None? ==> m == DefaultMessage(e.errorCode)
  {
    e.customMessage.GetOr(DefaultMessage(e.errorCode))
  }

  /** Whichever public constructor built it, an exception displays its code's
      default message: a message passed to the constructor never reaches the
      client. */
  lemma DisplayIsAlwaysDefault(code: ErrorCode, message: Option<string>, details: Option<seq<FieldError>>)
    ensures DisplayMessage(WithCode(code)) == DefaultMessage(code)
    ensures DisplayMessage(WithMessage(code, message)) == DefaultMessage(code)
    ensures DisplayMessage(WithDetails(code, details)) == DefaultMessage(code)
  {
  }

  /** Only the field-error constructor can carry details. */
  lemma DetailsOnlyFromFieldErrors(code: ErrorCode, message: Option<string>, details: Option<seq<FieldError>>)
    ensures WithCode(code).details.None? && WithMessage(code, message).details.None?
    ensures WithDetails(code, details).details == details
  {
  }
}

=== FILE: files.dfy ===
/** File handling: the two upload validators (`FileStorageUtil` and
    `FileStorageService`), the extension and file-name helpers, the
    containment check `saveFile` makes before writing, and the headers the
    download endpoint sends. Paths are lists of names; the file system itself
    is not modelled. */
module Files {
  import opened Wrappers
  import opened Strings
  import opened Errors

  /** 20 MiB, the upload limit of both validators. */
  const MaxFileSize: int := 20 * 1024 * 1024

  const Pdf: string := "application/pdf"
  const Msword: string := "application/msword"
  const Docx: string := "application/vnd.openxmlformats-officedocument.wordprocessingml.document"
  const OctetStream: string := "application/octet-stream"

  /** What the code reads from a `MultipartFile`. `isEmpty` is a size of zero. */
  datatype Upload = Upload(size: nat, contentType: Option<string>, originalFilename: Option<string>)

  // ---------------------------------------------------------------- validators

  /** `FileStorageUtil.validateFile`'s accepted types. */
  const UtilContentTypes: seq<string> := [Pdf, Msword, Docx]

  /** `FileStorageService.validateFile`'s accepted types: no `application/msword`. */
  const ServiceContentTypes: seq<string> := [Pdf, Docx]

  /** `FileStorageUtil.validateFile`: presence, size, then type. */
  function UtilValidateFile(file: Option<Upload>): (r: Outcome<Error>)
    ensures r.Pass? <==>
      file.Some? && 0 < file.value.size <= MaxFileSize
      && file.value.contentType.Some? && file.value.contentType.value in UtilContentTypes
    ensures (file.None? || file.value.size == 0) ==> r == Fail(Api(InvalidRequest))
    ensures file.Some? && file.value.size > MaxFileSize ==> r == Fail(Api(FileTooLarge))
  {
    if file.None? || file.value.size == 0 then Fail(Api(InvalidRequest))
    else if file.value.size > MaxFileSize then Fail(Api(FileTooLarge))
    else if file.value.contentType.None? || file.value.contentType.value !in UtilContentTypes then
      Fail(Api(UnsupportedMediaType))
    else Pass
  }

  /** `FileStorageService.validateFile`: emptiness, size, then type. */
  function ValidateUpload(file: Upload): (r: Outcome<Error>)
    ensures r.Pass? <==>
      0 < file.size <= MaxFileSize && file.contentType.Some? && file.contentType.value in ServiceContentTypes
    ensures file.size == 0 ==> r == Fail(Api(ValidationError))
    ensures file.size > MaxFileSize ==> r == Fail(Api(FileTooLarge))
    ensures 0 < file.size <= MaxFileSize && !r.Pass? ==> r == Fail(Api(UnsupportedMediaType))
  {
    if file.size == 0 then Fail(Api(ValidationError))
    else if file.size > MaxFileSize then Fail(Api(FileTooLarge))
    else if file.contentType.None? || file.contentType.value !in ServiceContentTypes then
      Fail(Api(UnsupportedMediaType))
    else Pass
  }

  /** The service validator is the stricter one: what it accepts the utility
      accepts too, but a Word 97 document passes only the utility, and an
      empty file is reported under different codes. A file of exactly 20 MiB
      passes both. */
  lemma ValidatorsCompared(file: Upload)
    ensures ValidateUpload(file).Pass? ==> UtilValidateFile(Some(file)).Pass?
    ensures file.contentType == Some(Msword) && 0 < file.size <= MaxFileSize ==>
      UtilValidateFile(Some(file)).Pass? && ValidateUpload(file) == Fail(Api(UnsupportedMediaType))
    ensures file.size == 0 ==>
      UtilValidateFile(Some(file)) == Fail(Api(InvalidRequest)) && ValidateUpload(file) == Fail(Api(ValidationError))
    ensures file.size == MaxFileSize && file.contentType == Some(Pdf) ==>
      ValidateUpload(file).Pass? && UtilValidateFile(Some(file)).Pass?
  {
  }

  // ---------------------------------------------------------------- names

  /** `FileStorageUtil.getFileExtension`: the suffix from the last dot, unless
      that dot is the first character or there is none. */
  function FileExtension(filename: Option<string>): (r: string)
    ensures r != [] ==> filename.Some? && EndsWith(filename.value, r) && r[0] == '.' && |r| < |filename.value|
    ensures r != [] ==> forall i :: 1 <= i < |r| ==> r[i] != '.'
    ensures r == [] <==> filename.None? || LastIndexOf(filename.value, '.') <= 0
  {
    if filename.None? then ""
    else
      var lastDotIndex := LastIndexOf(filename.value, '.');
      if lastDotIndex > 0 then filename.value[lastDotIndex..] else ""
  }

  /** `FileStorageUtil.getFilenameFromPath`: the text after the last slash. */
  function FilenameFromPath(filePath: Option<string>): (r: Option<string>)
    ensures r.None? <==> filePath.None?
    ensures r.Some? ==> '/' !in r.value && EndsWith(filePath.value, r.value)
    ensures r.Some? && '/' !in filePath.value ==> r.value == filePath.value
    ensures r.Some? ==> (r.value == filePath.value ||
      (|r.value| < |filePath.value| && filePath.value[|filePath.value| - |r.value| - 1] == '/'))
  {
    if filePath.None? then None
    else
      var lastSlashIndex := LastIndexOf(filePath.value, '/');
      if lastSlashIndex >= 0 then Some(filePath.value[lastSlashIndex + 1..]) else filePath
  }

  /** The name `storeFile` writes under the upload directory. */
  function StoredName(millis: int, uuid: string, file: Upload): string {
    IntToString(millis) + "_" + uuid + FileExtension(file.originalFilename)
  }

  /** `FileStorageUtil.storeFile`: after validation, the relative path
      `/files/<millis>_<uuid><ext>`; the clock and the UUID are parameters. */
  function StoreFile(file: Option<Upload>, millis: int, uuid: string): (r: Result<string, Error>)
    ensures r.Success? <==> UtilValidateFile(file).Pass?
    ensures r.Success? ==> StartsWith(r.value, "/files/") && EndsWith(r.value, FileExtension(file.value.originalFilename))
  {
    var validation := UtilValidateFile(file);
    if validation.Fail? then Failure(validation.error)
    else
    StoredPathShape(millis, uuid, file.value);
    Success("/files/" + StoredName(millis, uuid, file.value))
  }

  lemma StoredPathShape(millis: int, uuid: string, file: Upload)
    ensures var path := "/files/" + StoredName(millis, uuid, file);
      StartsWith(path, "/files/") && EndsWith(path, FileExtension(file.originalFilename))
  {
    var name := IntToString(millis) + "_" + uuid;
    var ext := FileExtension(file.originalFilename);
    assert StoredName(millis, uuid, file) == name + ext;
    StartsWithAppend("/files/", name + ext);
    assert "/files/" + (name + ext) == ("/files/" + name) + ext;
    EndsWithAppend("/files/" + name, ext);
  }

  /** The name after `/files/` is what `getFilenameFromPath` gives back. */
  lemma FilenameFromPathRoundTrip(f: string)
    requires '/' !in f
    ensures FilenameFromPath(Some("/files/" + f)) == Some(f)
  {
    assert "/files/" + f == "/files" + ['/'] + f;
    LastIndexOfAppend("/files", '/', f);
  }

  /** `deleteFile` removes the stored file `storeFile` wrote, provided the
      UUID and the extension hold no slash. */
  lemma DeleteFindsStoredFile(file: Option<Upload>, millis: int, uuid: string)
    requires UtilValidateFile(file).Pass? && '/' !in uuid
    requires '/' !in FileExtension(file.value.originalFilename)
    ensures DeleteFileTarget(Some(StoreFile(file, millis, uuid).value)) == Some(StoredName(millis, uuid, file.value))
  {
    var name := StoredName(millis, uuid, file.value);
    IntToStringNoSlash(millis);
    assert '/' !in name by {
      assert name == IntToString(millis) + ("_" + uuid + FileExtension(file.value.originalFilename));
    }
    FilenameFromPathRoundTrip(name);
  }

  lemma IntToStringNoSlash(n: int)
    ensures '/' !in IntToString(n) && '.' !in IntToString(n)
  {
    var m: nat := if n < 0 then -n else n;
    NatToStringDigits(m);
    var d := NatToString(m);
    assert forall i :: 0 <= i < |d| ==> d[i] != '/' && d[i] != '.';
  }

  /** `FileStorageUtil.deleteFile`: a null path deletes nothing; otherwise
      the name after the path's last slash is resolved against the upload
      directory and deleted. That name may be empty or "..", so the target is
      not always a file inside the directory. An I/O error is swallowed, so
      the call never fails. */
  function DeleteFileTarget(filePath: Option<string>): (r: Option<string>)
    ensures r.None? <==> filePath.None?
    ensures r.Some? ==> '/' !in r.value && EndsWith(filePath.value, r.value)
    ensures r.Some? ==> (r.value == filePath.value ||
      (|r.value| < |filePath.value| && filePath.value[|filePath.value| - |r.value| - 1] == '/'))
  {
    if filePath.None? then None else FilenameFromPath(filePath)
  }

  /** The last component is taken as it is: a path ending in ".." names the
      upload directory's parent, and one ending in a slash names the upload
      directory itself. */
  lemma DeleteTargetMayLeaveUploadDir()
    ensures DeleteFileTarget(Some("x/..")) == Some("..")
    ensures DeleteFileTarget(Some("x/")) == Some("")
  {
    assert LastIndexOf("x/..", '/') == 1;
    assert LastIndexOf("x/", '/') == 1;
  }

  // ---------------------------------------------------------------- paths

  /** A path as its list of names. */
  type PathNames = seq<string>

  /** No name is "." or "..". */
  predicate Plain(names: PathNames) {
    forall i :: 0 <= i < |names| ==> names[i] != "." && names[i] != ".."
  }

  /** `Paths.get(s)`'s names: the non-empty pieces between slashes. */
  function Names(s: string): (r: PathNames)
    ensures forall i :: 0 <= i < |r| ==> r[i] != [] && '/' !in r[i]
    decreases |s|
  {
    if '/' !in s then (if s == [] then [] else [s])
    else
      var i := FirstIndex(s, '/');
      (if i == 0 then [] else [s[..i]]) + Names(s[i + 1..])
  }

  /** A slash-free, non-empty leading piece is the first name. */
  lemma NamesOfSlashJoin(a: string, b: string)
    requires a != [] && '/' !in a
    ensures Names(a + "/" + b) == [a] + Names(b)
  {
    var s := a + "/" + b;
    assert s[|a|] == '/';
    assert s[..|a|] == a;
    var i := FirstIndex(s, '/');
    assert i == |a|;
    assert s[..i] == a;
    assert s[i + 1..] == b;
  }

  /** A `java.nio.file.Path`: absolute or relative, and its names. */
  datatype JPath = JPath(absolute: bool, names: PathNames)

  /** `Paths.get(s)`: absolute exactly when `s` starts with a slash. */
  function PathOf(s: string): JPath {
    JPath(|s| > 0 && s[0] == '/', Names(s))
  }

  /** `Path.normalize()`: "." vanishes and ".." removes the name before it.
      A ".." with nothing to remove is dropped at the start of an absolute
      path and kept in a relative one. */
  function Normalize(absolute: bool, names: PathNames): (r: PathNames)
    ensures |r| <= |names|
    ensures forall i :: 0 <= i < |r| ==> r[i] != "."
    ensures absolute ==> Plain(r)
  {
    if |names| == 0 then []
    else
      var init := Normalize(absolute, names[..|names| - 1]);
      var last := names[|names| - 1];
      if last == "." then init
      else if last == ".." then
        if |init| > 0 && init[|init| - 1] != ".." then init[..|init| - 1]
        else if absolute then init
        else init + [".."]
      else init + [last]
  }

  /** `base.resolve(other)`: an absolute `other` replaces the base. */
  function Resolve(base: JPath, other: JPath): JPath {
    if other.absolute then other else JPath(base.absolute, base.names + other.names)
  }

  /** `toAbsolutePath()`: a relative path is put after the working directory
      `cwd`; nothing is normalised. */
  function ToAbsolute(cwd: PathNames, p: JPath): PathNames {
    if p.absolute then p.names else cwd + p.names
  }

  /** The configured upload directory and the working directory it is
      resolved against. */
  datatype Storage = Storage(cwd: PathNames, uploadDir: string)

  /** `rootLocation.toAbsolutePath()`: the root exactly as configured, made
      absolute but not normalised. */
  function AbsoluteRoot(storage: Storage): (r: PathNames)
    ensures |r| >= |Names(storage.uploadDir)| && r[|r| - |Names(storage.uploadDir)|..] == Names(storage.uploadDir)
    ensures PathOf(storage.uploadDir).absolute ==> r == Names(storage.uploadDir)
    ensures !PathOf(storage.uploadDir).absolute ==> |r| >= |storage.cwd| && r[..|storage.cwd|] == storage.cwd
  {
    ToAbsolute(storage.cwd, PathOf(storage.uploadDir))
  }

  /** `rootLocation.resolve(Paths.get(subPath)).normalize().toAbsolutePath()`.
      An absolute sub-path replaces the root altogether, and a destination
      under an absolute root or sub-path has no "." or ".." left. */
  function Destination(storage: Storage, subPath: string): (r: PathNames)
    ensures PathOf(subPath).absolute ==> r == Normalize(true, Names(subPath))
    ensures PathOf(storage.uploadDir).absolute || PathOf(subPath).absolute ==> Plain(r)
  {
    var resolved := Resolve(PathOf(storage.uploadDir), PathOf(subPath));
    ToAbsolute(storage.cwd, JPath(resolved.absolute, Normalize(resolved.absolute, resolved.names)))
  }

  /** `dest` lies strictly below `root`. */
  predicate StrictlyInside(root: PathNames, dest: PathNames) {
    |dest| > |root| && dest[..|root|] == root
  }

  /** `FileStorageService.saveFile` up to the copy: validation, then the
      parent of the normalised destination must start with the root as
      configured (a destination at "/" has no parent, and the call throws).
      The sub-path is returned unchanged. */
  function SaveFile(storage: Storage, file: Upload, subPath: string): (r: Result<string, Error>)
    ensures ValidateUpload(file).Fail? ==> r == Failure(ValidateUpload(file).error)
    ensures r.Success? <==>
      ValidateUpload(file).Pass? && StrictlyInside(AbsoluteRoot(storage), Destination(storage, subPath))
    ensures r.Success? ==> r.value == subPath
    ensures ValidateUpload(file).Pass? && Destination(storage, subPath) == [] ==> r == Failure(Runtime(NullPointer))
    ensures (ValidateUpload(file).Pass? && Destination(storage, subPath) != []
             && !StrictlyInside(AbsoluteRoot(storage), Destination(storage, subPath))) ==>
      r == Failure(Api(InvalidRequest))
  {
    var validation := ValidateUpload(file);
    if validation.Fail? then Failure(validation.error)
    else
    var destinationFile := Destination(storage, subPath);
    if |destinationFile| == 0 then Failure(Runtime(NullPointer))
    else
      var parent := destinationFile[..|destinationFile| - 1];
      var root := AbsoluteRoot(storage);
      if !(|parent| >= |root| && parent[..|root|] == root) then Failure(Api(InvalidRequest))
      else Success(subPath)
  }

  /** Appending plain names commutes with normalising. */
  lemma {:induction false} NormalizeAppendPlain(absolute: bool, a: PathNames, b: PathNames)
    requires Plain(b)
    ensures Normalize(absolute, a + b) == Normalize(absolute, a) + b
    decreases |b|
  {
    if |b| > 0 {
      var b' := b[..|b| - 1];
      assert (a + b)[..|a + b| - 1] == a + b';
      assert (a + b)[|a + b| - 1] == b[|b| - 1];
      NormalizeAppendPlain(absolute, a, b');
      assert Normalize(absolute, a) + b' + [b[|b| - 1]] == Normalize(absolute, a) + b;
    } else {
      assert a + b == a;
    }
  }

  lemma {:induction false} NormalizeOfPlain(absolute: bool, a: PathNames)
    requires Plain(a)
    ensures Normalize(absolute, a) == a
    decreases |a|
  {
    if |a| > 0 {
      NormalizeOfPlain(absolute, a[..|a| - 1]);
    }
  }

  /** Under an upload directory with no "." or ".." names, a relative
      sub-path with at least one name and no "." or ".." is always stored,
      below the root, under its own name. */
  lemma PlainSubPathAccepted(storage: Storage, file: Upload, subPath: string)
    requires Plain(Names(storage.uploadDir)) && ValidateUpload(file).Pass?
    requires !(|subPath| > 0 && subPath[0] == '/')
    requires Plain(Names(subPath)) && |Names(subPath)| >= 1
    ensures SaveFile(storage, file, subPath) == Success(subPath)
    ensures Destination(storage, subPath) == AbsoluteRoot(storage) + Names(subPath)
  {
    PlainDestination(storage, subPath);
    var dest := Destination(storage, subPath);
    assert dest[..|AbsoluteRoot(storage)|] == AbsoluteRoot(storage);
  }

  /** A relative sub-path lands after the root's names, normalised together. */
  lemma RelativeDestination(storage: Storage, subPath: string)
    requires !(|subPath| > 0 && subPath[0] == '/')
    ensures var root := PathOf(storage.uploadDir);
      Destination(storage, subPath)
      == ToAbsolute(storage.cwd, JPath(root.absolute, Normalize(root.absolute, root.names + Names(subPath))))
  {
  }

  /** Under a plain root, a plain relative sub-path lands right after the
      absolute root. */
  lemma PlainDestination(storage: Storage, subPath: string)
    requires Plain(Names(storage.uploadDir))
    requires !(|subPath| > 0 && subPath[0] == '/')
    requires Plain(Names(subPath))
    ensures Destination(storage, subPath) == AbsoluteRoot(storage) + Names(subPath)
  {
    RelativeDestination(storage, subPath);
    AppendedDestination(storage.cwd, PathOf(storage.uploadDir), Names(subPath));
  }

  lemma AppendedDestination(cwd: PathNames, root: JPath, b: PathNames)
    requires Plain(root.names) && Plain(b)
    ensures ToAbsolute(cwd, JPath(root.absolute, Normalize(root.absolute, root.names + b))) == ToAbsolute(cwd, root) + b
  {
    PlainAppendNormalized(root.absolute, root.names, b);
    if !root.absolute {
      assert cwd + (root.names + b) == cwd + root.names + b;
    }
  }

  lemma PlainAppendNormalized(absolute: bool, a: PathNames, b: PathNames)
    requires Plain(a) && Plain(b)
    ensures Normalize(absolute, a + b) == a + b
  {
    NormalizeAppendPlain(absolute, a, b);
    NormalizeOfPlain(absolute, a);
  }

  /** A relative sub-path with a plain name never normalises to "/", so
      saving it fails only with an API error. */
  lemma PlainSubPathFailsWithApiError(storage: Storage, file: Upload, subPath: string)
    requires !(|subPath| > 0 && subPath[0] == '/')
    requires Plain(Names(subPath)) && |Names(subPath)| >= 1
    ensures Destination(storage, subPath) != []
    ensures SaveFile(storage, file, subPath).Failure? ==> SaveFile(storage, file, subPath).error.Api?
  {
    var root := PathOf(storage.uploadDir);
    RelativeDestination(storage, subPath);
    NormalizeAppendPlain(root.absolute, root.names, Names(subPath));
  }

  /** With the upload directory written "./uploads", the "." stays in the
      root the destination is compared with but not in the normalised
      destination, so every plain relative sub-path is refused. */
  lemma DotRootRefusesPlainSubPaths(cwd: PathNames, file: Upload, subPath: string)
    requires ValidateUpload(file).Pass?
    requires !(|subPath| > 0 && subPath[0] == '/')
    requires Plain(Names(subPath)) && |Names(subPath)| >= 1
    ensures SaveFile(Storage(cwd, "./uploads"), file, subPath) == Failure(Api(InvalidRequest))
  {
    var storage := Storage(cwd, "./uploads");
    var names := Names(subPath);
    DotUploadsNames();
    RelativeDestination(storage, subPath);
    NormalizeAppendPlain(false, [".", "uploads"], names);
    DotUploadsNormalized();
    var dest := Destination(storage, subPath);
    assert dest == cwd + (["uploads"] + names);
    var root := AbsoluteRoot(storage);
    assert root == cwd + [".", "uploads"];
    assert dest[|cwd|] == "uploads" && root[|cwd|] == ".";
    assert !StrictlyInside(root, dest);
  }

  lemma DotUploadsNames()
    ensures Names("./uploads") == [".", "uploads"]
  {
    assert FirstIndex("./uploads", '/') == 1;
    assert "./uploads"[2..] == "uploads";
    assert "./uploads"[..1] == ".";
    UploadsNames();
  }

  lemma DotUploadsNormalized()
    ensures Normalize(false, [".", "uploads"]) == ["uploads"]
  {
    assert [".", "uploads"][..1] == ["."];
    assert Normalize(false, ["."]) == [];
  }

  /** A sub-path that climbs out of the root with ".." is refused. */
  lemma DotDotEscapeRefused(cwd: PathNames, file: Upload)
    requires ValidateUpload(file).Pass?
    ensures SaveFile(Storage(cwd, "/srv/uploads"), file, "../x") == Failure(Api(InvalidRequest))
  {
    var storage := Storage(cwd, "/srv/uploads");
    SrvUploadsNames();
    DotDotDestination(cwd);
    assert AbsoluteRoot(storage) == ["srv", "uploads"];
    assert !StrictlyInside(["srv", "uploads"], ["srv", "x"]);
  }

  /** "../x" under "/srv/uploads" normalises to "/srv/x". */
  lemma DotDotDestination(cwd: PathNames)
    ensures Destination(Storage(cwd, "/srv/uploads"), "../x") == ["srv", "x"]
  {
    SrvUploadsNames();
    DotDotNames();
    RelativeDestination(Storage(cwd, "/srv/uploads"), "../x");
    SrvDotDotNormalized();
  }

  lemma SrvDotDotNormalized()
    ensures Normalize(true, ["srv", "uploads"] + ["..", "x"]) == ["srv", "x"]
  {
    var n := ["srv", "uploads"] + ["..", "x"];
    assert n[..3] == ["srv", "uploads", ".."];
    assert n[..3][..2] == ["srv", "uploads"];
    assert n[..3][..2][..1] == ["srv"];
    assert Normalize(true, ["srv"]) == ["srv"];
    assert Normalize(true, n[..3]) == ["srv"];
  }

  lemma SrvUploadsNames()
    ensures Names("/srv/uploads") == ["srv", "uploads"]
  {
    assert FirstIndex("/srv/uploads", '/') == 0;
    assert "/srv/uploads"[1..] == "srv/uploads";
    SrvUploadsRelativeNames();
  }

  lemma SrvUploadsRelativeNames()
    ensures Names("srv/uploads") == ["srv", "uploads"]
  {
    assert FirstIndex("srv/uploads", '/') == 3;
    assert "srv/uploads"[4..] == "uploads";
    assert "srv/uploads"[..3] == "srv";
    UploadsNames();
  }

  lemma UploadsNames()
    ensures Names("uploads") == ["uploads"]
  {
    assert '/' !in "uploads";
  }

  lemma DotDotNames()
    ensures Names("../x") == ["..", "x"]
  {
    assert FirstIndex("../x", '/') == 2;
    assert "../x"[3..] == "x";
    assert "../x"[..2] == "..";
    assert Names("x") == ["x"];
  }

  // ---------------------------------------------------------------- dots

  /** Every dot follows a character other than a slash or a dot. Such a
      string has no "." or ".." among its names. */
  predicate DotSafe(s: string) {
    forall i :: 0 <= i < |s| && s[i] == '.' ==> i > 0 && s[i - 1] != '/' && s[i - 1] != '.'
  }

  lemma {:induction false} DotSafeNamesPlain(s: string)
    requires DotSafe(s)
    ensures Plain(Names(s))
    decreases |s|
  {
    if '/' in s {
      var i := FirstIndex(s, '/');
      var rest := s[i + 1..];
      assert DotSafe(rest) by {
        forall j | 0 <= j < |rest| && rest[j] == '.'
          ensures j > 0 && rest[j - 1] != '/' && rest[j - 1] != '.'
        {
          assert s[i + 1 + j] == '.';
        }
      }
      DotSafeNamesPlain(rest);
      if i > 0 {
        assert s[..i][0] == s[0];
      }
    } else if s != [] {
      assert s[0] != '.';
    }
  }

  /** A relative path's first name is present. */
  lemma NamesOfRelative(s: string)
    requires |s| > 0 && s[0] != '/'
    ensures |Names(s)| >= 1
  {
    if '/' in s {
      var i := FirstIndex(s, '/');
      assert i > 0;
    }
  }

  // ---------------------------------------------------------------- download headers

  /** `FileController.determineContentType` on the file name. */
  function ContentTypeFor(filename: string): (r: string)
    ensures r == Pdf <==> EndsWith(ToLower(filename), ".pdf")
    ensures r == Docx <==> EndsWith(ToLower(filename), ".docx")
    ensures r == Pdf || r == Docx || r == OctetStream
  {
    var lower := ToLower(filename);
    if EndsWith(lower, ".pdf") then
      assert lower[|lower| - 4..][3] == 'f';
      Pdf
    else if EndsWith(lower, ".docx") then Docx
    else OctetStream
  }

  /** The content type ignores case and agrees with the service validator:
      the types it names are the ones uploads may have. */
  lemma ContentTypeIgnoresCase(filename: string)
    ensures ContentTypeFor(ToLower(filename)) == ContentTypeFor(filename)
    ensures ContentTypeFor(filename) != OctetStream ==> ContentTypeFor(filename) in ServiceContentTypes
  {
    ToLowerIdempotent(filename);
  }

  lemma UpperCaseExtension()
    ensures ContentTypeFor("A.PDF") == Pdf
  {
    assert ToLower("A.PDF") == "a.pdf";
  }

  const FilenameParameter: string := "; filename=\""

  /** The `Content-Disposition` header: `inline` to view, `attachment` to
      download, with the quoted file name. */
  function Disposition(view: bool, filename: string): (r: string)
    ensures StartsWith(r, "inline") <==> view
    ensures EndsWith(r, filename + "\"")
  {
    var disposition := if view then "inline" else "attachment";
    var header := disposition + FilenameParameter + filename + "\"";
    assert header == (disposition + FilenameParameter) + (filename + "\"");
    EndsWithAppend(disposition + FilenameParameter, filename + "\"");
    assert header[..6] == disposition[..6];
    assert header[0] == disposition[0];
    header
  }

  /** How a client reads the file name back: after `filename="`, up to the
      next quote. */
  function QuotedFilename(header: string, view: bool): Option<string> {
    var prefix := (if view then "inline" else "attachment") + FilenameParameter;
    if !StartsWith(header, prefix) then None
    else
      var rest := header[|prefix|..];
      if '"' !in rest then None else Some(rest[..FirstIndex(rest, '"')])
  }

  /** The name survives the header exactly when it holds no quote. */
  lemma DispositionRoundTrip(view: bool, filename: string)
    ensures QuotedFilename(Disposition(view, filename), view) == Some(filename) <==> '"' !in filename
  {
    var prefix := (if view then "inline" else "attachment") + FilenameParameter;
    var rest := filename + "\"";
    var header := Disposition(view, filename);
    assert header == prefix + rest;
    assert StartsWith(header, prefix) && header[|prefix|..] == rest by {
      assert header[..|prefix|] == prefix;
    }
    ClosingQuote(filename);
    assert rest[..|filename|] == filename;
  }

  /** In the quoted tail the first quote is the closing one exactly when the
      name holds none. */
  lemma ClosingQuote(filename: string)
    ensures '"' in filename + "\""
    ensures FirstIndex(filename + "\"", '"') == |filename| <==> '"' !in filename
  {
    var rest := filename + "\"";
    assert rest[|filename|] == '"';
    var k := FirstIndex(rest, '"');
    if '"' !in filename {
      assert forall j :: 0 <= j < |filename| ==> rest[j] == filename[j];
    } else {
      var j :| 0 <= j < |filename| && filename[j] == '"';
      assert rest[j] == '"';
      assert k <= j;
    }
  }
}

=== FILE: filters.dfy ===
/** The listing filters, written in the source as JPA criteria: each
    specification collects a list of predicates and conjoins them. Here a
    predicate is a `Criterion` value, `Holds` says which papers satisfy it,
    and a specification accepts a paper when every collected criterion holds.
    Three paper specifications exist side by side: `spec.ResearchPaperSpec`
    (trimmed search, a list of years), `specification.ResearchPaperSpecification`
    (untrimmed search, one year as a date range) and
    `specifications.ResearchPaperSpecifications` (untrimmed search, one year
    by extraction). */
module Filters {
  import opened Wrappers
  import opened Strings
  import opened SqlLike
  import opened Model

  /** One criteria predicate. */
  datatype Criterion =
    | TextLike(pattern: string)
    | DepartmentIn(ids: seq<int>)
    | WithinAnyYear(years: seq<int>)
    | WithinYear(year: int)
    | SubmissionYearIs(year: int)
    | ArchivedIs(flag: bool)

  /** `submissionDate BETWEEN <year>-01-01 AND <year>-12-31`. */
  predicate SubmittedWithin(d: Date, year: int) {
    DateLe(Date(year, 1, 1), d) && DateLe(d, Date(year, 12, 31))
  }

  /** The paper's lower-cased title, author or abstract is `LIKE pattern`. */
  predicate TextMatches(p: ResearchPaper, pattern: string) {
    Like(ToLower(p.title), pattern) || Like(ToLower(p.authorName), pattern) || Like(ToLower(p.abstractText), pattern)
  }

  predicate Holds(c: Criterion, p: ResearchPaper) {
    match c
    case TextLike(pattern) => TextMatches(p, pattern)
    case DepartmentIn(ids) => p.department.departmentId in ids
    case WithinAnyYear(years) => exists i :: 0 <= i < |years| && SubmittedWithin(p.submissionDate, years[i])
    case WithinYear(year) => SubmittedWithin(p.submissionDate, year)
    case SubmissionYearIs(year) => p.submissionDate.year == year
    case ArchivedIs(flag) => p.archived == flag
  }

  /** `cb.and(predicates)`: every criterion holds; an empty list accepts all. */
  predicate Matches(criteria: seq<Criterion>, p: ResearchPaper) {
    forall i :: 0 <= i < |criteria| ==> Holds(criteria[i], p)
  }

  lemma MatchesAppend(a: seq<Criterion>, b: seq<Criterion>, p: ResearchPaper)
    ensures Matches(a + b, p) <==> Matches(a, p) && Matches(b, p)
  {
    if Matches(a, p) && Matches(b, p) {
      forall i | 0 <= i < |a + b|
        ensures Holds((a + b)[i], p)
      {
        if i >= |a| {
          assert (a + b)[i] == b[i - |a|];
        }
      }
    }
    if Matches(a + b, p) {
      forall i | 0 <= i < |a|
        ensures Holds(a[i], p)
      {
        assert (a + b)[i] == a[i];
      }
      forall i | 0 <= i < |b|
        ensures Holds(b[i], p)
      {
        assert (a + b)[|a| + i] == b[i];
      }
    }
  }

  lemma MatchesSingleton(c: Criterion, p: ResearchPaper)
    ensures Matches([c], p) <==> Holds(c, p)
  {
    assert [c][0] == c;
  }

  /** The department list filter: a null or empty list adds nothing. */
  function DepartmentCriteria(departmentIds: Option<seq<int>>): seq<Criterion> {
    if departmentIds.Some? && |departmentIds.value| > 0 then [DepartmentIn(departmentIds.value)] else []
  }

  /** The archive filter: a null flag adds nothing. */
  function ArchivedCriteria(archived: Option<bool>): seq<Criterion> {
    if archived.Some? then [ArchivedIs(archived.value)] else []
  }

  // ---------------------------------------------------------------- spec.ResearchPaperSpec

  /** The search term as `ResearchPaperSpec` uses it: lower-cased, then trimmed. */
  function SearchKey(term: string): (k: string)
    ensures IsLower(k)
    ensures NoWildcards(term) ==> NoWildcards(k)
  {
    LowerIsLower(term);
    TrimPreservesLower(ToLower(term));
    TrimShape(ToLower(term));
    Trim(ToLower(term))
  }

  /** `addCommonPredicates`: search, departments, years, archive flag, in
      that order, each only when its parameter is present and non-blank or
      non-empty. `build` and `buildAdmin` both consist of exactly this list. */
  function AddCommonPredicates(searchTerm: Option<string>, departmentIds: Option<seq<int>>, years: Option<seq<int>>, archived: Option<bool>)
    : (r: seq<Criterion>)
    ensures r == [] <==>
      && (searchTerm.None? || IsBlank(searchTerm.value))
      && (departmentIds.None? || |departmentIds.value| == 0)
      && (years.None? || |years.value| == 0)
      && archived.None?
  {
    SearchCriteria(searchTerm) + DepartmentCriteria(departmentIds) + YearsCriteria(years) + ArchivedCriteria(archived)
  }

  /** The search filter: a null or blank term adds nothing. */
  function SearchCriteria(searchTerm: Option<string>): seq<Criterion> {
    if searchTerm.Some? && !IsBlank(searchTerm.value) then [TextLike(ContainsPattern(SearchKey(searchTerm.value)))] else []
  }

  /** The year filter: one `BETWEEN` per year, or-ed; a null or empty list
      adds nothing. */
  function YearsCriteria(years: Option<seq<int>>): seq<Criterion> {
    if years.Some? && |years.value| > 0 then [WithinAnyYear(years.value)] else []
  }

  /** `ResearchPaperSpec.build` and `ResearchPaperSpec.buildAdmin`: with no
      filter every paper passes, and a passing paper satisfies the department,
      year and archive filters it was given. `PaperSpecMeaning` states the
      converse and the search filter. */
  function PaperSpec(searchTerm: Option<string>, departmentIds: Option<seq<int>>, years: Option<seq<int>>, archived: Option<bool>, p: ResearchPaper)
    : (b: bool)
    ensures ((searchTerm.None? || IsBlank(searchTerm.value)) && (departmentIds.None? || |departmentIds.value| == 0)
      && (years.None? || |years.value| == 0) && archived.None?) ==> b
    ensures b ==> departmentIds.None? || |departmentIds.value| == 0 || p.department.departmentId in departmentIds.value
    ensures b ==> archived.None? || p.archived == archived.value
    ensures b && ValidDate(p.submissionDate) ==> years.None? || |years.value| == 0 || p.submissionDate.year in years.value
  {
    CommonPredicatesFilters(searchTerm, departmentIds, years, archived, p);
    Matches(AddCommonPredicates(searchTerm, departmentIds, years, archived), p)
  }

  lemma CommonPredicatesFilters(searchTerm: Option<string>, departmentIds: Option<seq<int>>, years: Option<seq<int>>, archived: Option<bool>, p: ResearchPaper)
    ensures Matches(AddCommonPredicates(searchTerm, departmentIds, years, archived), p) ==>
      && (departmentIds.None? || |departmentIds.value| == 0 || p.department.departmentId in departmentIds.value)
      && (archived.None? || p.archived == archived.value)
      && (ValidDate(p.submissionDate) ==> years.None? || |years.value| == 0 || p.submissionDate.year in years.value)
  {
    var search := SearchCriteria(searchTerm);
    var departments := DepartmentCriteria(departmentIds);
    var yearly := YearsCriteria(years);
    var flag := ArchivedCriteria(archived);
    if Matches(AddCommonPredicates(searchTerm, departmentIds, years, archived), p) {
      MatchesAppend(search + departments + yearly, flag, p);
      MatchesAppend(search + departments, yearly, p);
      MatchesAppend(search, departments, p);
      assert Matches(departments, p) && Matches(yearly, p) && Matches(flag, p);
      if ValidDate(p.submissionDate) {
        YearsCriteriaMeaning(years, p);
      }
      if departmentIds.Some? && |departmentIds.value| > 0 {
        MatchesSingleton(DepartmentIn(departmentIds.value), p);
      }
      if archived.Some? {
        MatchesSingleton(ArchivedIs(archived.value), p);
      }
    }
  }

  /** The search term occurs in the lower-cased title, author or abstract. */
  predicate TextContains(p: ResearchPaper, t: string) {
    Contains(ToLower(p.title), t) || Contains(ToLower(p.authorName), t) || Contains(ToLower(p.abstractText), t)
  }

  /** With no `%` or `_` in the term, the LIKE search is a substring search. */
  lemma ContainsSearch(p: ResearchPaper, t: string)
    requires NoWildcards(t)
    ensures TextMatches(p, ContainsPattern(t)) <==> TextContains(p, t)
  {
    ContainsPatternIsSubstring(ToLower(p.title), t);
    ContainsPatternIsSubstring(ToLower(p.authorName), t);
    ContainsPatternIsSubstring(ToLower(p.abstractText), t);
  }

  lemma SearchCriteriaMeaning(searchTerm: Option<string>, p: ResearchPaper)
    requires searchTerm.Some? ==> NoWildcards(searchTerm.value)
    ensures Matches(SearchCriteria(searchTerm), p)
      <==> searchTerm.None? || IsBlank(searchTerm.value) || TextContains(p, SearchKey(searchTerm.value))
  {
    if searchTerm.Some? && !IsBlank(searchTerm.value) {
      ContainsSearch(p, SearchKey(searchTerm.value));
      assert Matches(SearchCriteria(searchTerm), p) <==> Holds(SearchCriteria(searchTerm)[0], p);
    }
  }

  lemma YearsCriteriaMeaning(years: Option<seq<int>>, p: ResearchPaper)
    requires ValidDate(p.submissionDate)
    ensures Matches(YearsCriteria(years), p) <==> years.None? || |years.value| == 0 || p.submissionDate.year in years.value
  {
    if years.Some? && |years.value| > 0 {
      forall i | 0 <= i < |years.value|
        ensures SubmittedWithin(p.submissionDate, years.value[i]) <==> p.submissionDate.year == years.value[i]
      {
        WithinYearIffSameYear(p.submissionDate, years.value[i]);
      }
      assert Holds(WithinAnyYear(years.value), p) <==> p.submissionDate.year in years.value;
      assert Matches(YearsCriteria(years), p) <==> Holds(YearsCriteria(years)[0], p);
    }
  }

  /** What `ResearchPaperSpec` accepts, filter by filter: the trimmed,
      lower-cased term occurs in a lower-cased text field, the department is
      listed, the submission year is listed, and the archive flag agrees;
      each absent filter accepts everything. */
  lemma PaperSpecMeaning(searchTerm: Option<string>, departmentIds: Option<seq<int>>, years: Option<seq<int>>, archived: Option<bool>, p: ResearchPaper)
    requires ValidDate(p.submissionDate)
    requires searchTerm.Some? ==> NoWildcards(searchTerm.value)
    ensures PaperSpec(searchTerm, departmentIds, years, archived, p) <==>
      && (searchTerm.None? || IsBlank(searchTerm.value) || TextContains(p, SearchKey(searchTerm.value)))
      && (departmentIds.None? || |departmentIds.value| == 0 || p.department.departmentId in departmentIds.value)
      && (years.None? || |years.value| == 0 || p.submissionDate.year in years.value)
      && (archived.None? || p.archived == archived.value)
  {
    var search := SearchCriteria(searchTerm);
    var departments := DepartmentCriteria(departmentIds);
    MatchesAppend(search, departments, p);
    MatchesAppend(search + departments, YearsCriteria(years), p);
    MatchesAppend(search + departments + YearsCriteria(years), ArchivedCriteria(archived), p);
    SearchCriteriaMeaning(searchTerm, p);
    YearsCriteriaMeaning(years, p);
    if departmentIds.Some? && |departmentIds.value| > 0 {
      MatchesSingleton(DepartmentIn(departmentIds.value), p);
    }
    if archived.Some? {
      MatchesSingleton(ArchivedIs(archived.value), p);
    }
  }

  /** The term is pasted into the pattern unescaped: a search for "%" accepts
      every paper. */
  lemma PercentSearchMatchesAll(p: ResearchPaper)
    ensures PaperSpec(Some("%"), None, None, None, p)
  {
    PercentSearchCriteria();
    TripleWildcardMatches(ToLower(p.title));
    MatchesSingleton(TextLike("%%%"), p);
  }

  lemma PercentSearchCriteria()
    ensures AddCommonPredicates(Some("%"), None, None, None) == [TextLike("%%%")]
  {
    PercentSearchCriterion();
  }

  lemma PercentSearchCriterion()
    ensures SearchCriteria(Some("%")) == [TextLike("%%%")]
  {
    NonBlankSearchCriteria("%");
    PercentIsItsOwnKey();
    PercentPattern();
  }

  lemma PercentPattern()
    ensures ContainsPattern("%") == "%%%"
  {
  }

  lemma NonBlankSearchCriteria(term: string)
    requires !IsBlank(term)
    ensures SearchCriteria(Some(term)) == [TextLike(ContainsPattern(SearchKey(term)))]
  {
  }

  lemma PercentIsItsOwnKey()
    ensures !IsBlank("%") && SearchKey("%") == "%"
  {
    assert TrimStart("%") == "%" && TrimEnd("%") == "%";
    assert ToLower("%") == "%";
  }

  lemma TripleWildcardMatches(s: string)
    ensures Like(s, "%%%")
  {
    LikeAnything(s);
    assert "%%%"[1..] == "%%" && "%%"[1..] == "%";
  }

  // ---------------------------------------------------------------- the single-year specifications

  /** The shared shape of the two single-year specifications: an untrimmed,
      lower-cased search when the term is non-empty, the department list, the
      given year criteria, the archive flag. */
  function SingleYearCriteria(searchTerm: Option<string>, departmentIds: Option<seq<int>>, yearCriteria: seq<Criterion>, archived: Option<bool>)
    : seq<Criterion>
  {
    UntrimmedSearchCriteria(searchTerm)
    + DepartmentCriteria(departmentIds)
    + yearCriteria
    + ArchivedCriteria(archived)
  }

  /** `specification.ResearchPaperSpecification.build`: the year as a date range. */
  function RangeSpecification(searchTerm: Option<string>, departmentIds: Option<seq<int>>, year: Option<int>, archived: Option<bool>)
    : (r: seq<Criterion>)
    ensures year.Some? ==> WithinYear(year.value) in r
    ensures searchTerm.Some? && |searchTerm.value| > 0 ==> TextLike(ContainsPattern(ToLower(searchTerm.value))) in r
  {
    var r := SingleYearCriteria(searchTerm, departmentIds, if year.Some? then [WithinYear(year.value)] else [], archived);
    assert searchTerm.Some? && |searchTerm.value| > 0 ==> r[0] == TextLike(ContainsPattern(ToLower(searchTerm.value)));
    assert year.Some? ==> WithinYear(year.value) in r by {
      if year.Some? {
        var k := |SingleYearCriteria(searchTerm, departmentIds, [], None)|;
        assert r[k] == WithinYear(year.value);
      }
    }
    r
  }

  /** `specifications.ResearchPaperSpecifications.build`: the year by `year(…)`. */
  function ExtractSpecification(searchTerm: Option<string>, departmentIds: Option<seq<int>>, year: Option<int>, archived: Option<bool>)
    : (r: seq<Criterion>)
    ensures year.Some? ==> SubmissionYearIs(year.value) in r
    ensures searchTerm.Some? && |searchTerm.value| > 0 ==> TextLike(ContainsPattern(ToLower(searchTerm.value))) in r
  {
    var r := SingleYearCriteria(searchTerm, departmentIds, if year.Some? then [SubmissionYearIs(year.value)] else [], archived);
    assert searchTerm.Some? && |searchTerm.value| > 0 ==> r[0] == TextLike(ContainsPattern(ToLower(searchTerm.value)));
    assert year.Some? ==> SubmissionYearIs(year.value) in r by {
      if year.Some? {
        var k := |SingleYearCriteria(searchTerm, departmentIds, [], None)|;
        assert r[k] == SubmissionYearIs(year.value);
      }
    }
    r
  }

  /** The search filter of the single-year specifications: the term is
      lower-cased but not trimmed, and only an empty term adds nothing. */
  function UntrimmedSearchCriteria(searchTerm: Option<string>): seq<Criterion> {
    if searchTerm.Some? && |searchTerm.value| > 0 then [TextLike(ContainsPattern(ToLower(searchTerm.value)))] else []
  }

  lemma UntrimmedSearchMeaning(searchTerm: Option<string>, p: ResearchPaper)
    requires searchTerm.Some? ==> NoWildcards(searchTerm.value)
    ensures Matches(UntrimmedSearchCriteria(searchTerm), p)
      <==> searchTerm.None? || |searchTerm.value| == 0 || TextContains(p, ToLower(searchTerm.value))
  {
    if searchTerm.Some? && |searchTerm.value| > 0 {
      LowerKeepsNoWildcards(searchTerm.value);
      ContainsSearch(p, ToLower(searchTerm.value));
      MatchesSingleton(TextLike(ContainsPattern(ToLower(searchTerm.value))), p);
    }
  }

  lemma LowerKeepsNoWildcards(t: string)
    requires NoWildcards(t)
    ensures NoWildcards(ToLower(t))
  {
  }

  /** What the extraction specification accepts, filter by filter: the
      lower-cased but untrimmed term occurs in a lower-cased text field, the
      department is listed, the submission year is the one asked for, and the
      archive flag agrees; each absent filter accepts everything. */
  lemma ExtractSpecificationMeaning(searchTerm: Option<string>, departmentIds: Option<seq<int>>, year: Option<int>, archived: Option<bool>, p: ResearchPaper)
    requires searchTerm.Some? ==> NoWildcards(searchTerm.value)
    ensures Matches(ExtractSpecification(searchTerm, departmentIds, year, archived), p) <==>
      && (searchTerm.None? || |searchTerm.value| == 0 || TextContains(p, ToLower(searchTerm.value)))
      && (departmentIds.None? || |departmentIds.value| == 0 || p.department.departmentId in departmentIds.value)
      && (year.None? || p.submissionDate.year == year.value)
      && (archived.None? || p.archived == archived.value)
  {
    var search := UntrimmedSearchCriteria(searchTerm);
    var departments := DepartmentCriteria(departmentIds);
    var years := if year.Some? then [SubmissionYearIs(year.value)] else [];
    assert ExtractSpecification(searchTerm, departmentIds, year, archived) == search + departments + years + ArchivedCriteria(archived);
    MatchesAppend(search, departments, p);
    MatchesAppend(search + departments, years, p);
    MatchesAppend(search + departments + years, ArchivedCriteria(archived), p);
    UntrimmedSearchMeaning(searchTerm, p);
    if departmentIds.Some? && |departmentIds.value| > 0 {
      MatchesSingleton(DepartmentIn(departmentIds.value), p);
    }
    if year.Some? {
      MatchesSingleton(SubmissionYearIs(year.value), p);
    }
    if archived.Some? {
      MatchesSingleton(ArchivedIs(archived.value), p);
    }
  }

  /** What the range specification accepts: the same as the extraction
      specification, for every paper with a valid submission date. */
  lemma RangeSpecificationMeaning(searchTerm: Option<string>, departmentIds: Option<seq<int>>, year: Option<int>, archived: Option<bool>, p: ResearchPaper)
    requires ValidDate(p.submissionDate)
    requires searchTerm.Some? ==> NoWildcards(searchTerm.value)
    ensures Matches(RangeSpecification(searchTerm, departmentIds, year, archived), p) <==>
      && (searchTerm.None? || |searchTerm.value| == 0 || TextContains(p, ToLower(searchTerm.value)))
      && (departmentIds.None? || |departmentIds.value| == 0 || p.department.departmentId in departmentIds.value)
      && (year.None? || p.submissionDate.year == year.value)
      && (archived.None? || p.archived == archived.value)
  {
    SingleYearSpecificationsAgree(searchTerm, departmentIds, year, archived, p);
    ExtractSpecificationMeaning(searchTerm, departmentIds, year, archived, p);
  }

  /** The range and the extraction formulations accept the same papers. */
  lemma SingleYearSpecificationsAgree(searchTerm: Option<string>, departmentIds: Option<seq<int>>, year: Option<int>, archived: Option<bool>, p: ResearchPaper)
    requires ValidDate(p.submissionDate)
    ensures Matches(RangeSpecification(searchTerm, departmentIds, year, archived), p)
        <==> Matches(ExtractSpecification(searchTerm, departmentIds, year, archived), p)
  {
    var search := if searchTerm.Some? && |searchTerm.value| > 0 then [TextLike(ContainsPattern(ToLower(searchTerm.value)))] else [];
    var head := search + DepartmentCriteria(departmentIds);
    var tail := ArchivedCriteria(archived);
    var byRange := RangeSpecification(searchTerm, departmentIds, year, archived);
    var byExtract := ExtractSpecification(searchTerm, departmentIds, year, archived);
    if year.Some? {
      assert byRange == head + [WithinYear(year.value)] + tail;
      assert byExtract == head + [SubmissionYearIs(year.value)] + tail;
      assert Holds(WithinYear(year.value), p) <==> Holds(SubmissionYearIs(year.value), p) by {
        WithinYearIffSameYear(p.submissionDate, year.value);
      }
      SwapMiddle(head, WithinYear(year.value), SubmissionYearIs(year.value), tail, p);
      assert Matches(byRange, p) <==> Matches(byExtract, p);
    } else {
      assert byRange == head + tail == byExtract;
    }
  }

  /** A single-year query agrees with the list-of-years specification given
      that one year, once the term needs no trimming. */
  lemma SingleYearIsOneElementList(searchTerm: Option<string>, departmentIds: Option<seq<int>>, year: int, archived: Option<bool>, p: ResearchPaper)
    requires searchTerm.Some? ==> !IsBlank(searchTerm.value) && SearchKey(searchTerm.value) == ToLower(searchTerm.value)
    ensures Matches(RangeSpecification(searchTerm, departmentIds, Some(year), archived), p)
        <==> PaperSpec(searchTerm, departmentIds, Some([year]), archived, p)
  {
    SingleYearCriteriaSwap(searchTerm, departmentIds, year, archived, p);
  }

  lemma SingleYearCriteriaSwap(searchTerm: Option<string>, departmentIds: Option<seq<int>>, year: int, archived: Option<bool>, p: ResearchPaper)
    requires searchTerm.Some? ==> !IsBlank(searchTerm.value) && SearchKey(searchTerm.value) == ToLower(searchTerm.value)
    ensures Matches(RangeSpecification(searchTerm, departmentIds, Some(year), archived), p)
        <==> Matches(AddCommonPredicates(searchTerm, departmentIds, Some([year]), archived), p)
  {
    var head := SearchCriteria(searchTerm) + DepartmentCriteria(departmentIds);
    var tail := ArchivedCriteria(archived);
    var range := RangeSpecification(searchTerm, departmentIds, Some(year), archived);
    var list := AddCommonPredicates(searchTerm, departmentIds, Some([year]), archived);
    assert range == head + [WithinYear(year)] + tail by {
      SearchCriteriaUntrimmed(searchTerm);
      RangeSpecificationOfYear(searchTerm, departmentIds, year, archived);
    }
    assert list == head + [WithinAnyYear([year])] + tail by {
      assert YearsCriteria(Some([year])) == [WithinAnyYear([year])];
    }
    assert Holds(WithinYear(year), p) <==> Holds(WithinAnyYear([year]), p) by {
      assert [year][0] == year;
    }
    SwapMiddle(head, WithinYear(year), WithinAnyYear([year]), tail, p);
    assert Matches(range, p) <==> Matches(list, p);
  }

  /** A term that needs no trimming gives the same search criterion under
      both specifications. */
  lemma SearchCriteriaUntrimmed(searchTerm: Option<string>)
    requires searchTerm.Some? ==> !IsBlank(searchTerm.value) && SearchKey(searchTerm.value) == ToLower(searchTerm.value)
    ensures SearchCriteria(searchTerm)
         == if searchTerm.Some? && |searchTerm.value| > 0 then [TextLike(ContainsPattern(ToLower(searchTerm.value)))] else []
  {
  }

  lemma RangeSpecificationOfYear(searchTerm: Option<string>, departmentIds: Option<seq<int>>, year: int, archived: Option<bool>)
    ensures RangeSpecification(searchTerm, departmentIds, Some(year), archived)
         == (if searchTerm.Some? && |searchTerm.value| > 0 then [TextLike(ContainsPattern(ToLower(searchTerm.value)))] else [])
            + DepartmentCriteria(departmentIds) + [WithinYear(year)] + ArchivedCriteria(archived)
  {
  }

  /** Replacing one criterion by an equivalent one changes nothing. */
  lemma SwapMiddle(head: seq<Criterion>, x: Criterion, y: Criterion, tail: seq<Criterion>, p: ResearchPaper)
    requires Holds(x, p) <==> Holds(y, p)
    ensures Matches(head + [x] + tail, p) <==> Matches(head + [y] + tail, p)
  {
    MatchesAppend(head, [x], p);
    MatchesAppend(head + [x], tail, p);
    MatchesAppend(head, [y], p);
    MatchesAppend(head + [y], tail, p);
    MatchesSingleton(x, p);
    MatchesSingleton(y, p);
  }

  /** The untrimmed specifications take a whitespace-only term literally:
      `ResearchPaperSpec` ignores " ", the range specification demands a
      space somewhere in the text. */
  lemma WhitespaceSearchDiffers(p: ResearchPaper)
    requires p.title == "a" && p.authorName == "a" && p.abstractText == "a"
    ensures PaperSpec(Some(" "), None, None, None, p)
    ensures !Matches(RangeSpecification(Some(" "), None, None, None), p)
  {
    assert TrimStart(" ") == [];
    assert IsBlank(" ");
    assert ToLower(" ") == " ";
    assert ToLower("a") == "a";
    assert RangeSpecification(Some(" "), None, None, None) == UntrimmedSearchCriteria(Some(" "));
    UntrimmedSearchMeaning(Some(" "), p);
    assert !Contains("a", " ") by {
      assert forall i :: 0 <= i <= 0 ==> !OccursAt("a", " ", i);
    }
  }

  // ---------------------------------------------------------------- DocumentRequestSpec

  /** `hasDepartmentId`: null matches every request; otherwise the request's
      paper must belong to that department. */
  function HasDepartmentId(departmentId: Option<int>, paper: ResearchPaper): (b: bool)
    ensures departmentId.None? ==> b
    ensures departmentId.Some? ==> (b <==> paper.department.departmentId == departmentId.value)
  {
    departmentId.None? || paper.department.departmentId == departmentId.value
  }

  /** `hasStatusIn`: a null or empty list matches every request. */
  function HasStatusIn(statuses: Option<seq<RequestStatus>>, request: DocumentRequest): (b: bool)
    ensures statuses.None? || statuses.value == [] ==> b
    ensures statuses.Some? && statuses.value != [] ==>
      (b <==> exists i :: 0 <= i < |statuses.value| && statuses.value[i] == request.status)
  {
    statuses.None? || |statuses.value| == 0 || request.status in statuses.value
  }

  /** `adminRequestFilter`: the conjunction of the two. `paper` is the
      request's paper. */
  function AdminRequestFilter(departmentId: Option<int>, statuses: Option<seq<RequestStatus>>, request: DocumentRequest, paper: ResearchPaper)
    : (b: bool)
    ensures departmentId.None? && (statuses.None? || statuses.value == []) ==> b
    ensures b ==> departmentId.None? || paper.department.departmentId == departmentId.value
    ensures b ==> statuses.None? || statuses.value == [] || request.status in statuses.value
    ensures ((departmentId.None? || paper.department.departmentId == departmentId.value)
             && (statuses.None? || statuses.value == [] || request.status in statuses.value)) ==> b
  {
    HasDepartmentId(departmentId, paper) && HasStatusIn(statuses, request)
  }

  /** A list of statuses filters as the union of its one-status filters. */
  lemma StatusListIsUnion(departmentId: Option<int>, statuses: seq<RequestStatus>, request: DocumentRequest, paper: ResearchPaper)
    requires |statuses| > 0
    ensures AdminRequestFilter(departmentId, Some(statuses), request, paper)
        <==> exists i :: 0 <= i < |statuses| && AdminRequestFilter(departmentId, Some([statuses[i]]), request, paper)
  {
    if AdminRequestFilter(departmentId, Some(statuses), request, paper) {
      var i :| 0 <= i < |statuses| && statuses[i] == request.status;
      assert AdminRequestFilter(departmentId, Some([statuses[i]]), request, paper);
    }
  }
}

=== FILE: google_auth.dfy ===
/** The sign-in policy applied to a Google account: the verified-email check,
    the privileged-account lookup, and the environment-dependent domain rule
    that privileged accounts bypass. The code exchange and the ID-token
    verifier are network calls; they enter as an outcome and an oracle. */
module GoogleAuth {
  import opened Wrappers
  import opened Strings
  import opened Errors
  import opened Model
  import opened Privileged

  /** The verified ID token's payload. `emailVerified` is a boxed Boolean. */
  datatype IdTokenPayload = IdTokenPayload(
    emailVerified: Option<bool>,
    email: Option<string>,
    name: string,
    subject: string)

  /** What the ID-token verifier does with a token string: throw one of the
      checked exceptions `verifyAndExtractPayload` catches
      (`GeneralSecurityException` or `IOException`), return null (an invalid
      token), or return the verified token. */
  datatype Verification = VerifierError | Invalid | Verified(payload: IdTokenPayload)

  /** `getVerifiedEmail`. */
  function GetVerifiedEmail(payload: IdTokenPayload): (r: Result<string, Error>)
    ensures r.Success? <==> payload.emailVerified == Some(true) && payload.email.Some?
    ensures r.Success? ==> r.value == payload.email.value
    ensures payload.emailVerified.None? ==> r == Failure(Runtime(NullPointer))
    ensures payload.emailVerified.Some? && r.Failure? ==> r.error == Api(InvalidToken)
  {
    if payload.emailVerified.None? then Failure(Runtime(NullPointer))
    else if !payload.emailVerified.value then Failure(Api(InvalidToken))
    else if payload.email.None? then Failure(Api(InvalidToken))
    else Success(payload.email.value)
  }

  /** `list.stream().map(String::toLowerCase).anyMatch(x::equals)`. */
  function AnyLowerMatch(list: seq<string>, x: string): (r: bool)
    ensures r <==> exists i :: 0 <= i < |list| && ToLower(list[i]) == x
  {
    if |list| == 0 then false
    else if ToLower(list[0]) == x then true
    else
      var r := AnyLowerMatch(list[1..], x);
      assert r ==> exists i :: 0 <= i < |list| && ToLower(list[i]) == x by {
        if r {
          var i :| 0 <= i < |list[1..]| && ToLower(list[1..][i]) == x;
          assert list[i + 1] == list[1..][i];
        }
      }
      assert (exists i :: 0 <= i < |list| && ToLower(list[i]) == x) ==> r by {
        if exists i :: 0 <= i < |list| && ToLower(list[i]) == x {
          var i :| 0 <= i < |list| && ToLower(list[i]) == x;
          assert i > 0 && list[1..][i - 1] == list[i];
        }
      }
      r
  }

  /** A possibly null list holds `x` once its entries are lower-cased. */
  predicate ListedLowerCase(list: Option<seq<string>>, x: string) {
    list.Some? && exists i :: 0 <= i < |list.value| && ToLower(list.value[i]) == x
  }

  /** `isPrivilegedUser`: the email is lower-cased and trimmed, then compared
      with the lower-cased super admins, the lower-cased teachers and the keys
      of the department-admin map, in that order. A null registry means "not
      privileged"; building the map can throw. */
  function IsPrivilegedUser(email: string, config: Option<PrivilegedUserConfig>): (r: Result<bool, Error>)
    ensures config.None? ==> r == Success(false)
    ensures config.Some? ==>
      (ListedLowerCase(config.value.superAdmins, Trim(ToLower(email)))
       || ListedLowerCase(config.value.teachers, Trim(ToLower(email)))) ==> r == Success(true)
    ensures config.Some? && !ListedLowerCase(config.value.superAdmins, Trim(ToLower(email)))
                         && !ListedLowerCase(config.value.teachers, Trim(ToLower(email))) ==>
      match DepartmentAdminsMap(config.value)
      case Failure(e) => r == Failure(e)
      case Success(m) => r == Success(Trim(ToLower(email)) in m)
  {
    var normalized := Trim(ToLower(email));
    if config.None? then Success(false)
    else
      var c := config.value;
      if c.superAdmins.Some? && AnyLowerMatch(c.superAdmins.value, normalized) then Success(true)
      else if c.teachers.Some? && AnyLowerMatch(c.teachers.value, normalized) then Success(true)
      else
        var m :- DepartmentAdminsMap(c);
        Success(normalized in m)
  }

  /** `"prod".equalsIgnoreCase(environment)`. */
  predicate IsProduction(environment: Option<string>) {
    EqualsIgnoreCase("prod", environment)
  }

  const ProductionDomain: string := "acdeducation.com"
  const DevelopmentSuffix: string := ".com"

  /** `enforceDomainRestrictions`: a raw, case-sensitive suffix test with no
      `@` anchor. */
  function EnforceDomainRestrictions(email: string, environment: Option<string>): (r: Outcome<Error>)
    ensures IsProduction(environment) ==> (r.Pass? <==> EndsWith(email, ProductionDomain))
    ensures !IsProduction(environment) ==> (r.Pass? <==> EndsWith(email, DevelopmentSuffix))
    ensures r.Fail? ==> r.error == Api(DomainNotAllowed)
  {
    if IsProduction(environment) then Need(EndsWith(email, ProductionDomain), Api(DomainNotAllowed))
    else Need(EndsWith(email, DevelopmentSuffix), Api(DomainNotAllowed))
  }

  /** `verifyAndExtractPayload`. */
  function VerifyAndExtractPayload(idToken: Option<string>, verify: string -> Verification): (r: Result<IdTokenPayload, Error>)
    ensures idToken.None? ==> r == Failure(Api(InvalidToken))
    ensures idToken.Some? && verify(idToken.value).Verified? ==> r == Success(verify(idToken.value).payload)
    ensures idToken.Some? && !verify(idToken.value).Verified? ==> r == Failure(Api(InvalidToken))
  {
    if idToken.None? then Failure(Api(InvalidToken))
    else
      match verify(idToken.value)
      case VerifierError => Failure(Api(InvalidToken))
      case Invalid => Failure(Api(InvalidToken))
      case Verified(payload) => Success(payload)
  }

  /** `validateCodeAndGetUserInfo`. `exchange` is the outcome of exchanging
      the authorisation code: `None` when the exchange threw the
      `IOException` that `exchangeAuthorizationCode` catches, otherwise the
      response's (possibly null) ID token. */
  function ValidateCodeAndGetUserInfo(
    exchange: Option<Option<string>>,
    verify: string -> Verification,
    config: Option<PrivilegedUserConfig>,
    environment: Option<string>): (r: Result<GoogleUserInfo, Error>)
    ensures exchange.None? ==> r == Failure(Api(InvalidToken))
    ensures r.Success? ==>
      && exchange.Some?
      && VerifyAndExtractPayload(exchange.value, verify).Success?
      && var payload := VerifyAndExtractPayload(exchange.value, verify).value;
      && payload.email == Some(r.value.email)
      && r.value.name == payload.name
      && r.value.googleId == payload.subject
      && r.value.profilePictureUrl.None?
  {
    if exchange.None? then Failure(Api(InvalidToken))
    else
      var payload :- VerifyAndExtractPayload(exchange.value, verify);
      var email :- GetVerifiedEmail(payload);
      var privileged :- IsPrivilegedUser(email, config);
      var domain := if privileged then Pass else EnforceDomainRestrictions(email, environment);
      if domain.Fail? then Failure(domain.error)
      else Success(GoogleUserInfo(email, payload.name, payload.subject, None))
  }

  /** The outcome of sign-in once the token is verified: the policy decision
      is made by the verified-email check, the privilege lookup and the domain
      rule, in that order. */
  lemma SignInPolicy(
    exchange: Option<Option<string>>,
    verify: string -> Verification,
    config: Option<PrivilegedUserConfig>,
    environment: Option<string>)
    requires exchange.Some? && exchange.value.Some? && verify(exchange.value.value).Verified?
    ensures var payload := verify(exchange.value.value).payload;
      var r := ValidateCodeAndGetUserInfo(exchange, verify, config, environment);
      match GetVerifiedEmail(payload)
      case Failure(e) => r == Failure(e)
      case Success(email) =>
        match IsPrivilegedUser(email, config)
        case Failure(e) => r == Failure(e)
        case Success(privileged) =>
          if privileged then r.Success?
          else if IsProduction(environment) then
            (r.Success? <==> EndsWith(email, ProductionDomain))
            && (r.Failure? ==> r.error == Api(DomainNotAllowed))
          else
            (r.Success? <==> EndsWith(email, DevelopmentSuffix))
            && (r.Failure? ==> r.error == Api(DomainNotAllowed))
  {
    var payload := verify(exchange.value.value).payload;
    var r := ValidateCodeAndGetUserInfo(exchange, verify, config, environment);
    assert VerifyAndExtractPayload(exchange.value, verify) == Success(payload);
    match GetVerifiedEmail(payload)
    case Failure(e) =>
      assert r == Failure(e);
    case Success(email) =>
      match IsPrivilegedUser(email, config)
      case Failure(e) =>
        assert r == Failure(e);
      case Success(privileged) =>
        var domain := if privileged then Pass else EnforceDomainRestrictions(email, environment);
        assert r == if domain.Fail? then Failure(domain.error) else Success(GoogleUserInfo(email, payload.name, payload.subject, None));
  }

  /** An unverified email, or none at all, is refused with `INVALID_TOKEN`
      whatever the domain or the registry say. */
  lemma UnverifiedEmailRefusedFirst(
    exchange: Option<Option<string>>,
    verify: string -> Verification,
    config: Option<PrivilegedUserConfig>,
    environment: Option<string>)
    requires exchange.Some? && exchange.value.Some? && verify(exchange.value.value).Verified?
    requires var payload := verify(exchange.value.value).payload;
      payload.emailVerified == Some(false) || (payload.emailVerified.Some? && payload.email.None?)
    ensures ValidateCodeAndGetUserInfo(exchange, verify, config, environment) == Failure(Api(InvalidToken))
  {
  }

  /** A missing ID token, or one the verifier refuses or chokes on, is refused
      with `INVALID_TOKEN`. */
  lemma UnverifiableTokenRefused(
    exchange: Option<Option<string>>,
    verify: string -> Verification,
    config: Option<PrivilegedUserConfig>,
    environment: Option<string>)
    requires exchange.Some?
    requires exchange.value.None? || !verify(exchange.value.value).Verified?
    ensures ValidateCodeAndGetUserInfo(exchange, verify, config, environment) == Failure(Api(InvalidToken))
  {
  }

  /** The production rule is a bare suffix test: an upper-case domain is
      refused, and a look-alike domain that merely ends in the same letters is
      admitted. */
  lemma ProductionSuffixQuirks()
    ensures EnforceDomainRestrictions("jo@ACDEDUCATION.COM", Some("PROD")).Fail?
    ensures EnforceDomainRestrictions("jo@notacdeducation.com", Some("prod")).Pass?
  {
    UpperCaseDomainRefused();
    LookAlikeDomainAdmitted();
  }

  lemma UpperCaseDomainRefused()
    ensures EnforceDomainRestrictions("jo@ACDEDUCATION.COM", Some("PROD")).Fail?
  {
    var email := "jo@ACDEDUCATION.COM";
    assert IsProduction(Some("PROD")) by {
      assert ToLower("PROD") == "prod";
    }
    assert !EndsWith(email, ProductionDomain) by {
      assert |email| - |ProductionDomain| == 3;
      assert email[3] != ProductionDomain[0];
    }
  }

  lemma LookAlikeDomainAdmitted()
    ensures EnforceDomainRestrictions("jo@notacdeducation.com", Some("prod")).Pass?
  {
    var email := "jo@notacdeducation.com";
    assert IsProduction(Some("prod")) by {
      assert ToLower("prod") == "prod";
    }
    assert EndsWith(email, ProductionDomain) by {
      assert email[6..] == ProductionDomain;
    }
  }

  /** A super admin listed in mixed case is privileged, whatever case or
      trailing spaces the sign-in email has. */
  lemma MixedCaseSuperAdminPrivileged()
    ensures IsPrivilegedUser("Jo@X ", Some(PrivilegedUserConfig(Some(["JO@x"]), None, None))) == Success(true)
  {
    assert ToLower("Jo@X ") == "jo@x ";
    assert TrimStart("jo@x ") == "jo@x ";
    assert TrimEnd("jo@x ") == "jo@x";
    assert ToLower("JO@x") == "jo@x";
    assert ToLower(["JO@x"][0]) == Trim(ToLower("Jo@X "));
  }
}

=== FILE: jwt.dfy ===
/** Access tokens as claim sets: the claims `JwtService.generateAccessToken`
    puts into a token, and the two converters that turn a decoded token's
    claims back into an authenticated principal. Signing and signature
    checking are not modelled; a token is its claims. */
module Jwt {
  import opened Wrappers
  import opened Strings
  import opened Model
  import opened Errors
  import opened Security

  const Issuer: string := "research-repo"

  /** The claims of the access token issued to `user` at `now`. */
  function GenerateAccessToken(user: User, now: int, accessTokenExpirySeconds: int): (claims: Claims)
    ensures "email" in claims && claims["email"] == Str(user.email)
    ensures "fullName" in claims && claims["fullName"] == Str(user.fullName)
    ensures "role" in claims && claims["role"] == Str(RoleName(user.role))
    ensures "departmentId" in claims <==> user.department.Some?
    ensures user.department.Some? ==> claims["departmentId"] == Num(user.department.value.departmentId)
    ensures "sub" in claims && claims["sub"] == Str(IntToString(user.userId))
    ensures "iss" in claims && claims["iss"] == Str(Issuer)
    ensures "iat" in claims && "exp" in claims && claims["iat"].Time? && claims["exp"].Time?
    ensures claims["exp"].seconds == claims["iat"].seconds + accessTokenExpirySeconds
    ensures "profilePictureUrl" !in claims
  {
    var custom := map["email" := Str(user.email), "fullName" := Str(user.fullName), "role" := Str(RoleName(user.role))];
    var withDepartment :=
      if user.department.Some? then custom["departmentId" := Num(user.department.value.departmentId)] else custom;
    withDepartment["sub" := Str(IntToString(user.userId))]
      ["iat" := Time(now)]
      ["exp" := Time(now + accessTokenExpirySeconds)]
      ["iss" := Str(Issuer)]
  }

  /** `Jwt.getClaimAsString`: null when absent, otherwise the value's text. An
      instant is rendered as its epoch seconds. */
  function ClaimAsString(claims: Claims, name: string): (r: Option<string>)
    ensures r.None? <==> name !in claims
    ensures name in claims && claims[name].Str? ==> r == Some(claims[name].text)
  {
    if name !in claims then None
    else
      match claims[name]
      case Str(s) => Some(s)
      case Num(n) => Some(IntToString(n))
      case Time(t) => Some(IntToString(t))
  }

  /** `(Number) jwt.getClaim(name)`: null when absent; a value that is not a
      number fails the cast. */
  function ClaimAsNumber(claims: Claims, name: string): (r: Result<Option<int>, Error>)
    ensures r.Success? && r.value.None? <==> name !in claims
    ensures r.Success? && r.value.Some? <==> name in claims && claims[name].Num?
    ensures r.Success? && r.value.Some? ==> r.value.value == claims[name].number
    ensures r.Failure? ==> r.error == Runtime(ClassCast)
  {
    if name !in claims then Success(None)
    else if claims[name].Num? then Success(Some(claims[name].number))
    else Failure(Runtime(ClassCast))
  }

  /** `role != null ? UserRole.valueOf(role) : null`. */
  function ParseRole(name: Option<string>): (r: Result<Option<UserRole>, Error>)
    ensures name.None? ==> r == Success(None)
    ensures name.Some? && RoleValueOf(name.value).Some? ==> r == Success(RoleValueOf(name.value))
    ensures name.Some? && RoleValueOf(name.value).None? ==> r == Failure(Runtime(IllegalArgument))
  {
    if name.None? then Success(None)
    else if RoleValueOf(name.value).Some? then Success(RoleValueOf(name.value))
    else Failure(Runtime(IllegalArgument))
  }

  /** `Integer.valueOf(jwt.getSubject())`. */
  function ParseSubject(claims: Claims): (r: Result<int, Error>)
    ensures r.Success? <==> ParseInt(ClaimAsString(claims, "sub")).Some?
    ensures r.Success? ==> Some(r.value) == ParseInt(ClaimAsString(claims, "sub")) && IsInt32(r.value)
    ensures r.Failure? ==> r.error == Runtime(NumberFormat)
  {
    match ParseInt(ClaimAsString(claims, "sub"))
    case None => Failure(Runtime(NumberFormat))
    case Some(n) => Success(n)
  }

  /** The authentication object a converter hands to Spring Security. */
  datatype AuthenticationToken = AuthenticationToken(principal: Principal, authorities: seq<string>)

  /** `CustomJwtAuthConverter.convert`. */
  function Convert(claims: Claims): (r: Result<AuthenticationToken, Error>)
    ensures r.Success? ==> r.value.authorities == Authorities(r.value.principal)
    ensures r.Success? ==> r.value.principal.attributes == claims
    ensures r.Success? ==> Some(r.value.principal.userId) == ParseInt(ClaimAsString(claims, "sub"))
    ensures r.Success? ==>
      && r.value.principal.email == ClaimAsString(claims, "email")
      && r.value.principal.fullName == ClaimAsString(claims, "fullName")
      && r.value.principal.profilePictureUrl == ClaimAsString(claims, "profilePictureUrl")
    ensures r.Success? ==> (r.value.principal.role.None? <==> "role" !in claims)
    ensures r.Success? ==> (r.value.principal.department.Some? <==> "departmentId" in claims)
    ensures r.Success? && "departmentId" in claims ==>
      claims["departmentId"].Num? &&
      r.value.principal.department.value.departmentId == ToInt32(claims["departmentId"].number)
    ensures r.Success? && "role" in claims ==> r.value.principal.role == RoleValueOf(ClaimAsString(claims, "role").value)
    ensures r.Success? <==>
      && ParseInt(ClaimAsString(claims, "sub")).Some?
      && ("role" in claims ==> RoleValueOf(ClaimAsString(claims, "role").value).Some?)
      && ("departmentId" in claims ==> claims["departmentId"].Num?)
    ensures ParseInt(ClaimAsString(claims, "sub")).None? ==> r == Failure(Runtime(NumberFormat))
    ensures (ParseInt(ClaimAsString(claims, "sub")).Some? && "role" in claims
             && RoleValueOf(ClaimAsString(claims, "role").value).None?) ==> r == Failure(Runtime(IllegalArgument))
    ensures r.Failure? ==> r.error in {Runtime(NumberFormat), Runtime(IllegalArgument), Runtime(ClassCast)}
  {
    var userId :- ParseSubject(claims);
    var email := ClaimAsString(claims, "email");
    var fullName := ClaimAsString(claims, "fullName");
    var role :- ParseRole(ClaimAsString(claims, "role"));
    var picture := ClaimAsString(claims, "profilePictureUrl");
    var departmentNumber :- ClaimAsNumber(claims, "departmentId");
    var department := if departmentNumber.Some? then Some(DepartmentRef(ToInt32(departmentNumber.value))) else None;
    var principal := Principal(userId, email, fullName, role, department, picture, claims);
    Success(AuthenticationToken(principal, Authorities(principal)))
  }

  /** `CustomJwtAuthenticationConverter.convert`: the older converter, which
      reads neither a department nor a profile picture. */
  function ConvertWithoutDepartment(claims: Claims): (r: Result<AuthenticationToken, Error>)
    ensures r.Success? ==> r.value.authorities == Authorities(r.value.principal)
    ensures r.Success? ==> r.value.principal.attributes == claims
    ensures r.Success? ==> Some(r.value.principal.userId) == ParseInt(ClaimAsString(claims, "sub"))
    ensures r.Success? ==>
      && r.value.principal.email == ClaimAsString(claims, "email")
      && r.value.principal.fullName == ClaimAsString(claims, "fullName")
    ensures r.Success? ==> (r.value.principal.role.None? <==> "role" !in claims)
    ensures r.Success? ==> r.value.principal.department.None? && r.value.principal.profilePictureUrl.None?
    ensures r.Success? && "role" in claims ==> r.value.principal.role == RoleValueOf(ClaimAsString(claims, "role").value)
    ensures r.Success? <==>
      ParseInt(ClaimAsString(claims, "sub")).Some? && ("role" in claims ==> RoleValueOf(ClaimAsString(claims, "role").value).Some?)
    ensures ParseInt(ClaimAsString(claims, "sub")).None? ==> r == Failure(Runtime(NumberFormat))
    ensures ParseInt(ClaimAsString(claims, "sub")).Some? && !r.Success? ==> r == Failure(Runtime(IllegalArgument))
  {
    var userId :- ParseSubject(claims);
    var email := ClaimAsString(claims, "email");
    var fullName := ClaimAsString(claims, "fullName");
    var role :- ParseRole(ClaimAsString(claims, "role"));
    var principal := Principal(userId, email, fullName, role, None, None, claims);
    Success(AuthenticationToken(principal, Authorities(principal)))
  }

  /** Converting the claims of a freshly issued access token gives back the
      user it was issued to: id, email, full name, role and department id, with
      the single authority `ROLE_<role>`. */
  lemma ConvertRoundTrip(user: User, now: int, accessTokenExpirySeconds: int)
    requires IsInt32(user.userId)
    requires user.department.Some? ==> IsInt32(user.department.value.departmentId)
    ensures var r := Convert(GenerateAccessToken(user, now, accessTokenExpirySeconds));
      && r.Success?
      && r.value.principal.userId == user.userId
      && r.value.principal.email == Some(user.email)
      && r.value.principal.fullName == Some(user.fullName)
      && r.value.principal.role == Some(user.role)
      && GetDepartmentId(r.value.principal)
         == (if user.department.Some? then Some(user.department.value.departmentId) else None)
      && r.value.principal.profilePictureUrl.None?
      && r.value.authorities == [RolePrefix + RoleName(user.role)]
  {
    var claims := GenerateAccessToken(user, now, accessTokenExpirySeconds);
    ParseIntToString(user.userId);
    RoleNameRoundTrip(user.role);
    assert ParseSubject(claims) == Success(user.userId);
    assert ParseRole(ClaimAsString(claims, "role")) == Success(Some(user.role));
  }

  /** Whenever the newer converter accepts a token, the older one accepts it
      too and yields the same principal minus department and picture. */
  lemma ConvertersAgree(claims: Claims)
    requires Convert(claims).Success?
    ensures var p := Convert(claims).value.principal;
      ConvertWithoutDepartment(claims)
      == Success(AuthenticationToken(p.(department := None, profilePictureUrl := None),
                                     Authorities(p)))
  {
  }

  /** The older converter drops the department even of a token that carries one. */
  lemma OlderConverterDropsDepartment(user: User, now: int, accessTokenExpirySeconds: int)
    requires IsInt32(user.userId) && user.department.Some?
    requires IsInt32(user.department.value.departmentId)
    ensures var claims := GenerateAccessToken(user, now, accessTokenExpirySeconds);
      "departmentId" in claims
      && ConvertWithoutDepartment(claims).Success?
      && GetDepartmentId(ConvertWithoutDepartment(claims).value.principal).None?
  {
    ConvertRoundTrip(user, now, accessTokenExpirySeconds);
    ConvertersAgree(GenerateAccessToken(user, now, accessTokenExpirySeconds));
  }

  /** A token without a role claim authenticates a principal with no role and
      no authorities, who therefore passes none of the role checks. */
  lemma MissingRoleGrantsNothing(claims: Claims)
    requires "role" !in claims && Convert(claims).Success?
    ensures var p := Convert(claims).value.principal;
      Convert(claims).value.authorities == []
      && !IsUserAdmin(Some(p)) && !IsUserStudentOrTeacher(Some(p))
  {
    AdminOrStudentTeacher(Some(Convert(claims).value.principal));
  }

  /** A role claim that is not the exact name of a role makes both
      converters fail, whatever else the token carries. */
  lemma UnknownRoleRejected(claims: Claims)
    requires ParseInt(ClaimAsString(claims, "sub")).Some?
    requires "role" in claims && RoleValueOf(ClaimAsString(claims, "role").value).None?
    ensures Convert(claims) == Failure(Runtime(IllegalArgument))
    ensures ConvertWithoutDepartment(claims) == Failure(Runtime(IllegalArgument))
  {
  }

  /** For instance the lower-case "admin", which names no role. */
  lemma LowerCaseRoleRejected(claims: Claims)
    requires ParseInt(ClaimAsString(claims, "sub")).Some?
    requires "role" in claims && claims["role"] == Str("admin")
    ensures Convert(claims) == Failure(Runtime(IllegalArgument))
  {
    UnknownRoleRejected(claims);
  }
}

=== FILE: like.dfy ===
/** The SQL `LIKE` operator as the JPA criteria `like(expr, pattern)` uses it:
    `%` matches any run of characters, `_` matches exactly one, and every other
    character matches itself. No escape character is declared, so a `%` or `_`
    inside a user's search term acts as a wildcard. */
module SqlLike {
  import opened Strings

  predicate IsWildcard(c: char) {
    c == '%' || c == '_'
  }

  predicate NoWildcards(t: string) {
    forall i :: 0 <= i < |t| ==> !IsWildcard(t[i])
  }

  /** `s LIKE p`. */
  predicate Like(s: string, p: string)
    decreases |s| + |p|
  {
    if |p| == 0 then |s| == 0
    else if p[0] == '%' then Like(s, p[1..]) || (|s| > 0 && Like(s[1..], p))
    else if p[0] == '_' then |s| > 0 && Like(s[1..], p[1..])
    else |s| > 0 && s[0] == p[0] && Like(s[1..], p[1..])
  }

  /** The pattern `%term%` a "contains" search builds. */
  function ContainsPattern(term: string): (p: string)
    ensures |p| == |term| + 2 && p[0] == '%' && p[|p| - 1] == '%'
    ensures p[1..|p| - 1] == term
  {
    "%" + term + "%"
  }

  /** A lone `%` matches everything. */
  lemma {:induction false} LikeAnything(s: string)
    ensures Like(s, "%")
    decreases |s|
  {
    if |s| > 0 {
      LikeAnything(s[1..]);
    }
  }

  /** A wildcard-free `t` followed by `%` matches exactly the strings starting with `t`. */
  lemma {:induction false} LikePrefix(s: string, t: string)
    requires NoWildcards(t)
    ensures Like(s, t + "%") <==> StartsWith(s, t)
    decreases |t|
  {
    if |t| == 0 {
      assert t + "%" == "%";
      LikeAnything(s);
    } else {
      assert (t + "%")[1..] == t[1..] + "%";
      assert !IsWildcard(t[0]);
      if |s| > 0 {
        LikePrefix(s[1..], t[1..]);
        if s[0] == t[0] && StartsWith(s[1..], t[1..]) {
          assert s[..|t|] == [s[0]] + s[1..][..|t| - 1];
        }
        if StartsWith(s, t) {
          assert s[1..][..|t| - 1] == s[..|t|][1..];
        }
      }
    }
  }

  /** A leading `%` lets the rest of the pattern match any suffix. */
  lemma {:induction false} LikeLeadingPercent(s: string, q: string)
    ensures Like(s, "%" + q) <==> exists i :: 0 <= i <= |s| && Like(s[i..], q)
    decreases |s|
  {
    var p := "%" + q;
    assert p[1..] == q;
    assert s[0..] == s;
    if |s| > 0 {
      LikeLeadingPercent(s[1..], q);
      if Like(s[1..], p) {
        var j :| 0 <= j <= |s[1..]| && Like(s[1..][j..], q);
        assert s[1..][j..] == s[j + 1..];
      }
      if exists i :: 0 <= i <= |s| && Like(s[i..], q) {
        var i :| 0 <= i <= |s| && Like(s[i..], q);
        if i > 0 {
          assert s[1..][i - 1..] == s[i..];
        }
      }
    }
  }

  /** With a wildcard-free term, the `%term%` pattern is exactly a substring test. */
  lemma ContainsPatternIsSubstring(s: string, t: string)
    requires NoWildcards(t)
    ensures Like(s, ContainsPattern(t)) <==> Contains(s, t)
  {
    var p := ContainsPattern(t);
    assert p == "%" + (t + "%");
    LikeLeadingPercent(s, t + "%");
    if Contains(s, t) {
      var i :| 0 <= i <= |s| - |t| && OccursAt(s, t, i);
      LikePrefix(s[i..], t);
      assert s[i..][..|t|] == s[i..i + |t|];
    }
    if Like(s, p) {
      var i :| 0 <= i <= |s| && Like(s[i..], t + "%");
      LikePrefix(s[i..], t);
      assert s[i..][..|t|] == s[i..i + |t|];
      assert OccursAt(s, t, i);
    }
  }

  /** A wildcard in the term is not a literal: `_` matches any single character. */
  lemma UnderscoreIsWildcard()
    ensures Like("a", ContainsPattern("_")) && !Contains("a", "_")
  {
    assert ContainsPattern("_") == ['%', '_', '%'];
    assert Like("", "%");
    assert Like("a", ['_', '%']);
    assert Like("a", ['%', '_', '%']);
    assert !OccursAt("a", "_", 0);
  }
}

=== FILE: listing.dfy ===
/** The filter options offered to the search form: the departments that
    have papers (`DepartmentYearService` and `DepartmentService`) and the
    submission years in view (`DepartmentYearService.getAvailableYears`). */
module Listing {
  import opened Wrappers
  import opened Errors
  import opened Model
  import opened Security

  // ---------------------------------------------------------------- ordering by name

  /** `String.compareTo(a, b) <= 0`: lexicographic by character, a proper
      prefix first. */
  predicate NameLe(a: string, b: string)
    decreases |a|
  {
    |a| == 0 || (|b| > 0 && (a[0] < b[0] || (a[0] == b[0] && NameLe(a[1..], b[1..]))))
  }

  lemma {:induction false} NameLeTotal(a: string, b: string)
    ensures NameLe(a, b) || NameLe(b, a)
    decreases |a|
  {
    if |a| > 0 && |b| > 0 && a[0] == b[0] {
      NameLeTotal(a[1..], b[1..]);
    }
  }

  predicate SortedByName(s: seq<Department>) {
    forall i :: 0 < i < |s| ==> NameLe(s[i - 1].departmentName, s[i].departmentName)
  }

  /** Insert `d` before the first department whose name is not smaller, so
      that equal names keep their order. */
  function InsertByName(d: Department, s: seq<Department>): (r: seq<Department>)
    requires SortedByName(s)
    ensures SortedByName(r)
    ensures multiset(r) == multiset(s) + multiset{d}
    ensures |r| > 0 && (r[0] == d || (|s| > 0 && r[0] == s[0]))
  {
    if |s| == 0 then [d]
    else if NameLe(d.departmentName, s[0].departmentName) then
      ConsSorted(d, s);
      [d] + s
    else
      NameLeTotal(d.departmentName, s[0].departmentName);
      var tail := s[1..];
      assert SortedByName(tail) by {
        forall i | 0 < i < |tail|
          ensures NameLe(tail[i - 1].departmentName, tail[i].departmentName)
        {
          assert tail[i - 1] == s[i] && tail[i] == s[i + 1];
        }
      }
      var rest := InsertByName(d, tail);
      assert s == [s[0]] + tail;
      assert multiset([s[0]] + rest) == multiset{s[0]} + multiset(rest);
      ConsSorted(s[0], rest);
      [s[0]] + rest
  }

  lemma ConsSorted(d: Department, s: seq<Department>)
    requires SortedByName(s)
    requires |s| > 0 ==> NameLe(d.departmentName, s[0].departmentName)
    ensures SortedByName([d] + s)
  {
    var r := [d] + s;
    forall i | 0 < i < |r|
      ensures NameLe(r[i - 1].departmentName, r[i].departmentName)
    {
      assert r[i] == s[i - 1];
      if i > 1 {
        assert r[i - 1] == s[i - 2];
      }
    }
  }

  /** `sorted(Comparator.comparing(Department::getDepartmentName))`, a
      stable sort. */
  function SortByName(s: seq<Department>): (r: seq<Department>)
    ensures SortedByName(r)
    ensures multiset(r) == multiset(s)
  {
    if |s| == 0 then []
    else
      assert s == [s[0]] + s[1..];
      InsertByName(s[0], SortByName(s[1..]))
  }

  // ---------------------------------------------------------------- departments

  /** The ids of the departments some paper belongs to. */
  function PaperDepartmentIds(papers: PaperStore): set<int> {
    set id | id in papers :: papers[id].department.departmentId
  }

  function WithPapers(departments: seq<Department>, papers: PaperStore): (r: seq<Department>)
    ensures forall d :: d in r <==> d in departments && d.departmentId in PaperDepartmentIds(papers)
    ensures |r| <= |departments|
  {
    if |departments| == 0 then []
    else
      var rest := WithPapers(departments[1..], papers);
      assert departments == [departments[0]] + departments[1..];
      if departments[0].departmentId in PaperDepartmentIds(papers) then [departments[0]] + rest else rest
  }

  /** The departments with at least one paper, sorted by name. */
  function DepartmentsWithPapers(departments: seq<Department>, papers: PaperStore): (r: seq<Department>)
    ensures SortedByName(r)
    ensures multiset(r) == multiset(WithPapers(departments, papers))
    ensures forall d :: d in r <==> d in departments && exists id :: id in papers && papers[id].department.departmentId == d.departmentId
  {
    var kept := WithPapers(departments, papers);
    var r := SortByName(kept);
    assert forall d :: d in r <==> d in kept by {
      forall d
        ensures d in r <==> d in kept
      {
        assert d in r <==> d in multiset(r);
        assert d in kept <==> d in multiset(kept);
      }
    }
    r
  }

  /** `DepartmentYearService.getAvailableDepartments`: the role is not used. */
  function AllAvailableDepartments(departments: seq<Department>, papers: PaperStore, principal: Option<Principal>)
    : (r: seq<Department>)
    ensures SortedByName(r)
    ensures forall d :: d in r <==> d in departments && exists id :: id in papers && papers[id].department.departmentId == d.departmentId
  {
    DepartmentsWithPapers(departments, papers)
  }

  /** `DepartmentService.getAvailableDepartments`: a department admin sees
      at most their own department; everyone else sees every department with
      papers. The role is read from the principal, so a null one throws. */
  function ScopedAvailableDepartments(departments: seq<Department>, papers: PaperStore, principal: Option<Principal>)
    : (r: Result<seq<Department>, Error>)
    ensures principal.None? ==> r == Failure(Runtime(NullPointer))
    ensures principal.Some? ==> r.Success?
    ensures r.Success? ==> SortedByName(r.value)
    ensures r.Success? && IsUserDepartmentAdmin(principal) ==>
      |r.value| <= 1
      && forall d :: d in r.value ==> Some(d.departmentId) == GetDepartmentId(principal.value) && d in departments
    ensures r.Success? ==>
      forall d :: d in r.value ==> exists id :: id in papers && papers[id].department.departmentId == d.departmentId
    ensures (IsUserDepartmentAdmin(principal)
             && GetDepartmentId(principal.value).Some?
             && FindDepartment(departments, GetDepartmentId(principal.value).value).Some?) ==>
      var dep := FindDepartment(departments, GetDepartmentId(principal.value).value).value;
      && ((exists id :: id in papers && papers[id].department.departmentId == dep.departmentId) ==> r == Success([dep]))
      && ((forall id :: id in papers ==> papers[id].department.departmentId != dep.departmentId) ==> r == Success([]))
  {
    if principal.None? then Failure(Runtime(NullPointer))
    else if principal.value.role == Some(DepartmentAdmin) then
      var deptId := GetDepartmentId(principal.value);
      if deptId.None? then Success([])
      else match FindDepartment(departments, deptId.value)
        case None => Success([])
        case Some(dep) =>
          var r := DepartmentsWithPapers([dep], papers);
          assert |r| <= 1 by {
            assert |r| == |multiset(r)| == |multiset(WithPapers([dep], papers))| == |WithPapers([dep], papers)|;
          }
          Success(r)
    else Success(DepartmentsWithPapers(departments, papers))
  }

  /** Outside department admins, both services offer the same departments. */
  lemma DepartmentServicesAgree(departments: seq<Department>, papers: PaperStore, principal: Option<Principal>)
    requires principal.Some? && !IsUserDepartmentAdmin(principal)
    ensures ScopedAvailableDepartments(departments, papers, principal) == Success(AllAvailableDepartments(departments, papers, principal))
  {
    RolePredicatesByRole(principal);
  }

  /** A department admin without a department, or with one unknown to the
      store, is offered nothing. */
  lemma DepartmentlessAdminOffered(departments: seq<Department>, papers: PaperStore, principal: Option<Principal>)
    requires IsUserDepartmentAdmin(principal)
    requires GetDepartmentId(principal.value).None? || FindDepartment(departments, GetDepartmentId(principal.value).value).None?
    ensures ScopedAvailableDepartments(departments, papers, principal) == Success([])
  {
    RolePredicatesByRole(principal);
  }

  // ---------------------------------------------------------------- years

  lemma NonEmptyHasElement(s: set<int>)
    requires s != {}
    ensures exists x :: x in s
  {
    if forall x :: x !in s {
      assert false;
    }
  }

  lemma {:induction false} MaxExists(s: set<int>)
    requires s != {}
    ensures exists m :: m in s && forall x :: x in s ==> x <= m
    decreases |s|
  {
    NonEmptyHasElement(s);
    var x :| x in s;
    var rest := s - {x};
    if rest == {} {
      forall y | y in s
        ensures y <= x
      {
        assert y !in rest;
      }
    } else {
      MaxExists(rest);
      var m :| m in rest && forall y :: y in rest ==> y <= m;
      var top := if x > m then x else m;
      forall y | y in s
        ensures y <= top
      {
        if y != x {
          assert y in rest;
        }
      }
      assert top in s;
    }
  }

  /** The largest element; the such-that is unique, so this compiles. */
  function SetMax(s: set<int>): (m: int)
    requires s != {}
    ensures m in s && forall x :: x in s ==> x <= m
  {
    MaxExists(s);
    var m :| m in s && forall x :: x in s ==> x <= m;
    m
  }

  predicate StrictlyDescending(s: seq<int>) {
    forall i, j :: 0 <= i < j < |s| ==> s[i] > s[j]
  }

  /** `distinct().sorted(Comparator.reverseOrder())` of a collection of years. */
  function Descending(years: set<int>): (r: seq<int>)
    ensures StrictlyDescending(r)
    ensures forall y :: y in r <==> y in years
    ensures |r| == |years|
    decreases |years|
  {
    if years == {} then []
    else
      var top := SetMax(years);
      var rest := Descending(years - {top});
      [top] + rest
  }

  /** The papers whose years `getAvailableYears` reports: a department admin
      sees their department's, a student the live ones, anyone else all. */
  predicate YearVisible(paper: ResearchPaper, principal: Option<Principal>)
    requires IsUserDepartmentAdmin(principal) ==> GetDepartmentId(principal.value).Some?
  {
    && (IsUserDepartmentAdmin(principal) ==> paper.department.departmentId == GetDepartmentId(principal.value).value)
    && (IsUserStudent(principal) ==> !paper.archived)
  }

  function GetAvailableYears(papers: PaperStore, principal: Option<Principal>): (r: seq<int>)
    ensures StrictlyDescending(r)
    ensures IsUserDepartmentAdmin(principal) && GetDepartmentId(principal.value).None? ==> r == []
    ensures !(IsUserDepartmentAdmin(principal) && GetDepartmentId(principal.value).None?) ==>
      forall y :: y in r <==> exists id :: id in papers && YearVisible(papers[id], principal) && papers[id].submissionDate.year == y
  {
    if IsUserDepartmentAdmin(principal) && GetDepartmentId(principal.value).None? then []
    else
      var years := set id | id in papers && YearVisible(papers[id], principal) :: papers[id].submissionDate.year;
      Descending(years)
  }

  /** Students are offered the years of live papers only; archiving a
      student's last paper of a year withdraws that year. */
  lemma StudentYearsAreLive(papers: PaperStore, principal: Option<Principal>, y: int)
    requires IsUserStudent(principal)
    ensures y in GetAvailableYears(papers, principal) <==>
      exists id :: id in papers && !papers[id].archived && papers[id].submissionDate.year == y
  {
    RolePredicatesByRole(principal);
  }

  /** A department admin is offered only years of their own department. */
  lemma DepartmentAdminYearsScoped(papers: PaperStore, principal: Option<Principal>, y: int)
    requires IsUserDepartmentAdmin(principal) && y in GetAvailableYears(papers, principal)
    ensures exists id :: id in papers && Some(papers[id].department.departmentId) == GetDepartmentId(principal.value)
                      && papers[id].submissionDate.year == y
  {
  }
}

=== FILE: model.dfy ===
/** The persistent records of the repository (users, departments, research
    papers, document requests, refresh tokens) as immutable values. Times
    (`LocalDateTime`, `Instant`) are whole seconds; calendar dates are
    year/month/day triples. */
module Model {
  import opened Wrappers

  // ---------------------------------------------------------------- roles

  datatype UserRole = Student | Teacher | DepartmentAdmin | SuperAdmin

  /** `UserRole.name()`. */
  function RoleName(role: UserRole): string {
    match role
    case Student => "STUDENT"
    case Teacher => "TEACHER"
    case DepartmentAdmin => "DEPARTMENT_ADMIN"
    case SuperAdmin => "SUPER_ADMIN"
  }

  /** `UserRole.valueOf(name)`: exact, case-sensitive; `None` stands for the
      `IllegalArgumentException` an unknown name raises. */
  function RoleValueOf(name: string): (r: Option<UserRole>)
    ensures r.Some? ==> RoleName(r.value) == name
  {
    if name == "STUDENT" then Some(Student)
    else if name == "TEACHER" then Some(Teacher)
    else if name == "DEPARTMENT_ADMIN" then Some(DepartmentAdmin)
    else if name == "SUPER_ADMIN" then Some(SuperAdmin)
    else None
  }

  /** `valueOf` inverts `name`, so a role survives being written as its name. */
  lemma RoleNameRoundTrip(role: UserRole)
    ensures RoleValueOf(RoleName(role)) == Some(role)
  {
  }

  /** `valueOf` is case-sensitive: the lower-case spelling of a role is not a role. */
  lemma RoleValueOfLowerCase()
    ensures RoleValueOf("student") == None
  {
  }

  // ---------------------------------------------------------------- entities

  datatype Department = Department(departmentId: int, departmentName: string)

  /** A user row. `profilePictureUrl` is written by the provisioning code
      although the entity as shown does not declare it. */
  datatype User = User(
    userId: int,
    email: string,
    fullName: string,
    role: UserRole,
    department: Option<Department>,
    profilePictureUrl: Option<string>)

  /** A calendar date (`LocalDate`). */
  datatype Date = Date(year: int, month: int, day: int)

  predicate ValidDate(d: Date) {
    1 <= d.month <= 12 && 1 <= d.day <= 31
  }

  /** Chronological order on dates. */
  predicate DateLe(a: Date, b: Date) {
    a.year < b.year
    || (a.year == b.year && (a.month < b.month || (a.month == b.month && a.day <= b.day)))
  }

  /** `submissionDate BETWEEN Jan 1 AND Dec 31 of year` is the same as
      "submitted in year" for every valid date. */
  lemma WithinYearIffSameYear(d: Date, year: int)
    requires ValidDate(d)
    ensures DateLe(Date(year, 1, 1), d) && DateLe(d, Date(year, 12, 31)) <==> d.year == year
  {
  }

  datatype ResearchPaper = ResearchPaper(
    paperId: int,
    title: string,
    authorName: string,
    abstractText: string,
    filePath: string,
    department: Department,
    submissionDate: Date,
    archived: bool,
    archivedAt: Option<int>)

  datatype RequestStatus = Pending | Accepted | Rejected

  /** `RequestStatus.name()`. */
  function StatusName(status: RequestStatus): string {
    match status
    case Pending => "PENDING"
    case Accepted => "ACCEPTED"
    case Rejected => "REJECTED"
  }

  /** The statuses that block a second request for the same paper. */
  predicate IsActive(status: RequestStatus) {
    status == Pending || status == Accepted
  }

  /** A document request; the user and paper are referred to by id.
      `rejectionReason` is written by the services although the entity as
      shown does not declare it. */
  datatype DocumentRequest = DocumentRequest(
    requestId: int,
    userId: int,
    paperId: int,
    requestDate: int,
    status: RequestStatus,
    rejectionReason: Option<string>)

  datatype RefreshToken = RefreshToken(
    tokenId: int,
    userId: int,
    token: string,
    expiresAt: int,
    createdAt: int,
    lastUsedAt: Option<int>)

  /** What the Google sign-in yields about a person. `profilePictureUrl` is
      read by the provisioning code although the class as shown does not
      declare it; the sign-in never sets it. */
  datatype GoogleUserInfo = GoogleUserInfo(
    email: string,
    name: string,
    googleId: string,
    profilePictureUrl: Option<string>)

  // ---------------------------------------------------------------- stores

  /** The department table in `findAll` order. */
  type DepartmentStore = seq<Department>

  /** `departmentRepository.findById`: the department with that id, if any. */
  function FindDepartment(departments: DepartmentStore, id: int): (r: Option<Department>)
    ensures r.Some? ==> r.value in departments && r.value.departmentId == id
    ensures r.None? ==> forall i :: 0 <= i < |departments| ==> departments[i].departmentId != id
  {
    if |departments| == 0 then None
    else if departments[0].departmentId == id then Some(departments[0])
    else FindDepartment(departments[1..], id)
  }

  type PaperStore = map<int, ResearchPaper>
  type RequestStore = map<int, DocumentRequest>

  /** Every stored record sits under its own id. */
  predicate PapersKeyed(papers: PaperStore) {
    forall id :: id in papers ==> papers[id].paperId == id
  }

  predicate RequestsKeyed(requests: RequestStore) {
    forall id :: id in requests ==> requests[id].requestId == id
  }

  /** The foreign key from a request to its paper. */
  predicate RequestsReferToPapers(requests: RequestStore, papers: PaperStore) {
    forall id :: id in requests ==> requests[id].paperId in papers
  }

  predicate WellFormed(papers: PaperStore, requests: RequestStore) {
    PapersKeyed(papers) && RequestsKeyed(requests) && RequestsReferToPapers(requests, papers)
  }
}

=== FILE: papers.dfy ===
/** `ResearchPaperService`: role-adjusted listings, visibility of a single
    paper, the admin mutations (archive, unarchive, update, delete) behind
    `getAndVerifyAdminAccess`, download authorisation, and the storage path
    `createPaper` builds for an upload. */
module Papers {
  import opened Wrappers
  import opened Strings
  import opened Errors
  import opened Model
  import opened Security
  import opened Filters
  import opened Files
  import Requests

  // ---------------------------------------------------------------- filter facts

  /** A present archive flag is enforced by `ResearchPaperSpec`. */
  lemma ArchivedFlagEnforced(searchTerm: Option<string>, departmentIds: Option<seq<int>>, years: Option<seq<int>>, flag: bool, p: ResearchPaper)
    requires PaperSpec(searchTerm, departmentIds, years, Some(flag), p)
    ensures p.archived == flag
  {
    var head := SearchCriteria(searchTerm) + DepartmentCriteria(departmentIds) + YearsCriteria(years);
    MatchesAppend(head, ArchivedCriteria(Some(flag)), p);
    MatchesSingleton(ArchivedIs(flag), p);
  }

  /** A non-empty department list is enforced by `ResearchPaperSpec`. */
  lemma DepartmentListEnforced(searchTerm: Option<string>, ids: seq<int>, years: Option<seq<int>>, archived: Option<bool>, p: ResearchPaper)
    requires |ids| > 0 && PaperSpec(searchTerm, Some(ids), years, archived, p)
    ensures p.department.departmentId in ids
  {
    var search := SearchCriteria(searchTerm);
    var departments := DepartmentCriteria(Some(ids));
    MatchesAppend(search, departments, p);
    MatchesAppend(search + departments, YearsCriteria(years), p);
    MatchesAppend(search + departments + YearsCriteria(years), ArchivedCriteria(archived), p);
    MatchesSingleton(DepartmentIn(ids), p);
  }

  // ---------------------------------------------------------------- listings

  /** The archive flag `getPapers` uses: a student's is always false. */
  function ListingArchived(archived: Option<bool>, principal: Option<Principal>): (r: Option<bool>)
    ensures IsUserStudent(principal) ==> r == Some(false)
    ensures !IsUserStudent(principal) ==> r == archived
  {
    if IsUserStudent(principal) then Some(false) else archived
  }

  /** `getPapers`: the ids of the papers `ResearchPaperSpec.build` accepts,
      before paging and sorting. */
  function GetPapers(
    papers: PaperStore, searchTerm: Option<string>, departmentIds: Option<seq<int>>,
    years: Option<seq<int>>, archived: Option<bool>, principal: Option<Principal>)
    : (r: set<int>)
    ensures r <= papers.Keys
    ensures IsUserStudent(principal) ==> forall id :: id in r ==> !papers[id].archived
    ensures IsUserStudent(principal) ==>
      forall id :: id in r <==> id in papers && PaperSpec(searchTerm, departmentIds, years, Some(false), papers[id])
    ensures !IsUserStudent(principal) ==>
      forall id :: id in r <==> id in papers && PaperSpec(searchTerm, departmentIds, years, archived, papers[id])
  {
    var effective := ListingArchived(archived, principal);
    var ids := set id | id in papers && PaperSpec(searchTerm, departmentIds, years, effective, papers[id]);
    StudentListingHidesArchived(papers, ids, searchTerm, departmentIds, years, archived, principal);
    ids
  }

  lemma StudentListingHidesArchived(
    papers: PaperStore, ids: set<int>, searchTerm: Option<string>, departmentIds: Option<seq<int>>,
    years: Option<seq<int>>, archived: Option<bool>, principal: Option<Principal>)
    requires forall id :: id in ids ==> id in papers && PaperSpec(searchTerm, departmentIds, years, ListingArchived(archived, principal), papers[id])
    ensures IsUserStudent(principal) ==> forall id :: id in ids ==> !papers[id].archived
  {
    if IsUserStudent(principal) {
      forall id | id in ids
        ensures !papers[id].archived
      {
        ArchivedFlagEnforced(searchTerm, departmentIds, years, false, papers[id]);
      }
    }
  }

  /** The department filter of `getAdminPapers`: a department admin is
      scoped to their own department whatever was asked for, a super admin
      keeps the requested list. */
  function AdminDepartmentIds(departmentIds: Option<seq<int>>, principal: Option<Principal>): (r: Result<Option<seq<int>>, Error>)
    ensures !IsUserAdmin(principal) ==> r == Failure(Api(AccessDenied))
    ensures IsUserSuperAdmin(principal) ==> r == Success(departmentIds)
    ensures IsUserDepartmentAdmin(principal) ==>
      (r.Success? <==> principal.value.department.Some?)
      && (r.Success? ==> r.value == Some([principal.value.department.value.departmentId]))
    ensures r.Failure? ==> r.error == Api(AccessDenied)
  {
    RolePredicatesByRole(principal);
    if !IsUserAdmin(principal) then Failure(Api(AccessDenied))
    else if IsUserDepartmentAdmin(principal) then
      var userDeptId := GetDepartmentId(principal.value);
      if userDeptId.None? then Failure(Api(AccessDenied)) else Success(Some([userDeptId.value]))
    else Success(departmentIds)
  }

  /** `getAdminPapers`: `ResearchPaperSpec.buildAdmin` with the scoped
      departments and the requested archive flag. */
  function GetAdminPapers(
    papers: PaperStore, searchTerm: Option<string>, departmentIds: Option<seq<int>>,
    years: Option<seq<int>>, archived: Option<bool>, principal: Option<Principal>)
    : (r: Result<set<int>, Error>)
    ensures r.Success? <==> AdminDepartmentIds(departmentIds, principal).Success?
    ensures r.Success? ==> forall id :: id in r.value <==>
      id in papers && PaperSpec(searchTerm, AdminDepartmentIds(departmentIds, principal).value, years, archived, papers[id])
  {
    var effectiveDepartmentIds :- AdminDepartmentIds(departmentIds, principal);
    Success(set id | id in papers && PaperSpec(searchTerm, effectiveDepartmentIds, years, archived, papers[id]))
  }

  /** A department admin's management listing holds only papers of their
      own department, whatever departments they asked for. */
  lemma DepartmentAdminListingScoped(
    papers: PaperStore, searchTerm: Option<string>, departmentIds: Option<seq<int>>,
    years: Option<seq<int>>, archived: Option<bool>, principal: Option<Principal>)
    requires IsUserDepartmentAdmin(principal)
    ensures var r := GetAdminPapers(papers, searchTerm, departmentIds, years, archived, principal);
      r.Success? ==> forall id :: id in r.value ==>
        papers[id].department.departmentId == principal.value.department.value.departmentId
  {
    var r := GetAdminPapers(papers, searchTerm, departmentIds, years, archived, principal);
    if r.Success? {
      var own := principal.value.department.value.departmentId;
      forall id | id in r.value
        ensures papers[id].department.departmentId == own
      {
        DepartmentListEnforced(searchTerm, [own], years, archived, papers[id]);
      }
    }
  }

  /** `build` and `buildAdmin` accept the same papers, so a super admin's
      management listing is their ordinary listing. */
  lemma SuperAdminListingsAgree(
    papers: PaperStore, searchTerm: Option<string>, departmentIds: Option<seq<int>>,
    years: Option<seq<int>>, archived: Option<bool>, principal: Option<Principal>)
    requires IsUserSuperAdmin(principal)
    ensures GetAdminPapers(papers, searchTerm, departmentIds, years, archived, principal)
         == Success(GetPapers(papers, searchTerm, departmentIds, years, archived, principal))
  {
    RolePredicatesByRole(principal);
  }

  // ---------------------------------------------------------------- single paper

  /** `getPaperById`: a missing paper, or an archived one asked for by a
      student or teacher, is not found. */
  function GetPaperById(papers: PaperStore, id: int, principal: Option<Principal>): (r: Result<ResearchPaper, Error>)
    ensures r.Success? <==> id in papers && !(IsUserStudentOrTeacher(principal) && papers[id].archived)
    ensures r.Success? ==> r.value == papers[id]
    ensures r.Failure? ==> r.error == Api(ResourceNotFound)
  {
    if id !in papers then Failure(Api(ResourceNotFound))
    else if IsUserStudentOrTeacher(principal) && papers[id].archived then Failure(Api(ResourceNotFound))
    else Success(papers[id])
  }

  /** Students list only papers they can open; a teacher, whose listing
      keeps the archive flag they ask for, can list an archived paper that
      `getPaperById` then reports as missing. */
  lemma ListingAndLookupCompared(
    papers: PaperStore, searchTerm: Option<string>, departmentIds: Option<seq<int>>,
    years: Option<seq<int>>, archived: Option<bool>, principal: Option<Principal>, id: int)
    requires id in GetPapers(papers, searchTerm, departmentIds, years, archived, principal)
    ensures IsUserStudent(principal) ==> GetPaperById(papers, id, principal).Success?
    ensures IsUserTeacher(principal) && papers[id].archived ==>
      GetPaperById(papers, id, principal) == Failure(Api(ResourceNotFound))
  {
    RolePredicatesByRole(principal);
  }

  // ---------------------------------------------------------------- admin mutations

  /** `getAndVerifyAdminAccess`: admin first, then existence, then a
      department admin must own the paper's department. */
  function AdminAccess(papers: PaperStore, id: int, principal: Option<Principal>): (r: Result<ResearchPaper, Error>)
    ensures !IsUserAdmin(principal) ==> r == Failure(Api(AccessDenied))
    ensures IsUserAdmin(principal) && id !in papers ==> r == Failure(Api(ResourceNotFound))
    ensures r.Success? <==>
      IsUserAdmin(principal) && id in papers
      && (IsUserDepartmentAdmin(principal) ==> GetDepartmentId(principal.value) == Some(papers[id].department.departmentId))
    ensures r.Success? ==> r.value == papers[id]
    ensures r.Failure? ==> r.error == Api(AccessDenied) || r.error == Api(ResourceNotFound)
  {
    if !IsUserAdmin(principal) then Failure(Api(AccessDenied))
    else if id !in papers then Failure(Api(ResourceNotFound))
    else if IsUserDepartmentAdmin(principal)
      && (GetDepartmentId(principal.value).None? || GetDepartmentId(principal.value).value != papers[id].department.departmentId) then
      Failure(Api(AccessDenied))
    else Success(papers[id])
  }

  const ArchiveReason: string := "Paper archived"

  /** The side effect of archiving: every PENDING or ACCEPTED request for the
      paper becomes REJECTED with the archive reason. */
  function ForceReject(requests: RequestStore, paperId: int): (r: RequestStore)
    ensures r.Keys == requests.Keys
    ensures forall k :: k in r ==>
      r[k].requestId == requests[k].requestId && r[k].userId == requests[k].userId && r[k].paperId == requests[k].paperId
    ensures forall k :: k in r && requests[k].paperId != paperId ==> r[k] == requests[k]
    ensures forall k :: k in r && !IsActive(requests[k].status) ==> r[k] == requests[k]
    ensures forall k :: k in r && requests[k].paperId == paperId && IsActive(requests[k].status) ==>
      r[k].status == Rejected && r[k].rejectionReason == Some(ArchiveReason)
  {
    map k | k in requests ::
      if requests[k].paperId == paperId && IsActive(requests[k].status)
      then requests[k].(status := Rejected, rejectionReason := Some(ArchiveReason))
      else requests[k]
  }

  /** `archivePaper`: the paper is archived at `now` and its active requests
      are rejected. */
  function ArchivePaper(papers: PaperStore, requests: RequestStore, id: int, principal: Option<Principal>, now: int)
    : (r: Result<(PaperStore, RequestStore), Error>)
    ensures r.Success? <==> AdminAccess(papers, id, principal).Success?
    ensures r.Success? ==>
      && r.value.0.Keys == papers.Keys
      && r.value.0[id] == papers[id].(archived := true, archivedAt := Some(now))
      && (forall k :: k in papers && k != id ==> r.value.0[k] == papers[k])
      && r.value.1 == ForceReject(requests, id)
  {
    var paper :- AdminAccess(papers, id, principal);
    var archived := paper.(archived := true, archivedAt := Some(now));
    Success((papers[id := archived], ForceReject(requests, id)))
  }

  /** `unarchivePaper`: the paper is live again; requests are not touched. */
  function UnarchivePaper(papers: PaperStore, id: int, principal: Option<Principal>): (r: Result<PaperStore, Error>)
    ensures r.Success? <==> AdminAccess(papers, id, principal).Success?
    ensures r.Success? ==>
      && r.value.Keys == papers.Keys
      && r.value[id] == papers[id].(archived := false, archivedAt := None)
      && (forall k :: k in papers && k != id ==> r.value[k] == papers[k])
  {
    var paper :- AdminAccess(papers, id, principal);
    Success(papers[id := paper.(archived := false, archivedAt := None)])
  }

  /** After archiving no request for the paper is active, and a second
      archive finds nothing more to reject. */
  lemma ArchiveEndsActivity(requests: RequestStore, paperId: int)
    ensures forall k :: k in ForceReject(requests, paperId) && ForceReject(requests, paperId)[k].paperId == paperId ==>
      !IsActive(ForceReject(requests, paperId)[k].status)
    ensures ForceReject(ForceReject(requests, paperId), paperId) == ForceReject(requests, paperId)
  {
  }

  /** Archiving keeps the tables well formed and active requests unique. */
  lemma ArchivePreservesInvariants(papers: PaperStore, requests: RequestStore, id: int, principal: Option<Principal>, now: int)
    requires WellFormed(papers, requests) && Requests.ActiveUnique(requests)
    ensures var r := ArchivePaper(papers, requests, id, principal, now);
      r.Success? ==> WellFormed(r.value.0, r.value.1) && Requests.ActiveUnique(r.value.1)
  {
  }

  /** Unarchiving does not bring requests back: after an archive and an
      unarchive the paper is live again, yet no request for it is active. */
  lemma UnarchiveDoesNotRestore(papers: PaperStore, requests: RequestStore, id: int, principal: Option<Principal>, now: int)
    requires ArchivePaper(papers, requests, id, principal, now).Success?
    ensures var archived := ArchivePaper(papers, requests, id, principal, now).value;
      var back := UnarchivePaper(archived.0, id, principal);
      && back.Success?
      && !back.value[id].archived && back.value[id].archivedAt.None?
      && forall k :: k in archived.1 && archived.1[k].paperId == id ==> !IsActive(archived.1[k].status)
  {
    var archived := ArchivePaper(papers, requests, id, principal, now).value;
    assert archived.0[id].department == papers[id].department;
    ArchiveEndsActivity(requests, id);
  }

  /** The fields `updatePaper` copies from the form. */
  datatype PaperMetadata = PaperMetadata(
    title: string,
    authorName: string,
    abstractText: string,
    departmentId: Option<int>,
    submissionDate: Date)

  /** `updatePaper`: the text fields and date are replaced; a change of
      department is refused to a department admin, and otherwise needs an
      existing department (`findById(null)` throws). */
  function UpdatePaper(papers: PaperStore, departments: DepartmentStore, id: int, metadata: PaperMetadata, principal: Option<Principal>)
    : (r: Result<(ResearchPaper, PaperStore), Error>)
    ensures r.Success? ==> AdminAccess(papers, id, principal).Success?
    ensures AdminAccess(papers, id, principal).Failure? ==> r == Failure(AdminAccess(papers, id, principal).error)
    ensures r.Success? ==>
      var saved := r.value.0;
      && r.value.1 == papers[id := saved]
      && saved.title == metadata.title && saved.authorName == metadata.authorName
      && saved.abstractText == metadata.abstractText && saved.submissionDate == metadata.submissionDate
      && saved.paperId == papers[id].paperId && saved.filePath == papers[id].filePath
      && saved.archived == papers[id].archived && saved.archivedAt == papers[id].archivedAt
      && Some(saved.department.departmentId) == metadata.departmentId
      && (saved.department == papers[id].department || saved.department in departments)
    ensures AdminAccess(papers, id, principal).Success? && metadata.departmentId != Some(papers[id].department.departmentId) ==>
      (IsUserDepartmentAdmin(principal) ==> r == Failure(Api(AccessDenied)))
      && (!IsUserDepartmentAdmin(principal) && metadata.departmentId.None? ==> r == Failure(Runtime(IllegalArgument)))
      && (!IsUserDepartmentAdmin(principal) && metadata.departmentId.Some?
          && (forall j :: 0 <= j < |departments| ==> departments[j].departmentId != metadata.departmentId.value) ==>
            r == Failure(Api(ValidationError)))
    ensures r.Success? <==>
      && AdminAccess(papers, id, principal).Success?
      && (|| metadata.departmentId == Some(papers[id].department.departmentId)
          || (&& !IsUserDepartmentAdmin(principal) && metadata.departmentId.Some?
              && exists j :: 0 <= j < |departments| && departments[j].departmentId == metadata.departmentId.value))
  {
    var paper :- AdminAccess(papers, id, principal);
    var edited := paper.(title := metadata.title, authorName := metadata.authorName,
                         abstractText := metadata.abstractText, submissionDate := metadata.submissionDate);
    if metadata.departmentId == Some(paper.department.departmentId) then Success((edited, papers[id := edited]))
    else if IsUserDepartmentAdmin(principal) then Failure(Api(AccessDenied))
    else if metadata.departmentId.None? then Failure(Runtime(IllegalArgument))
    else
      match FindDepartment(departments, metadata.departmentId.value)
      case None => Failure(Api(ValidationError))
      case Some(department) =>
        var moved := edited.(department := department);
        Success((moved, papers[id := moved]))
  }

  /** A department admin can edit only papers of their department, and the
      edited paper stays there. */
  lemma DepartmentAdminCannotMovePaper(papers: PaperStore, departments: DepartmentStore, id: int, metadata: PaperMetadata, principal: Option<Principal>)
    requires IsUserDepartmentAdmin(principal)
    ensures var r := UpdatePaper(papers, departments, id, metadata, principal);
      r.Success? ==>
        && r.value.0.department == papers[id].department
        && Some(r.value.0.department.departmentId) == GetDepartmentId(principal.value)
  {
  }

  /** `deletePaper`: the paper goes, its requests with it (the relation
      cascades), and its stored file is deleted; the file's path is returned. */
  function DeletePaper(papers: PaperStore, requests: RequestStore, id: int, principal: Option<Principal>)
    : (r: Result<(PaperStore, RequestStore, string), Error>)
    ensures r.Success? <==> AdminAccess(papers, id, principal).Success?
    ensures r.Success? ==>
      && r.value.0 == papers - {id}
      && r.value.2 == papers[id].filePath
      && (forall k :: k in r.value.1 <==> k in requests && requests[k].paperId != id)
      && (forall k :: k in r.value.1 ==> r.value.1[k] == requests[k])
  {
    var paper :- AdminAccess(papers, id, principal);
    var kept := map k | k in requests && requests[k].paperId != id :: requests[k];
    Success((papers - {id}, kept, paper.filePath))
  }

  /** Deleting keeps the tables well formed and active requests unique. */
  lemma DeletePreservesInvariants(papers: PaperStore, requests: RequestStore, id: int, principal: Option<Principal>)
    requires WellFormed(papers, requests) && Requests.ActiveUnique(requests)
    ensures var r := DeletePaper(papers, requests, id, principal);
      r.Success? ==> WellFormed(r.value.0, r.value.1) && Requests.ActiveUnique(r.value.1)
  {
  }

  // ---------------------------------------------------------------- downloads

  /** `existsByPaperPaperIdAndUserUserIdAndStatus(…, ACCEPTED)`. */
  predicate HasAcceptedRequest(requests: RequestStore, paperId: int, userId: int) {
    exists k :: k in requests && requests[k].paperId == paperId && requests[k].userId == userId && requests[k].status == Accepted
  }

  /** `validateDownloadAccess`: a super admin always may; a department admin
      only within their department; anyone else needs the paper live and an
      accepted request of their own (`getUserId` on a null principal throws). */
  function ValidateDownloadAccess(paper: ResearchPaper, requests: RequestStore, principal: Option<Principal>): (r: Outcome<Error>)
    ensures IsUserSuperAdmin(principal) ==> r.Pass?
    ensures IsUserDepartmentAdmin(principal) ==>
      (r.Pass? <==> GetDepartmentId(principal.value) == Some(paper.department.departmentId))
      && (r.Fail? ==> r.error == Api(AccessDenied))
    ensures IsUserStudentOrTeacher(principal) ==>
      (r.Pass? <==> !paper.archived && HasAcceptedRequest(requests, paper.paperId, principal.value.userId))
    ensures !IsUserAdmin(principal) && paper.archived ==> r == Fail(Api(ResourceNotAvailable))
    ensures IsUserStudentOrTeacher(principal) && !paper.archived && r.Fail? ==> r.error == Api(AccessDenied)
  {
    RolePredicatesByRole(principal);
    if IsUserSuperAdmin(principal) then Pass
    else if IsUserDepartmentAdmin(principal) then
      if GetDepartmentId(principal.value).None? || GetDepartmentId(principal.value).value != paper.department.departmentId then
        Fail(Api(AccessDenied))
      else Pass
    else if paper.archived then Fail(Api(ResourceNotAvailable))
    else if principal.None? then Fail(Runtime(NullPointer))
    else if !HasAcceptedRequest(requests, paper.paperId, principal.value.userId) then Fail(Api(AccessDenied))
    else Pass
  }

  /** `downloadPaper`: the stored path of a paper the caller may download. */
  function DownloadPaper(papers: PaperStore, requests: RequestStore, paperId: int, principal: Option<Principal>)
    : (r: Result<string, Error>)
    ensures paperId !in papers ==> r == Failure(Api(ResourceNotFound))
    ensures r.Success? <==> paperId in papers && ValidateDownloadAccess(papers[paperId], requests, principal).Pass?
    ensures r.Success? ==> r.value == papers[paperId].filePath
  {
    if paperId !in papers then Failure(Api(ResourceNotFound))
    else
      var access := ValidateDownloadAccess(papers[paperId], requests, principal);
      if access.Fail? then Failure(access.error) else Success(papers[paperId].filePath)
  }

  /** Accepting a request lets its owner download the paper. */
  lemma AcceptGrantsDownload(papers: PaperStore, requests: RequestStore, requestId: int, admin: Option<Principal>, owner: Principal)
    requires WellFormed(papers, requests)
    requires Requests.AcceptRequest(requests, papers, requestId, admin).result.Success?
    requires owner.userId == requests[requestId].userId && IsUserStudentOrTeacher(Some(owner))
    ensures var after := Requests.AcceptRequest(requests, papers, requestId, admin).requests;
      DownloadPaper(papers, after, requests[requestId].paperId, Some(owner)).Success?
  {
    var after := Requests.AcceptRequest(requests, papers, requestId, admin).requests;
    var paperId := requests[requestId].paperId;
    assert after[requestId].status == Accepted;
    assert papers[paperId].paperId == paperId;
    assert HasAcceptedRequest(after, papers[paperId].paperId, owner.userId);
  }

  /** Archiving revokes every student's and teacher's download, and
      unarchiving does not give it back. */
  lemma ArchiveRevokesDownload(
    papers: PaperStore, requests: RequestStore, id: int, admin: Option<Principal>, now: int, reader: Principal)
    requires WellFormed(papers, requests)
    requires ArchivePaper(papers, requests, id, admin, now).Success?
    requires IsUserStudentOrTeacher(Some(reader))
    ensures var archived := ArchivePaper(papers, requests, id, admin, now).value;
      && DownloadPaper(archived.0, archived.1, id, Some(reader)) == Failure(Api(ResourceNotAvailable))
      && DownloadPaper(UnarchivePaper(archived.0, id, admin).value, archived.1, id, Some(reader)) == Failure(Api(AccessDenied))
  {
    var archived := ArchivePaper(papers, requests, id, admin, now).value;
    UnarchiveDoesNotRestore(papers, requests, id, admin, now);
    var live := UnarchivePaper(archived.0, id, admin).value;
    assert live[id].paperId == id;
    assert !HasAcceptedRequest(archived.1, id, reader.userId);
    RolePredicatesByRole(Some(reader));
  }

  // ---------------------------------------------------------------- uploads

  /** One character of the department slug: lower-cased, and anything but
      `[a-z0-9]` replaced by an underscore. */
  function SlugChar(c: char): char {
    var l := LowerChar(c);
    if ('a' <= l <= 'z') || ('0' <= l <= '9') then l else '_'
  }

  predicate IsSlugChar(c: char) {
    ('a' <= c <= 'z') || ('0' <= c <= '9') || c == '_'
  }

  /** `departmentName.toLowerCase().replaceAll("[^a-z0-9]", "_")`. */
  function DepartmentSlug(name: string): (r: string)
    ensures |r| == |name|
    ensures forall i :: 0 <= i < |r| ==> IsSlugChar(r[i])
    ensures forall i :: 0 <= i < |r| ==> (r[i] == '_' || r[i] == LowerChar(name[i]))
    ensures forall i :: 0 <= i < |r| ==>
      (('a' <= LowerChar(name[i]) <= 'z' || '0' <= LowerChar(name[i]) <= '9') ==> r[i] == LowerChar(name[i]))
    ensures forall i :: 0 <= i < |r| ==>
      (!('a' <= LowerChar(name[i]) <= 'z' || '0' <= LowerChar(name[i]) <= '9') ==> r[i] == '_')
  {
    seq(|name|, i requires 0 <= i < |name| => SlugChar(name[i]))
  }

  /** Slugs are fixed points: a slug's slug is itself. */
  lemma SlugIdempotent(name: string)
    ensures DepartmentSlug(DepartmentSlug(name)) == DepartmentSlug(name)
  {
  }

  lemma SlugExample()
    ensures DepartmentSlug("Comp Sci") == "comp_sci"
  {
  }

  /** The upload's extension: from the last dot of the original name, or
      ".pdf" when there is no dot or no name. */
  function UploadExtension(originalFilename: Option<string>): (r: string)
    ensures |r| >= 1 && r[0] == '.'
    ensures forall i :: 1 <= i < |r| ==> r[i] != '.'
    ensures originalFilename.Some? && '.' in originalFilename.value ==> EndsWith(originalFilename.value, r)
    ensures !(originalFilename.Some? && '.' in originalFilename.value) ==> r == ".pdf"
  {
    if originalFilename.Some? && '.' in originalFilename.value then
      var n := originalFilename.value;
      var k := LastIndexOf(n, '.');
      assert k >= 0 by {
        var j :| 0 <= j < |n| && n[j] == '.';
      }
      n[k..]
    else ".pdf"
  }

  /** `<year>/<department slug>/paper_<millis><ext>`. The stored path starts
      with the year and, read back by `getFileExtension`, has the upload's
      extension. */
  function UploadPath(year: int, departmentName: string, originalFilename: Option<string>, millis: int): (r: string)
    ensures |r| > |IntToString(year)| && r[..|IntToString(year)| + 1] == IntToString(year) + "/"
    ensures EndsWith(r, UploadExtension(originalFilename))
    ensures FileExtension(Some(r)) == UploadExtension(originalFilename)
    ensures departmentName != [] && '/' !in UploadExtension(originalFilename) ==>
      Names(r) == [IntToString(year), DepartmentSlug(departmentName),
                   "paper_" + IntToString(millis) + UploadExtension(originalFilename)]
  {
    var prefix := UploadPrefix(year, departmentName, millis);
    var ext := UploadExtension(originalFilename);
    ExtensionAfterPrefix(prefix, ext);
    PrefixLeadsPath(prefix, ext, IntToString(year) + "/");
    UploadNames(year, departmentName, millis, ext);
    prefix + ext
  }

  /** The three names of an upload path: the year, the department slug and
      the file name. */
  lemma UploadNames(year: int, departmentName: string, millis: int, ext: string)
    ensures departmentName != [] && '/' !in ext ==>
      Names(UploadPrefix(year, departmentName, millis) + ext)
        == [IntToString(year), DepartmentSlug(departmentName), "paper_" + IntToString(millis) + ext]
  {
    if departmentName != [] && '/' !in ext {
      var y := IntToString(year);
      var slug := DepartmentSlug(departmentName);
      var m := IntToString(millis);
      IntToStringShape(year);
      IntToStringShape(millis);
      SlugHasNoSlash(departmentName);
      FileNameHasNoSlash(m, ext);
      JoinedPrefix(y, slug, m, ext);
      ThreeNames(y, slug, "paper_" + m + ext);
    }
  }

  lemma SlugHasNoSlash(departmentName: string)
    ensures '/' !in DepartmentSlug(departmentName)
  {
    var slug := DepartmentSlug(departmentName);
    forall i | 0 <= i < |slug| ensures slug[i] != '/' {
      assert IsSlugChar(slug[i]);
    }
  }

  lemma FileNameHasNoSlash(m: string, ext: string)
    requires '/' !in m && '/' !in ext
    ensures '/' !in "paper_" + m + ext
  {
  }

  lemma JoinedPrefix(y: string, slug: string, m: string, ext: string)
    ensures y + "/" + slug + "/" + "paper_" + m + ext == y + "/" + slug + "/" + ("paper_" + m + ext)
  {
  }

  /** Three slash-free, non-empty pieces joined by slashes are three names. */
  lemma ThreeNames(a: string, b: string, c: string)
    requires a != [] && b != [] && c != []
    requires '/' !in a && '/' !in b && '/' !in c
    ensures Names(a + "/" + b + "/" + c) == [a, b, c]
  {
    assert a + "/" + b + "/" + c == a + "/" + (b + "/" + c);
    NamesOfSlashJoin(a, b + "/" + c);
    NamesOfSlashJoin(b, c);
  }

  /** Upload paths of departments with different slugs, of different years or
      of different timestamps never collide. */
  lemma UploadPathInjective(
    year1: int, departmentName1: string, originalFilename1: Option<string>, millis1: int,
    year2: int, departmentName2: string, originalFilename2: Option<string>, millis2: int)
    requires departmentName1 != [] && '/' !in UploadExtension(originalFilename1)
    requires departmentName2 != [] && '/' !in UploadExtension(originalFilename2)
    requires UploadPath(year1, departmentName1, originalFilename1, millis1)
          == UploadPath(year2, departmentName2, originalFilename2, millis2)
    ensures IntToString(year1) == IntToString(year2)
    ensures DepartmentSlug(departmentName1) == DepartmentSlug(departmentName2)
    ensures millis1 == millis2
    ensures UploadExtension(originalFilename1) == UploadExtension(originalFilename2)
  {
    var n1 := Names(UploadPath(year1, departmentName1, originalFilename1, millis1));
    var n2 := Names(UploadPath(year2, departmentName2, originalFilename2, millis2));
    assert n1[2] == n2[2];
    var m1 := IntToString(millis1);
    var m2 := IntToString(millis2);
    var e1 := UploadExtension(originalFilename1);
    var e2 := UploadExtension(originalFilename2);
    IntToStringShape(millis1);
    IntToStringShape(millis2);
    DigitsThenExtension(m1, e1, m2, e2);
    IntToStringInjective(millis1, millis2);
  }

  /** Where a dot-free text is followed by a dot-led extension, the first dot
      separates the two. */
  lemma DigitsThenExtension(m1: string, e1: string, m2: string, e2: string)
    requires '.' !in m1 && '.' !in m2
    requires |e1| >= 1 && e1[0] == '.' && |e2| >= 1 && e2[0] == '.'
    requires "paper_" + m1 + e1 == "paper_" + m2 + e2
    ensures m1 == m2 && e1 == e2
  {
    var s1 := m1 + e1;
    var s2 := m2 + e2;
    assert s1 == ("paper_" + m1 + e1)[6..];
    assert s2 == ("paper_" + m2 + e2)[6..];
    assert s1[|m1|] == '.' && s1[..|m1|] == m1;
    assert s2[|m2|] == '.' && s2[..|m2|] == m2;
    assert |m1| == |m2|;
    assert m1 == s1[..|m1|];
    assert m2 == s2[..|m2|];
    assert e1 == s1[|m1|..];
    assert e2 == s2[|m2|..];
  }

  lemma PrefixLeadsPath(prefix: string, ext: string, lead: string)
    requires |prefix| >= |lead| && prefix[..|lead|] == lead
    ensures (prefix + ext)[..|lead|] == lead
  {
    assert (prefix + ext)[..|lead|] == prefix[..|lead|];
  }

  /** A dot-led, dot-free extension after a non-empty prefix is what
      `getFileExtension` reads back. */
  lemma ExtensionAfterPrefix(prefix: string, ext: string)
    requires |prefix| > 0 && |ext| >= 1 && ext[0] == '.'
    requires forall i :: 1 <= i < |ext| ==> ext[i] != '.'
    ensures EndsWith(prefix + ext, ext)
    ensures FileExtension(Some(prefix + ext)) == ext
  {
    assert '.' !in ext[1..] by {
      forall i | 0 <= i < |ext[1..]| ensures ext[1..][i] != '.' {
        assert ext[1..][i] == ext[i + 1];
      }
    }
    LastIndexOfAppend(prefix, '.', ext[1..]);
    assert prefix + ext == prefix + ['.'] + ext[1..];
    EndsWithAppend(prefix, ext);
    assert (prefix + ext)[|prefix|..] == ext;
  }


  function UploadPrefix(year: int, departmentName: string, millis: int): (r: string)
    ensures |r| > |IntToString(year)| && r[..|IntToString(year)| + 1] == IntToString(year) + "/"
  {
    LeadingPartKept(IntToString(year) + "/", DepartmentSlug(departmentName), "/", "paper_", IntToString(millis));
    IntToString(year) + "/" + DepartmentSlug(departmentName) + "/" + "paper_" + IntToString(millis)
  }

  lemma LeadingPartKept(a: string, b: string, c: string, d: string, e: string)
    ensures |a + b + c + d + e| >= |a| && (a + b + c + d + e)[..|a|] == a
  {
    assert a + b + c + d + e == a + (b + c + d + e);
  }

  lemma IntToStringShape(n: int)
    ensures |IntToString(n)| >= 1
    ensures '.' !in IntToString(n) && '/' !in IntToString(n)
    ensures IsDigit(IntToString(n)[|IntToString(n)| - 1])
    ensures IntToString(n)[0] != '/'
  {
    var m: nat := if n < 0 then -n else n;
    NatToStringDigits(m);
    IntToStringNoSlash(n);
    var d := NatToString(m);
    assert IsDigit(d[|d| - 1]);
  }

  /** The only dot of an upload path starts the extension and follows a digit. */
  lemma UploadPathDotSafe(year: int, departmentName: string, originalFilename: Option<string>, millis: int)
    ensures DotSafe(UploadPath(year, departmentName, originalFilename, millis))
    ensures |UploadPath(year, departmentName, originalFilename, millis)| > 0
    ensures UploadPath(year, departmentName, originalFilename, millis)[0] != '/'
  {
    var prefix := UploadPrefix(year, departmentName, millis);
    var ext := UploadExtension(originalFilename);
    var path := prefix + ext;
    IntToStringShape(year);
    IntToStringShape(millis);
    var y := IntToString(year);
    var slug := DepartmentSlug(departmentName);
    var m := IntToString(millis);
    assert prefix == y + ("/" + slug + "/" + "paper_") + m;
    assert '.' !in prefix by {
      assert '.' !in "/" + slug + "/" + "paper_";
    }
    assert prefix[|prefix| - 1] == m[|m| - 1];
    assert path[0] == y[0];
    forall i | 0 <= i < |path| && path[i] == '.'
      ensures i > 0 && path[i - 1] != '/' && path[i - 1] != '.'
    {
      assert i >= |prefix|;
      assert ext[i - |prefix|] == '.';
      assert i == |prefix|;
      assert path[i - 1] == prefix[|prefix| - 1];
    }
  }

  /** Under an upload directory with no "." or ".." names, the containment
      check never refuses the path `createPaper` builds: it lies strictly
      below the root for every department name, file name, year and clock
      reading. */
  lemma UploadPathContained(storage: Storage, file: Upload, year: int, departmentName: string, originalFilename: Option<string>, millis: int)
    requires Plain(Names(storage.uploadDir))
    ensures StrictlyInside(AbsoluteRoot(storage), Destination(storage, UploadPath(year, departmentName, originalFilename, millis)))
    ensures SaveFile(storage, file, UploadPath(year, departmentName, originalFilename, millis)).Success?
        <==> ValidateUpload(file).Pass?
  {
    var path := UploadPath(year, departmentName, originalFilename, millis);
    UploadPathDotSafe(year, departmentName, originalFilename, millis);
    DotSafeNamesPlain(path);
    NamesOfRelative(path);
    PlainDestination(storage, path);
    assert (AbsoluteRoot(storage) + Names(path))[..|AbsoluteRoot(storage)|] == AbsoluteRoot(storage);
  }

  /** Saving the path `createPaper` builds fails only with an API error, and
      under a plain upload directory only when the file is invalid. */
  lemma UploadSaveOutcome(storage: Storage, file: Upload, year: int, departmentName: string, originalFilename: Option<string>, millis: int)
    ensures SaveFile(storage, file, UploadPath(year, departmentName, originalFilename, millis)).Failure? ==>
      SaveFile(storage, file, UploadPath(year, departmentName, originalFilename, millis)).error.Api?
    ensures Plain(Names(storage.uploadDir)) ==>
      (SaveFile(storage, file, UploadPath(year, departmentName, originalFilename, millis)).Success? <==> ValidateUpload(file).Pass?)
  {
    var path := UploadPath(year, departmentName, originalFilename, millis);
    UploadPathDotSafe(year, departmentName, originalFilename, millis);
    DotSafeNamesPlain(path);
    NamesOfRelative(path);
    PlainSubPathFailsWithApiError(storage, file, path);
    if Plain(Names(storage.uploadDir)) {
      UploadPathContained(storage, file, year, departmentName, originalFilename, millis);
    }
  }

  /** With the upload directory written "./uploads", every upload `createPaper`
      attempts with a valid file is refused as lying outside the root. */
  lemma DotUploadsRefusesEveryUpload(cwd: PathNames, file: Upload, year: int, departmentName: string, originalFilename: Option<string>, millis: int)
    requires ValidateUpload(file).Pass?
    ensures SaveFile(Storage(cwd, "./uploads"), file, UploadPath(year, departmentName, originalFilename, millis))
      == Failure(Api(InvalidRequest))
  {
    var path := UploadPath(year, departmentName, originalFilename, millis);
    UploadPathDotSafe(year, departmentName, originalFilename, millis);
    DotSafeNamesPlain(path);
    NamesOfRelative(path);
    DotRootRefusesPlainSubPaths(cwd, file, path);
  }

  /** `createPaper` up to the save. `nullDepartment` is what a department
      admin without a department runs into at
      `principal.getDepartmentId().equals(…)`. */
  function PaperCreation(
    papers: PaperStore, departments: DepartmentStore, metadata: PaperMetadata, file: Upload,
    principal: Option<Principal>, storage: Storage, millis: int, freshId: int, nullDepartment: Error)
    : (r: Result<(ResearchPaper, PaperStore), Error>)
    requires freshId !in papers
    ensures !IsUserAdmin(principal) ==> r == Failure(Api(AccessDenied))
    ensures IsUserDepartmentAdmin(principal) && GetDepartmentId(principal.value).None? ==> r == Failure(nullDepartment)
    ensures (IsUserDepartmentAdmin(principal) && GetDepartmentId(principal.value).Some?
         && GetDepartmentId(principal.value) != metadata.departmentId) ==> r == Failure(Api(AccessDenied))
    ensures r.Success? <==>
      && IsUserAdmin(principal)
      && (IsUserDepartmentAdmin(principal) ==> GetDepartmentId(principal.value) == metadata.departmentId)
      && metadata.departmentId.Some? && FindDepartment(departments, metadata.departmentId.value).Some?
      && SaveFile(storage, file, UploadPath(metadata.submissionDate.year,
           FindDepartment(departments, metadata.departmentId.value).value.departmentName, file.originalFilename, millis)).Success?
    ensures Plain(Names(storage.uploadDir)) ==>
      (r.Success? <==>
        && IsUserAdmin(principal)
        && (IsUserDepartmentAdmin(principal) ==> GetDepartmentId(principal.value) == metadata.departmentId)
        && metadata.departmentId.Some? && FindDepartment(departments, metadata.departmentId.value).Some?
        && ValidateUpload(file).Pass?)
    ensures (r.Failure? && IsUserAdmin(principal) && metadata.departmentId.Some?
             && !(IsUserDepartmentAdmin(principal) && GetDepartmentId(principal.value).None?)) ==>
      r.error.Api?
    ensures r.Success? ==>
      var paper := r.value.0;
      && r.value.1 == papers[freshId := paper]
      && paper.paperId == freshId && !paper.archived && paper.archivedAt.None?
      && paper.department in departments && Some(paper.department.departmentId) == metadata.departmentId
      && paper.title == metadata.title && paper.authorName == metadata.authorName
      && paper.abstractText == metadata.abstractText && paper.submissionDate == metadata.submissionDate
      && paper.filePath == UploadPath(metadata.submissionDate.year, paper.department.departmentName, file.originalFilename, millis)
  {
    if !IsUserAdmin(principal) then Failure(Api(AccessDenied))
    else if IsUserDepartmentAdmin(principal) && GetDepartmentId(principal.value).None? then Failure(nullDepartment)
    else if IsUserDepartmentAdmin(principal) && GetDepartmentId(principal.value) != metadata.departmentId then
      Failure(Api(AccessDenied))
    else if metadata.departmentId.None? then Failure(Runtime(IllegalArgument))
    else
      match FindDepartment(departments, metadata.departmentId.value)
      case None => Failure(Api(ValidationError))
      case Some(department) =>
        var relativePath := UploadPath(metadata.submissionDate.year, department.departmentName, file.originalFilename, millis);
        UploadSaveOutcome(storage, file, metadata.submissionDate.year, department.departmentName, file.originalFilename, millis);
        var saved := SaveFile(storage, file, relativePath);
        if saved.Failure? then Failure(saved.error)
        else
          var paper := ResearchPaper(freshId, metadata.title, metadata.authorName, metadata.abstractText,
                                     saved.value, department, metadata.submissionDate, false, None);
          Success((paper, papers[freshId := paper]))
  }

  /** `createPaper` as written. */
  function CreatePaper(
    papers: PaperStore, departments: DepartmentStore, metadata: PaperMetadata, file: Upload,
    principal: Option<Principal>, storage: Storage, millis: int, freshId: int)
    : (r: Result<(ResearchPaper, PaperStore), Error>)
    requires freshId !in papers
    ensures r.Success? ==> ValidateUpload(file).Pass? && !r.value.0.archived
    ensures IsUserDepartmentAdmin(principal) && principal.value.department.None? ==> r == Failure(Runtime(NullPointer))
  {
    PaperCreation(papers, departments, metadata, file, principal, storage, millis, freshId, Runtime(NullPointer))
  }

  /** `createPaper` with a department admin who has no department refused
      with `ACCESS_DENIED`, as `getAndVerifyAdminAccess` does. */
  function CreatePaperChecked(
    papers: PaperStore, departments: DepartmentStore, metadata: PaperMetadata, file: Upload,
    principal: Option<Principal>, storage: Storage, millis: int, freshId: int)
    : (r: Result<(ResearchPaper, PaperStore), Error>)
    requires freshId !in papers
    ensures r.Success? <==> CreatePaper(papers, departments, metadata, file, principal, storage, millis, freshId).Success?
    ensures IsUserDepartmentAdmin(principal) && principal.value.department.None? ==> r == Failure(Api(AccessDenied))
    ensures r.Failure? && IsUserAdmin(principal) && metadata.departmentId.Some? ==> r.error.Api?
  {
    PaperCreation(papers, departments, metadata, file, principal, storage, millis, freshId, Api(AccessDenied))
  }

  /** With the upload directory written "./uploads", no paper can be created. */
  lemma DotUploadsCreatesNoPaper(
    papers: PaperStore, departments: DepartmentStore, metadata: PaperMetadata, file: Upload,
    principal: Option<Principal>, cwd: PathNames, millis: int, freshId: int)
    requires freshId !in papers
    ensures CreatePaper(papers, departments, metadata, file, principal, Storage(cwd, "./uploads"), millis, freshId).Failure?
    ensures CreatePaperChecked(papers, departments, metadata, file, principal, Storage(cwd, "./uploads"), millis, freshId).Failure?
  {
    var storage := Storage(cwd, "./uploads");
    if metadata.departmentId.Some? && FindDepartment(departments, metadata.departmentId.value).Some? && ValidateUpload(file).Pass? {
      var department := FindDepartment(departments, metadata.departmentId.value).value;
      DotUploadsRefusesEveryUpload(cwd, file, metadata.submissionDate.year, department.departmentName, file.originalFilename, millis);
    }
  }

  /** Creating a paper keeps the tables well formed. */
  lemma CreatePreservesInvariants(
    papers: PaperStore, requests: RequestStore, departments: DepartmentStore, metadata: PaperMetadata, file: Upload,
    principal: Option<Principal>, storage: Storage, millis: int, freshId: int)
    requires freshId !in papers && WellFormed(papers, requests)
    ensures var r := CreatePaperChecked(papers, departments, metadata, file, principal, storage, millis, freshId);
      r.Success? ==> WellFormed(r.value.1, requests)
  {
  }
}

=== FILE: privileged.dfy ===
/** The registry of privileged accounts read from YAML at start-up: super
    admins, teachers and department admins, the lower-cased lookup map of
    department admins, and the loader's validation and failure wrapping. */
module Privileged {
  import opened Wrappers
  import opened Strings
  import opened Errors

  /** One `department_admins` entry; either field may be missing in the YAML. */
  datatype DepartmentAdminEntry = DepartmentAdminEntry(email: Option<string>, departmentId: Option<int>)

  /** `PrivilegedUserConfig`; a list missing from the YAML is null. */
  datatype PrivilegedUserConfig = PrivilegedUserConfig(
    superAdmins: Option<seq<string>>,
    teachers: Option<seq<string>>,
    departmentAdmins: Option<seq<DepartmentAdminEntry>>)

  predicate Complete(e: DepartmentAdminEntry) {
    e.email.Some? && e.departmentId.Some?
  }

  /** The map key of a complete entry: its email lower-cased. */
  function Key(e: DepartmentAdminEntry): string
    requires Complete(e)
  {
    ToLower(e.email.value)
  }

  predicate AllComplete(entries: seq<DepartmentAdminEntry>) {
    forall i :: 0 <= i < |entries| ==> Complete(entries[i])
  }

  /** No two entries share a lower-cased email. */
  predicate KeysDistinct(entries: seq<DepartmentAdminEntry>)
    requires AllComplete(entries)
  {
    forall i, j :: 0 <= i < j < |entries| ==> Key(entries[i]) != Key(entries[j])
  }

  /** No entry's key is already taken in `acc`. */
  predicate KeysFresh(entries: seq<DepartmentAdminEntry>, acc: map<string, int>)
    requires AllComplete(entries)
  {
    forall i :: 0 <= i < |entries| ==> Key(entries[i]) !in acc
  }

  /** The accumulation `Collectors.toMap` performs, entry by entry: a null email
      fails in the key mapper and a null id in the null-value check (both
      `NullPointerException`); a repeated key fails with
      `IllegalStateException`. */
  function Collect(entries: seq<DepartmentAdminEntry>, acc: map<string, int>): (r: Result<map<string, int>, Error>)
    ensures r.Failure? ==> r.error in {Runtime(NullPointer), Runtime(IllegalState)}
    decreases |entries|
  {
    if |entries| == 0 then Success(acc)
    else
      var e := entries[0];
      if e.email.None? || e.departmentId.None? then Failure(Runtime(NullPointer))
      else if ToLower(e.email.value) in acc then Failure(Runtime(IllegalState))
      else Collect(entries[1..], acc[ToLower(e.email.value) := e.departmentId.value])
  }

  /** `getDepartmentAdminsMap`: a missing list gives the empty map; otherwise
      the map is built exactly when every entry is complete and no two
      lower-cased emails collide, and then it sends each lower-cased email to
      its entry's department id and holds no other key. */
  function DepartmentAdminsMap(config: PrivilegedUserConfig): (r: Result<map<string, int>, Error>)
    ensures config.departmentAdmins.None? ==> r == Success(map[])
    ensures r.Success? <==> AdminMapBuilds(config)
    ensures r.Failure? ==> r.error in {Runtime(NullPointer), Runtime(IllegalState)}
    ensures r.Success? ==>
      var entries := AdminEntries(config);
      && (forall k :: k in r.value ==> exists i :: 0 <= i < |entries| && Key(entries[i]) == k)
      && (forall i :: 0 <= i < |entries| ==> Key(entries[i]) in r.value && r.value[Key(entries[i])] == entries[i].departmentId.value)
  {
    match config.departmentAdmins
    case None => Success(map[])
    case Some(entries) =>
      CollectSpec(entries, map[]);
      Collect(entries, map[])
  }

  /** The accumulation succeeds exactly when every entry is complete and the
      lower-cased emails are distinct from each other and from `acc`; its
      result is `acc` plus one key per entry, mapped to that entry's id. */
  lemma {:induction false} CollectSpec(entries: seq<DepartmentAdminEntry>, acc: map<string, int>)
    ensures Collect(entries, acc).Success?
      <==> AllComplete(entries) && KeysDistinct(entries) && KeysFresh(entries, acc)
    ensures Collect(entries, acc).Success? ==>
      var m := Collect(entries, acc).value;
      && (forall k :: k in m <==> k in acc || exists i :: 0 <= i < |entries| && Key(entries[i]) == k)
      && (forall k :: k in acc ==> m[k] == acc[k])
      && (forall i :: 0 <= i < |entries| ==> m[Key(entries[i])] == entries[i].departmentId.value)
    decreases |entries|
  {
    if |entries| > 0 {
      var e := entries[0];
      var rest := entries[1..];
      if !Complete(e) {
        assert !AllComplete(entries) by {
          assert !Complete(entries[0]);
        }
      } else {
        var grown := acc[Key(e) := e.departmentId.value];
        CollectSpec(rest, grown);
        ConditionsCons(entries, acc);
        if Key(e) !in acc && Collect(rest, grown).Success? {
          ContentsCons(entries, acc, Collect(rest, grown).value);
        }
      }
    }
  }

  /** The conditions of `CollectSpec` split at the first entry: its key is
      new, and the rest meet them against the accumulator that holds it. */
  lemma ConditionsCons(entries: seq<DepartmentAdminEntry>, acc: map<string, int>)
    requires |entries| > 0 && Complete(entries[0])
    ensures var rest := entries[1..];
      var grown := acc[Key(entries[0]) := entries[0].departmentId.value];
      (AllComplete(entries) && KeysDistinct(entries) && KeysFresh(entries, acc))
      <==> (Key(entries[0]) !in acc && AllComplete(rest) && KeysDistinct(rest) && KeysFresh(rest, grown))
  {
    var e := entries[0];
    var rest := entries[1..];
    var grown := acc[Key(e) := e.departmentId.value];
    if AllComplete(entries) && KeysDistinct(entries) && KeysFresh(entries, acc) {
      assert AllComplete(rest) by {
        forall i | 0 <= i < |rest|
          ensures Complete(rest[i])
        {
          assert rest[i] == entries[i + 1];
        }
      }
      forall i | 0 <= i < |rest|
        ensures Key(rest[i]) !in grown
      {
        assert rest[i] == entries[i + 1];
      }
      forall i, j | 0 <= i < j < |rest|
        ensures Key(rest[i]) != Key(rest[j])
      {
        assert rest[i] == entries[i + 1] && rest[j] == entries[j + 1];
      }
    }
    if Key(e) !in acc && AllComplete(rest) && KeysDistinct(rest) && KeysFresh(rest, grown) {
      assert AllComplete(entries) by {
        forall i | 0 <= i < |entries|
          ensures Complete(entries[i])
        {
          if i > 0 {
            assert rest[i - 1] == entries[i];
          }
        }
      }
      forall i, j | 0 <= i < j < |entries|
        ensures Key(entries[i]) != Key(entries[j])
      {
        assert rest[j - 1] == entries[j];
        if i > 0 {
          assert rest[i - 1] == entries[i];
        }
      }
      forall i | 0 <= i < |entries|
        ensures Key(entries[i]) !in acc
      {
        if i > 0 {
          assert rest[i - 1] == entries[i];
        }
      }
    }
  }

  /** The map `CollectSpec` describes for the rest and the extended
      accumulator is the one it describes for all entries and `acc`. */
  lemma ContentsCons(entries: seq<DepartmentAdminEntry>, acc: map<string, int>, m: map<string, int>)
    requires |entries| > 0 && Complete(entries[0]) && AllComplete(entries[1..])
    requires Key(entries[0]) !in acc
    requires var rest := entries[1..];
      var grown := acc[Key(entries[0]) := entries[0].departmentId.value];
      && (forall k :: k in m <==> k in grown || exists i :: 0 <= i < |rest| && Key(rest[i]) == k)
      && (forall k :: k in grown ==> m[k] == grown[k])
      && (forall i :: 0 <= i < |rest| ==> m[Key(rest[i])] == rest[i].departmentId.value)
    ensures AllComplete(entries)
    ensures forall k :: k in m <==> k in acc || exists i :: 0 <= i < |entries| && Key(entries[i]) == k
    ensures forall k :: k in acc ==> m[k] == acc[k]
    ensures forall i :: 0 <= i < |entries| ==> m[Key(entries[i])] == entries[i].departmentId.value
  {
    var rest := entries[1..];
    assert AllComplete(entries) by {
      forall i | 0 <= i < |entries|
        ensures Complete(entries[i])
      {
        if i > 0 {
          assert rest[i - 1] == entries[i];
        }
      }
    }
    forall k
      ensures k in m <==> k in acc || exists i :: 0 <= i < |entries| && Key(entries[i]) == k
    {
      if exists i :: 0 <= i < |rest| && Key(rest[i]) == k {
        var i :| 0 <= i < |rest| && Key(rest[i]) == k;
        assert entries[i + 1] == rest[i];
      }
      if exists i :: 0 <= i < |entries| && Key(entries[i]) == k {
        var i :| 0 <= i < |entries| && Key(entries[i]) == k;
        if i > 0 {
          assert rest[i - 1] == entries[i];
        }
      }
    }
    forall i | 0 <= i < |entries|
      ensures m[Key(entries[i])] == entries[i].departmentId.value
    {
      if i > 0 {
        assert rest[i - 1] == entries[i];
      }
    }
  }

  /** The map built from a complete registry with distinct lower-cased emails
      has exactly those emails as keys, each mapped to its entry's id. */
  lemma DepartmentAdminsMapSpec(config: PrivilegedUserConfig)
    requires config.departmentAdmins.Some?
    ensures var entries := config.departmentAdmins.value;
      DepartmentAdminsMap(config).Success? <==> AllComplete(entries) && KeysDistinct(entries)
    ensures var entries := config.departmentAdmins.value;
      DepartmentAdminsMap(config).Success? ==>
        var m := DepartmentAdminsMap(config).value;
        && (forall k :: k in m <==> exists i :: 0 <= i < |entries| && Key(entries[i]) == k)
        && (forall i :: 0 <= i < |entries| ==> m[Key(entries[i])] == entries[i].departmentId.value)
  {
    CollectSpec(config.departmentAdmins.value, map[]);
  }

  /** The `department_admins` entries; none when the list is missing. */
  function AdminEntries(config: PrivilegedUserConfig): seq<DepartmentAdminEntry> {
    if config.departmentAdmins.None? then [] else config.departmentAdmins.value
  }

  /** Some complete entry names `email` once lower-cased. */
  ghost predicate NamedDepartmentAdmin(config: PrivilegedUserConfig, email: string) {
    exists i :: 0 <= i < |AdminEntries(config)| && Complete(AdminEntries(config)[i]) && Key(AdminEntries(config)[i]) == email
  }

  /** The department-admin map can be built: every entry is complete and the
      lower-cased emails are distinct. */
  predicate AdminMapBuilds(config: PrivilegedUserConfig) {
    AllComplete(AdminEntries(config)) && KeysDistinct(AdminEntries(config))
  }

  /** `getDepartmentAdminsMap` in terms of the entries, whether or not the
      list is present. */
  lemma DepartmentAdminsMapMeaning(config: PrivilegedUserConfig)
    ensures DepartmentAdminsMap(config).Success? <==> AdminMapBuilds(config)
    ensures DepartmentAdminsMap(config).Failure? ==> DepartmentAdminsMap(config).error in {Runtime(NullPointer), Runtime(IllegalState)}
    ensures DepartmentAdminsMap(config).Success? ==>
      var m := DepartmentAdminsMap(config).value;
      var entries := AdminEntries(config);
      && (forall k :: k in m <==> NamedDepartmentAdmin(config, k))
      && (forall i :: 0 <= i < |entries| ==> m[Key(entries[i])] == entries[i].departmentId.value)
  {
    if config.departmentAdmins.Some? {
      DepartmentAdminsMapSpec(config);
    }
  }

  /** A registry without a `department_admins` list has no department admins. */
  lemma NoDepartmentAdminsListIsEmptyMap(config: PrivilegedUserConfig)
    requires config.departmentAdmins.None?
    ensures DepartmentAdminsMap(config) == Success(map[])
  {
  }

  /** An entry written in mixed case is found under its lower-case spelling. */
  lemma MixedCaseEntryFoundLowerCase()
    ensures var config := PrivilegedUserConfig(None, None,
      Some([DepartmentAdminEntry(Some("Dean@School.com"), Some(7))]));
      DepartmentAdminsMap(config) == Success(map["dean@school.com" := 7])
  {
    assert ToLower("Dean@School.com") == "dean@school.com";
  }

  /** Two entries differing only in case collide: the map cannot be built. */
  lemma CaseVariantsCollide()
    ensures var config := PrivilegedUserConfig(None, None,
      Some([DepartmentAdminEntry(Some("a@x.com"), Some(1)), DepartmentAdminEntry(Some("A@x.com"), Some(2))]));
      DepartmentAdminsMap(config) == Failure(Runtime(IllegalState))
  {
    assert ToLower("a@x.com") == "a@x.com";
    assert ToLower("A@x.com") == "a@x.com";
  }

  // ---------------------------------------------------------------- loader

  /** `validate`: only incomplete department-admin entries are rejected (with
      `SERVICE_UNAVAILABLE`); a null registry fails with a
      `NullPointerException`. The set of emails it gathers is never consulted,
      so duplicates pass. */
  function Validate(config: Option<PrivilegedUserConfig>): (r: Outcome<Error>)
    ensures config.None? ==> r == Fail(Runtime(NullPointer))
    ensures config.Some? ==>
      (r.Pass? <==> config.value.departmentAdmins.None? || AllComplete(config.value.departmentAdmins.value))
    ensures r.Fail? && config.Some? ==> r.error == Api(ServiceUnavailable)
  {
    if config.None? then Fail(Runtime(NullPointer))
    else
      match config.value.departmentAdmins
      case None => Pass
      case Some(entries) => Need(AllComplete(entries), Api(ServiceUnavailable))
  }

  /** The loader's state: the registry field, null before the first load. */
  datatype Loader = Loader(config: Option<PrivilegedUserConfig>)

  datatype LoadResult = LoadResult(loader: Loader, outcome: Outcome<Error>)

  /** `loadConfig`. `parsed` is what reading the YAML file yields: a failure, or
      a registry that may be null (an empty document). The field is assigned
      before validation, and every failure is rethrown as
      `IllegalStateException`. */
  function LoadConfig(loader: Loader, parsed: Result<Option<PrivilegedUserConfig>, Error>): (r: LoadResult)
    ensures r.outcome.Fail? ==> r.outcome.error == Runtime(IllegalState)
    ensures parsed.Failure? ==> r.loader == loader && r.outcome.Fail?
    ensures parsed.Success? ==> r.loader == Loader(parsed.value)
    ensures r.outcome.Pass? <==> parsed.Success? && Validate(parsed.value).Pass?
  {
    match parsed
    case Failure(_) => LoadResult(loader, Fail(Runtime(IllegalState)))
    case Success(config) =>
      var outcome := if Validate(config).Pass? then Pass else Fail(Runtime(IllegalState));
      LoadResult(Loader(config), outcome)
  }

  /** `getPrivilegedUserConfig`. */
  function GetPrivilegedUserConfig(loader: Loader): Option<PrivilegedUserConfig> {
    loader.config
  }

  /** After a successful load the getter returns the registry just read, and it
      is non-null. */
  lemma SuccessfulLoadIsVisible(loader: Loader, parsed: Result<Option<PrivilegedUserConfig>, Error>)
    requires LoadConfig(loader, parsed).outcome.Pass?
    ensures GetPrivilegedUserConfig(LoadConfig(loader, parsed).loader) == parsed.value
    ensures parsed.value.Some?
  {
  }

  /** A registry whose validation fails is still stored: the getter returns it
      even though `loadConfig` threw. */
  lemma FailedValidationStillStored(loader: Loader, config: PrivilegedUserConfig)
    requires Validate(Some(config)).Fail?
    ensures var r := LoadConfig(loader, Success(Some(config)));
      r.outcome == Fail(Runtime(IllegalState)) && GetPrivilegedUserConfig(r.loader) == Some(config)
  {
  }

  /** Lists that are missing altogether pass validation. */
  lemma MissingListsAccepted()
    ensures Validate(Some(PrivilegedUserConfig(None, None, None))) == Pass
  {
  }

  /** Validation lets through a registry whose map cannot be built: two entries
      whose emails differ only in case. */
  lemma ValidateMissesCollision()
    ensures var config := PrivilegedUserConfig(None, None,
      Some([DepartmentAdminEntry(Some("a@x.com"), Some(1)), DepartmentAdminEntry(Some("A@x.com"), Some(2))]));
      Validate(Some(config)) == Pass && DepartmentAdminsMap(config).Failure?
  {
    CaseVariantsCollide();
  }

  /** Validation as the unused email set suggests it was meant to work: it also
      rejects department-admin entries whose lower-cased emails collide. */
  function ValidateDistinct(config: Option<PrivilegedUserConfig>): (r: Outcome<Error>)
    ensures config.None? ==> r == Fail(Runtime(NullPointer))
    ensures r.Fail? && config.Some? ==> r.error == Api(ServiceUnavailable)
    ensures r.Pass? ==> Validate(config).Pass?
  {
    if config.None? then Fail(Runtime(NullPointer))
    else
      match config.value.departmentAdmins
      case None => Pass
      case Some(entries) => Need(AllComplete(entries) && KeysDistinct(entries), Api(ServiceUnavailable))
  }

  /** Every registry the stricter validation accepts yields a department-admin
      map, so no later lookup can fail. */
  lemma ValidateDistinctSound(config: PrivilegedUserConfig)
    requires ValidateDistinct(Some(config)).Pass?
    ensures DepartmentAdminsMap(config).Success?
  {
    if config.departmentAdmins.Some? {
      DepartmentAdminsMapSpec(config);
    }
  }

  /** `loadConfig` with the stricter validation. */
  function LoadConfigDistinct(loader: Loader, parsed: Result<Option<PrivilegedUserConfig>, Error>): (r: LoadResult)
    ensures r.outcome.Fail? ==> r.outcome.error == Runtime(IllegalState)
    ensures r.outcome.Pass? ==> r.loader.config.Some? && DepartmentAdminsMap(r.loader.config.value).Success?
  {
    match parsed
    case Failure(_) => LoadResult(loader, Fail(Runtime(IllegalState)))
    case Success(config) =>
      if ValidateDistinct(config).Pass? then
        ValidateDistinctSound(config.value);
        LoadResult(Loader(config), Pass)
      else LoadResult(Loader(config), Fail(Runtime(IllegalState)))
  }
}

=== FILE: requests.dfy ===
/** The document-request state machine of `DocumentRequestService`. A request
    is PENDING when created, an admin moves it to ACCEPTED or REJECTED, and
    its owner may withdraw it unless it was accepted. Every operation checks
    its guards in a fixed order and fails with the first one violated; a
    failed operation leaves the request table as it was. */
module Requests {
  import opened Wrappers
  import opened Strings
  import opened Errors
  import opened Model
  import opened Security
  import opened Filters
  import opened Sorting

  /** The outcome of an operation and the request table afterwards. */
  datatype Transition<T> = Transition(result: Result<T, Error>, requests: RequestStore)

  /** `findByUserIdAndPaperIdAndActiveStatus` is non-empty: the user already
      has a PENDING or ACCEPTED request for the paper. */
  predicate ActiveRequestExists(requests: RequestStore, userId: int, paperId: int) {
    exists id :: id in requests && requests[id].userId == userId && requests[id].paperId == paperId && IsActive(requests[id].status)
  }

  /** At most one active request per user and paper. */
  predicate ActiveUnique(requests: RequestStore) {
    forall a, b ::
      (a in requests && b in requests
       && requests[a].userId == requests[b].userId && requests[a].paperId == requests[b].paperId
       && IsActive(requests[a].status) && IsActive(requests[b].status)) ==> a == b
  }

  // ---------------------------------------------------------------- create

  /** The guards `createRequest` shares with its corrected form. */
  function CreateGuards(requests: RequestStore, paperId: Option<int>, principal: Option<Principal>): (r: Outcome<Error>)
    ensures r.Pass? <==>
      IsUserStudentOrTeacher(principal) && paperId.Some? && paperId.value > 0
      && !ActiveRequestExists(requests, principal.value.userId, paperId.value)
  {
    if !IsUserStudentOrTeacher(principal) then Fail(Api(AccessDenied))
    else if paperId.None? || paperId.value <= 0 then Fail(Api(InvalidRequest))
    else if ActiveRequestExists(requests, principal.value.userId, paperId.value) then Fail(Api(DuplicateRequest))
    else Pass
  }

  /** The stored row of a new request: PENDING, dated `now`, no reason. */
  function NewRequest(requestId: int, userId: int, paperId: int, now: int): (r: DocumentRequest)
    ensures r.status == Pending && r.rejectionReason.None?
    ensures r.requestId == requestId && r.userId == userId && r.paperId == paperId && r.requestDate == now
  {
    DocumentRequest(requestId, userId, paperId, now, Pending, None)
  }

  /** `createRequest` as written: role, paper id, duplicate, and only then
      `paperOpt.get()`, which throws `NoSuchElementException` for a paper id
      that names no paper. `freshId` is the id the database assigns. */
  function CreateRequest(requests: RequestStore, papers: PaperStore, paperId: Option<int>, principal: Option<Principal>, freshId: int, now: int)
    : (r: Transition<int>)
    requires freshId !in requests
    ensures r.result.Failure? ==> r.requests == requests
    ensures !IsUserStudentOrTeacher(principal) ==> r.result == Failure(Api(AccessDenied))
    ensures IsUserStudentOrTeacher(principal) && (paperId.None? || paperId.value <= 0) ==> r.result == Failure(Api(InvalidRequest))
    ensures CreateGuards(requests, paperId, principal).Pass? && paperId.value !in papers ==> r.result == Failure(Runtime(NoSuchElement))
    ensures r.result.Success? <==> CreateGuards(requests, paperId, principal).Pass? && paperId.value in papers
    ensures r.result.Success? ==>
      && r.result.value == freshId
      && r.requests.Keys == requests.Keys + {freshId}
      && r.requests[freshId] == NewRequest(freshId, principal.value.userId, paperId.value, now)
      && forall id :: id in requests ==> r.requests[id] == requests[id]
  {
    var guards := CreateGuards(requests, paperId, principal);
    if guards.Fail? then Transition(Failure(guards.error), requests)
    else if paperId.value !in papers then Transition(Failure(Runtime(NoSuchElement)), requests)
    else
      var request := NewRequest(freshId, principal.value.userId, paperId.value, now);
      Transition(Success(freshId), requests[freshId := request])
  }

  /** `createRequest` with the missing paper reported as `RESOURCE_NOT_FOUND`
      right after the lookup, before the duplicate check. */
  function CreateRequestChecked(requests: RequestStore, papers: PaperStore, paperId: Option<int>, principal: Option<Principal>, freshId: int, now: int)
    : (r: Transition<int>)
    requires freshId !in requests
    ensures r.result.Failure? ==> r.requests == requests && r.result.error.Api?
    ensures IsUserStudentOrTeacher(principal) && paperId.Some? && paperId.value > 0 && paperId.value !in papers ==>
      r.result == Failure(Api(ResourceNotFound))
    ensures r.result.Success? <==> CreateGuards(requests, paperId, principal).Pass? && paperId.value in papers
    ensures r.result.Success? ==> r == CreateRequest(requests, papers, paperId, principal, freshId, now)
  {
    if !IsUserStudentOrTeacher(principal) then Transition(Failure(Api(AccessDenied)), requests)
    else if paperId.None? || paperId.value <= 0 then Transition(Failure(Api(InvalidRequest)), requests)
    else if paperId.value !in papers then Transition(Failure(Api(ResourceNotFound)), requests)
    else CreateRequest(requests, papers, paperId, principal, freshId, now)
  }

  /** A student asking for a paper id that names no paper makes the as-written
      service throw instead of answering `RESOURCE_NOT_FOUND`. */
  lemma CreateRequestMissingPaperThrows(principal: Principal)
    requires principal.role == Some(Student)
    ensures CreateRequest(map[], map[], Some(7), Some(principal), 1, 0).result == Failure(Runtime(NoSuchElement))
    ensures CreateRequestChecked(map[], map[], Some(7), Some(principal), 1, 0).result == Failure(Api(ResourceNotFound))
  {
    RolePredicatesByRole(Some(principal));
  }

  /** Creating keeps the tables well formed and keeps active requests unique. */
  lemma CreatePreservesInvariants(requests: RequestStore, papers: PaperStore, paperId: Option<int>, principal: Option<Principal>, freshId: int, now: int)
    requires freshId !in requests
    requires WellFormed(papers, requests) && ActiveUnique(requests)
    ensures var r := CreateRequestChecked(requests, papers, paperId, principal, freshId, now);
      WellFormed(papers, r.requests) && ActiveUnique(r.requests)
  {
  }

  // ---------------------------------------------------------------- delete

  /** `deleteRequest`: the owner may withdraw a PENDING or REJECTED request;
      someone else's request is reported as missing, an ACCEPTED one refused. */
  function DeleteRequest(requests: RequestStore, requestId: Option<int>, principal: Option<Principal>): (r: Transition<()>)
    ensures r.result.Failure? ==> r.requests == requests
    ensures !IsUserStudentOrTeacher(principal) ==> r.result == Failure(Api(AccessDenied))
    ensures IsUserStudentOrTeacher(principal) && (requestId.None? || requestId.value <= 0) ==> r.result == Failure(Api(InvalidRequest))
    ensures (IsUserStudentOrTeacher(principal) && requestId.Some? && requestId.value > 0
             && (requestId.value !in requests || requests[requestId.value].userId != principal.value.userId)) ==>
      r.result == Failure(Api(ResourceNotFound))
    ensures r.result.Success? <==>
      IsUserStudentOrTeacher(principal) && requestId.Some? && requestId.value > 0 && requestId.value in requests
      && requests[requestId.value].userId == principal.value.userId && requests[requestId.value].status != Accepted
    ensures r.result.Success? ==> r.requests == requests - {requestId.value}
    ensures (r.result.Failure? && IsUserStudentOrTeacher(principal) && requestId.Some? && requestId.value > 0
             && requestId.value in requests && requests[requestId.value].userId == principal.value.userId) ==>
      requests[requestId.value].status == Accepted
  {
    if !IsUserStudentOrTeacher(principal) then Transition(Failure(Api(AccessDenied)), requests)
    else if requestId.None? || requestId.value <= 0 then Transition(Failure(Api(InvalidRequest)), requests)
    else if requestId.value !in requests || requests[requestId.value].userId != principal.value.userId then
      Transition(Failure(Api(ResourceNotFound)), requests)
    else
      var request := requests[requestId.value];
      if request.status == Rejected || request.status == Pending then Transition(Success(()), requests - {requestId.value})
      else
        assert request.status == Accepted;
        Transition(Failure(Api(AccessDenied)), requests)
  }

  /** Deleting keeps the tables well formed and active requests unique. */
  lemma DeletePreservesInvariants(requests: RequestStore, papers: PaperStore, requestId: Option<int>, principal: Option<Principal>)
    requires WellFormed(papers, requests) && ActiveUnique(requests)
    ensures var r := DeleteRequest(requests, requestId, principal);
      WellFormed(papers, r.requests) && ActiveUnique(r.requests)
  {
  }

  // ---------------------------------------------------------------- accept / reject

  /** What an admin does to a request. */
  datatype Decision = Accept | Reject(reason: Option<string>)

  /** The status a decision may start from: accepting needs PENDING,
      rejecting anything but REJECTED. */
  predicate MayDecide(decision: Decision, status: RequestStatus) {
    match decision
    case Accept => status == Pending
    case Reject(_) => status != Rejected
  }

  /** The request after the decision. */
  function Decided(request: DocumentRequest, decision: Decision): (r: DocumentRequest)
    ensures r.requestId == request.requestId && r.userId == request.userId && r.paperId == request.paperId
    ensures r.requestDate == request.requestDate
    ensures decision.Accept? ==> r.status == Accepted && r.rejectionReason == request.rejectionReason
    ensures decision.Reject? ==> r.status == Rejected && r.rejectionReason == decision.reason
  {
    match decision
    case Accept => request.(status := Accepted)
    case Reject(reason) => request.(status := Rejected, rejectionReason := reason)
  }

  /** A department admin may act only on papers of their own department. The
      source compares with `adminDepartmentId.equals(…)`, which throws
      `NullPointerException` when the admin has no department;
      `nullDepartment` is the error that case produces. */
  function DepartmentGuard(principal: Option<Principal>, paper: ResearchPaper, nullDepartment: Error): (r: Outcome<Error>)
    ensures !IsUserDepartmentAdmin(principal) ==> r.Pass?
    ensures IsUserDepartmentAdmin(principal) ==>
      (r.Pass? <==> GetDepartmentId(principal.value) == Some(paper.department.departmentId))
    ensures IsUserDepartmentAdmin(principal) && GetDepartmentId(principal.value).None? ==> r == Fail(nullDepartment)
    ensures (IsUserDepartmentAdmin(principal) && GetDepartmentId(principal.value).Some?
             && GetDepartmentId(principal.value) != Some(paper.department.departmentId)) ==> r == Fail(Api(AccessDenied))
  {
    if !IsUserDepartmentAdmin(principal) then Pass
    else
      var adminDepartmentId := GetDepartmentId(principal.value);
      if adminDepartmentId.None? then Fail(nullDepartment)
      else Need(adminDepartmentId.value == paper.department.departmentId, Api(AccessDenied))
  }

  /** The shared body of `acceptRequest` and `rejectRequest`: admin, request
      exists, status allows the decision, paper not archived, department;
      then the decision is saved. The request's paper exists (a foreign key). */
  function AdminDecision(
    requests: RequestStore, papers: PaperStore, requestId: int, principal: Option<Principal>,
    decision: Decision, nullDepartment: Error): (r: Transition<DocumentRequest>)
    requires RequestsReferToPapers(requests, papers)
    ensures r.result.Failure? ==> r.requests == requests
    ensures !IsUserAdmin(principal) ==> r.result == Failure(Api(AccessDenied))
    ensures IsUserAdmin(principal) && requestId !in requests ==> r.result == Failure(Api(ResourceNotFound))
    ensures IsUserAdmin(principal) && requestId in requests && !MayDecide(decision, requests[requestId].status) ==>
      r.result == Failure(Api(RequestAlreadyFinal))
    ensures (IsUserAdmin(principal) && requestId in requests && MayDecide(decision, requests[requestId].status)
             && papers[requests[requestId].paperId].archived) ==>
      r.result == Failure(Api(ResourceNotFound))
    ensures r.result.Success? <==>
      IsUserAdmin(principal) && requestId in requests && MayDecide(decision, requests[requestId].status)
      && !papers[requests[requestId].paperId].archived
      && DepartmentGuard(principal, papers[requests[requestId].paperId], nullDepartment).Pass?
    ensures r.result.Success? ==>
      && r.result.value == Decided(requests[requestId], decision)
      && r.requests == requests[requestId := r.result.value]
  {
    if !IsUserAdmin(principal) then Transition(Failure(Api(AccessDenied)), requests)
    else if requestId !in requests then Transition(Failure(Api(ResourceNotFound)), requests)
    else
      var request := requests[requestId];
      var paper := papers[request.paperId];
      if !MayDecide(decision, request.status) then Transition(Failure(Api(RequestAlreadyFinal)), requests)
      else if paper.archived then Transition(Failure(Api(ResourceNotFound)), requests)
      else
        var guard := DepartmentGuard(principal, paper, nullDepartment);
        if guard.Fail? then Transition(Failure(guard.error), requests)
        else
          var saved := Decided(request, decision);
          Transition(Success(saved), requests[requestId := saved])
  }

  /** `acceptRequest` as written. */
  function AcceptRequest(requests: RequestStore, papers: PaperStore, requestId: int, principal: Option<Principal>)
    : (r: Transition<DocumentRequest>)
    requires RequestsReferToPapers(requests, papers)
    ensures r.result.Success? ==>
      requestId in requests && requests[requestId].status == Pending && r.result.value.status == Accepted
    ensures r.result.Failure? ==> r.requests == requests
  {
    AdminDecision(requests, papers, requestId, principal, Accept, Runtime(NullPointer))
  }

  /** `rejectRequest` as written. */
  function RejectRequest(requests: RequestStore, papers: PaperStore, requestId: int, reason: Option<string>, principal: Option<Principal>)
    : (r: Transition<DocumentRequest>)
    requires RequestsReferToPapers(requests, papers)
    ensures r.result.Success? ==>
      && requestId in requests && requests[requestId].status != Rejected
      && r.result.value.status == Rejected && r.result.value.rejectionReason == reason
    ensures r.result.Failure? ==> r.requests == requests
  {
    AdminDecision(requests, papers, requestId, principal, Reject(reason), Runtime(NullPointer))
  }

  /** `acceptRequest` with a department admin who has no department refused
      with `ACCESS_DENIED`, as `getAdminRequests` does. */
  function AcceptRequestChecked(requests: RequestStore, papers: PaperStore, requestId: int, principal: Option<Principal>)
    : (r: Transition<DocumentRequest>)
    requires RequestsReferToPapers(requests, papers)
    ensures r.result.Failure? ==> r.result.error.Api?
    ensures r.result.Success? <==> AcceptRequest(requests, papers, requestId, principal).result.Success?
  {
    AdminDecision(requests, papers, requestId, principal, Accept, Api(AccessDenied))
  }

  /** `rejectRequest`, corrected in the same way. */
  function RejectRequestChecked(requests: RequestStore, papers: PaperStore, requestId: int, reason: Option<string>, principal: Option<Principal>)
    : (r: Transition<DocumentRequest>)
    requires RequestsReferToPapers(requests, papers)
    ensures r.result.Failure? ==> r.result.error.Api?
    ensures r.result.Success? <==> RejectRequest(requests, papers, requestId, reason, principal).result.Success?
  {
    AdminDecision(requests, papers, requestId, principal, Reject(reason), Api(AccessDenied))
  }

  /** A department admin without a department who tries to accept a pending
      request for a live paper makes the as-written service throw. */
  lemma DepartmentlessAdminThrows(principal: Principal, request: DocumentRequest, paper: ResearchPaper)
    requires principal.role == Some(DepartmentAdmin) && principal.department.None?
    requires request.status == Pending && !paper.archived && request.paperId == paper.paperId
    ensures var requests := map[request.requestId := request];
      var papers := map[paper.paperId := paper];
      AcceptRequest(requests, papers, request.requestId, Some(principal)).result == Failure(Runtime(NullPointer))
      && AcceptRequestChecked(requests, papers, request.requestId, Some(principal)).result == Failure(Api(AccessDenied))
  {
    RolePredicatesByRole(Some(principal));
  }

  /** Decisions keep the tables well formed and active requests unique. */
  lemma DecisionPreservesInvariants(
    requests: RequestStore, papers: PaperStore, requestId: int, principal: Option<Principal>,
    decision: Decision, nullDepartment: Error)
    requires WellFormed(papers, requests) && ActiveUnique(requests)
    ensures var r := AdminDecision(requests, papers, requestId, principal, decision, nullDepartment);
      WellFormed(papers, r.requests) && ActiveUnique(r.requests)
  {
    var r := AdminDecision(requests, papers, requestId, principal, decision, nullDepartment);
    if r.result.Success? {
      forall a, b | a in r.requests && b in r.requests
        && r.requests[a].userId == r.requests[b].userId && r.requests[a].paperId == r.requests[b].paperId
        && IsActive(r.requests[a].status) && IsActive(r.requests[b].status)
        ensures a == b
      {
        assert IsActive(requests[a].status) && IsActive(requests[b].status);
      }
    }
  }

  /** REJECTED is terminal: neither decision changes a rejected request. */
  lemma RejectedIsTerminal(
    requests: RequestStore, papers: PaperStore, requestId: int, principal: Option<Principal>,
    decision: Decision, nullDepartment: Error)
    requires RequestsReferToPapers(requests, papers)
    requires requestId in requests && requests[requestId].status == Rejected
    ensures var r := AdminDecision(requests, papers, requestId, principal, decision, nullDepartment);
      r.requests == requests && r.result.Failure?
  {
  }

  /** An accepted request can still be rejected, but never withdrawn by its owner. */
  lemma AcceptedCanOnlyBeRejected(
    requests: RequestStore, papers: PaperStore, requestId: int, principal: Option<Principal>)
    requires RequestsReferToPapers(requests, papers)
    requires requestId in requests && requests[requestId].status == Accepted
    ensures AcceptRequest(requests, papers, requestId, principal).result.Failure?
    ensures DeleteRequest(requests, Some(requestId), principal).result.Failure?
    ensures IsUserSuperAdmin(principal) && !papers[requests[requestId].paperId].archived ==>
      RejectRequest(requests, papers, requestId, None, principal).result.Success?
  {
    RolePredicatesByRole(principal);
  }

  // ---------------------------------------------------------------- reads

  /** `id` is a request of `userId` for `paperId`. */
  predicate RequestOf(requests: RequestStore, userId: int, paperId: int, id: int) {
    id in requests && requests[id].userId == userId && requests[id].paperId == paperId
  }

  /** `id` is the one request of `userId` for `paperId`. */
  ghost predicate OnlyRequestOf(requests: RequestStore, userId: int, paperId: int, id: int) {
    RequestOf(requests, userId, paperId, id) && forall other :: RequestOf(requests, userId, paperId, other) ==> other == id
  }

  /** A student or teacher asks about a valid id of a live paper. */
  predicate LivePaperAsked(papers: PaperStore, paperId: Option<int>, principal: Option<Principal>) {
    IsUserStudentOrTeacher(principal) && paperId.Some? && paperId.value > 0
    && paperId.value in papers && !papers[paperId.value].archived
  }

  /** `getUserRequestForPaper`. The lookup `findByUserIdAndPaperId` returns an
      `Optional`, so two matching rows make it throw
      `IncorrectResultSizeDataAccessException`. */
  function GetUserRequestForPaper(requests: RequestStore, papers: PaperStore, paperId: Option<int>, principal: Option<Principal>)
    : (r: Result<DocumentRequest, Error>)
    ensures !IsUserStudentOrTeacher(principal) ==> r == Failure(Api(AccessDenied))
    ensures IsUserStudentOrTeacher(principal) && (paperId.None? || paperId.value <= 0) ==> r == Failure(Api(InvalidRequest))
    ensures (IsUserStudentOrTeacher(principal) && paperId.Some? && paperId.value > 0
             && (paperId.value !in papers || papers[paperId.value].archived)) ==> r == Failure(Api(ResourceNotFound))
    ensures LivePaperAsked(papers, paperId, principal) && (forall id :: !RequestOf(requests, principal.value.userId, paperId.value, id)) ==>
      r == Failure(Api(ResourceNotFound))
    ensures forall id :: LivePaperAsked(papers, paperId, principal) && OnlyRequestOf(requests, principal.value.userId, paperId.value, id) ==>
      r == Success(requests[id])
    ensures forall a, b ::
      (LivePaperAsked(papers, paperId, principal)
       && RequestOf(requests, principal.value.userId, paperId.value, a) && RequestOf(requests, principal.value.userId, paperId.value, b)
       && a != b) ==> r == Failure(Runtime(IncorrectResultSize))
    ensures r.Success? ==>
      && LivePaperAsked(papers, paperId, principal)
      && r.value in requests.Values
      && r.value.userId == principal.value.userId && r.value.paperId == paperId.value
      && forall id :: id in requests && requests[id].userId == principal.value.userId && requests[id].paperId == paperId.value
           ==> requests[id] == r.value
  {
    if !IsUserStudentOrTeacher(principal) then Failure(Api(AccessDenied))
    else if paperId.None? || paperId.value <= 0 then Failure(Api(InvalidRequest))
    else if paperId.value !in papers || papers[paperId.value].archived then Failure(Api(ResourceNotFound))
    else
      var userId := principal.value.userId;
      if !exists id :: id in requests && RequestOf(requests, userId, paperId.value, id) then Failure(Api(ResourceNotFound))
      else
        var id :| id in requests && RequestOf(requests, userId, paperId.value, id);
        if exists other :: other in requests && RequestOf(requests, userId, paperId.value, other) && other != id then
          Failure(Runtime(IncorrectResultSize))
        else Success(requests[id])
  }

  /** Asking again after a rejection: the rejected request and the new pending
      one both match, and the lookup throws. */
  lemma RequestAfterRejectionThrows(principal: Principal, paper: ResearchPaper)
    requires principal.role == Some(Teacher) && paper.paperId == 5 && !paper.archived
    ensures var requests := map[
        1 := DocumentRequest(1, principal.userId, 5, 0, Rejected, Some("no")),
        2 := DocumentRequest(2, principal.userId, 5, 1, Pending, None)];
      GetUserRequestForPaper(requests, map[5 := paper], Some(5), Some(principal)) == Failure(Runtime(IncorrectResultSize))
  {
    RolePredicatesByRole(Some(principal));
    var requests := map[
        1 := DocumentRequest(1, principal.userId, 5, 0, Rejected, Some("no")),
        2 := DocumentRequest(2, principal.userId, 5, 1, Pending, None)];
    var ids := set id | id in requests && requests[id].userId == principal.userId && requests[id].paperId == 5;
    assert 1 in ids && 2 in ids;
  }

  /** A first request for a live paper is the one the caller then finds. */
  lemma FirstRequestIsFound(
    requests: RequestStore, papers: PaperStore, paperId: Option<int>, principal: Option<Principal>, freshId: int, now: int)
    requires freshId !in requests
    requires LivePaperAsked(papers, paperId, principal)
    requires forall id :: !RequestOf(requests, principal.value.userId, paperId.value, id)
    ensures var created := CreateRequestChecked(requests, papers, paperId, principal, freshId, now);
      && created.result == Success(freshId)
      && GetUserRequestForPaper(created.requests, papers, paperId, principal)
         == Success(NewRequest(freshId, principal.value.userId, paperId.value, now))
  {
    var userId := principal.value.userId;
    var created := CreateRequestChecked(requests, papers, paperId, principal, freshId, now);
    forall id | id in requests
      ensures !(requests[id].userId == userId && requests[id].paperId == paperId.value)
    {
      assert !RequestOf(requests, userId, paperId.value, id);
    }
    assert created.result == Success(freshId);
    forall other
      ensures other != freshId ==>
        (RequestOf(created.requests, userId, paperId.value, other) <==> RequestOf(requests, userId, paperId.value, other))
    {
      if other != freshId && other in requests {
        assert created.requests[other] == requests[other];
      }
    }
    assert OnlyRequestOf(created.requests, userId, paperId.value, freshId);
  }

  /** `getUserDepartmentIdIfDepartmentAdmin`. */
  function DepartmentIdIfDepartmentAdmin(principal: Option<Principal>): (r: Result<Option<int>, Error>)
    ensures !IsUserDepartmentAdmin(principal) ==> r == Success(None)
    ensures IsUserDepartmentAdmin(principal) ==>
      match GetDepartmentId(principal.value)
      case None => r == Failure(Api(AccessDenied))
      case Some(d) => r == Success(Some(d))
  {
    if !IsUserDepartmentAdmin(principal) then Success(None)
    else
      var departmentId := GetDepartmentId(principal.value);
      if departmentId.None? then Failure(Api(AccessDenied)) else Success(departmentId)
  }

  /** The department filter `getAdminRequests` applies: a super admin's is the
      one asked for, a department admin's is their own. */
  function AdminDepartmentFilter(departmentId: Option<int>, principal: Option<Principal>): (r: Result<Option<int>, Error>)
    ensures !IsUserAdmin(principal) ==> r == Failure(Api(AccessDenied))
    ensures IsUserSuperAdmin(principal) ==> r == Success(departmentId)
    ensures IsUserDepartmentAdmin(principal) ==>
      (r.Success? <==> GetDepartmentId(principal.value).Some?)
      && (r.Success? ==> r.value == GetDepartmentId(principal.value))
  {
    RolePredicatesByRole(principal);
    if !IsUserAdmin(principal) then Failure(Api(AccessDenied))
    else if IsUserSuperAdmin(principal) then Success(departmentId)
    else DepartmentIdIfDepartmentAdmin(principal)
  }

  /** `getAdminRequests`: the ids of the requests the admin filter accepts,
      before paging and sorting. */
  function GetAdminRequests(
    requests: RequestStore, papers: PaperStore, departmentId: Option<int>,
    statuses: Option<seq<RequestStatus>>, principal: Option<Principal>)
    : (r: Result<set<int>, Error>)
    ensures r.Success? <==> AdminDepartmentFilter(departmentId, principal).Success?
    ensures r.Success? ==> forall id :: id in r.value <==>
      id in requests && requests[id].paperId in papers
      && AdminRequestFilter(AdminDepartmentFilter(departmentId, principal).value, statuses, requests[id], papers[requests[id].paperId])
  {
    var filter :- AdminDepartmentFilter(departmentId, principal);
    Success(set id | id in requests && requests[id].paperId in papers
                  && AdminRequestFilter(filter, statuses, requests[id], papers[requests[id].paperId]))
  }

  /** A department admin sees only requests for papers of their department,
      whatever department they ask for. */
  lemma DepartmentAdminScoped(
    requests: RequestStore, papers: PaperStore, departmentId: Option<int>,
    statuses: Option<seq<RequestStatus>>, principal: Option<Principal>)
    requires IsUserDepartmentAdmin(principal)
    ensures var r := GetAdminRequests(requests, papers, departmentId, statuses, principal);
      (r.Success? <==> principal.value.department.Some?)
      && (r.Success? ==> forall id :: id in r.value ==>
            papers[requests[id].paperId].department.departmentId == principal.value.department.value.departmentId)
  {
    RolePredicatesByRole(principal);
  }

  /** `createSort` of the request listings. */
  const RequestSortFields: map<string, string> :=
    map["createdAt" := "createdAt", "status" := "status", "paper.title" := "paper.title", "userId" := "user.userId"]

  function RequestSort(sortBy: Option<string>, sortOrder: Option<string>): (r: Sort)
    ensures r.field in {"createdAt", "status", "paper.title", "user.userId"}
    ensures r.direction == DirectionOf(sortOrder)
  {
    CreateSort(sortBy, sortOrder, RequestSortFields, "createdAt")
  }

  /** The listing accepts "userId" as a sort key and maps it to the user's
      id, but "user.fullName", which the search form allows, falls back to
      the creation date. */
  lemma RequestSortKeys()
    ensures RequestSort(Some("userId"), None).field == "user.userId"
    ensures RequestSort(Some("user.fullName"), None).field == "createdAt"
    ensures RequestSort(None, Some("ASC")) == Sort(Asc, "createdAt")
  {
    assert !IsBlank("userId") by {
      BlankIffAllSpace("userId");
      assert !IsSpace("userId"[0]);
    }
    assert !IsBlank("user.fullName") by {
      BlankIffAllSpace("user.fullName");
      assert !IsSpace("user.fullName"[0]);
    }
    assert "userId" in RequestSortFields && RequestSortFields["userId"] == "user.userId";
    assert "user.fullName" !in RequestSortFields by {
      assert |"user.fullName"| == 13;
      assert |"createdAt"| == 9 && |"status"| == 6 && |"paper.title"| == 11 && |"userId"| == 6;
    }
    assert ToLower("ASC") == "asc";
  }
}

=== FILE: security.dfy ===
/** The authenticated principal built from an access token, its granted
    authorities, and the role predicates every service uses for
    authorisation. */
module Security {
  import opened Wrappers
  import opened Strings
  import opened Model

  /** A claim value as the token carries it: text, a number, or an instant
      (seconds since the epoch). */
  datatype ClaimValue = Str(text: string) | Num(number: int) | Time(seconds: int)

  type Claims = map<string, ClaimValue>

  /** The minimal `Department` the converter attaches: only its id is set. */
  datatype DepartmentRef = DepartmentRef(departmentId: int)

  /** A `CustomUserPrincipal`: the user fields taken from the token (any of the
      claim-derived ones may be null) and the claims as attributes. */
  datatype Principal = Principal(
    userId: int,
    email: Option<string>,
    fullName: Option<string>,
    role: Option<UserRole>,
    department: Option<DepartmentRef>,
    profilePictureUrl: Option<string>,
    attributes: Claims)

  const RolePrefix: string := "ROLE_"

  /** `extractAuthorities`: one `ROLE_<name>` authority for a non-null role,
      none otherwise. */
  function Authorities(p: Principal): (r: seq<string>)
    ensures p.role.None? <==> r == []
    ensures p.role.Some? ==> |r| == 1 && StartsWith(r[0], RolePrefix)
  {
    if p.role.Some? then [RolePrefix + RoleName(p.role.value)] else []
  }

  /** The authority names the principal's role back: stripping `ROLE_` and
      reading the rest with `valueOf` gives the role. */
  lemma AuthorityNamesRole(p: Principal)
    requires p.role.Some?
    ensures RoleValueOf(Authorities(p)[0][|RolePrefix|..]) == p.role
  {
    var a := Authorities(p)[0];
    assert a[|RolePrefix|..] == RoleName(p.role.value);
    RoleNameRoundTrip(p.role.value);
  }

  /** `getDepartmentId`: null when there is no department, else its id. */
  function GetDepartmentId(p: Principal): (r: Option<int>)
    ensures r.None? <==> p.department.None?
    ensures r.Some? ==> r.value == p.department.value.departmentId
  {
    match p.department
    case None => None
    case Some(d) => Some(d.departmentId)
  }

  /** `getName`: the user id in decimal. */
  function GetName(p: Principal): (r: string)
    ensures |r| >= 1
  {
    IntToString(p.userId)
  }

  /** The name parses back to the user id. */
  lemma GetNameIdentifiesUser(p: Principal)
    requires IsInt32(p.userId)
    ensures ParseInt(Some(GetName(p))) == Some(p.userId)
  {
    ParseIntToString(p.userId);
  }

  // ---------------------------------------------------------------- role predicates

  /** The loop in `hasRole`: the (possibly null) role equals one of `roles`. */
  function RoleAmong(role: Option<UserRole>, roles: seq<UserRole>): (r: bool)
    ensures r <==> role.Some? && role.value in roles
  {
    if |roles| == 0 then false
    else if role == Some(roles[0]) then true
    else RoleAmong(role, roles[1..])
  }

  /** `hasRole`: false for a null principal, otherwise whether its role is one
      of `roles`. */
  predicate HasRole(p: Option<Principal>, roles: seq<UserRole>) {
    p.Some? && RoleAmong(p.value.role, roles)
  }

  /** The `RoleBasedAccess` checks: each holds exactly when the principal's
      role is one of the listed ones; a null principal or role has none. */
  function IsUserStudentOrTeacher(p: Option<Principal>): (b: bool)
    ensures b <==> RoleOf(p) == Some(Student) || RoleOf(p) == Some(Teacher)
  {
    HasRole(p, [Student, Teacher])
  }

  function IsUserAdmin(p: Option<Principal>): (b: bool)
    ensures b <==> RoleOf(p) == Some(DepartmentAdmin) || RoleOf(p) == Some(SuperAdmin)
  {
    HasRole(p, [DepartmentAdmin, SuperAdmin])
  }

  function IsUserStudent(p: Option<Principal>): (b: bool)
    ensures b <==> RoleOf(p) == Some(Student)
  {
    HasRole(p, [Student])
  }

  function IsUserTeacher(p: Option<Principal>): (b: bool)
    ensures b <==> RoleOf(p) == Some(Teacher)
  {
    HasRole(p, [Teacher])
  }

  function IsUserDepartmentAdmin(p: Option<Principal>): (b: bool)
    ensures b <==> RoleOf(p) == Some(DepartmentAdmin)
  {
    HasRole(p, [DepartmentAdmin])
  }

  function IsUserSuperAdmin(p: Option<Principal>): (b: bool)
    ensures b <==> RoleOf(p) == Some(SuperAdmin)
  {
    HasRole(p, [SuperAdmin])
  }

  /** The principal's role, null when either the principal or its role is. */
  function RoleOf(p: Option<Principal>): Option<UserRole> {
    if p.Some? then p.value.role else None
  }

  /** Each predicate is a test on the role alone, and a null principal or a
      null role satisfies none of them. */
  lemma RolePredicatesByRole(p: Option<Principal>)
    ensures IsUserStudentOrTeacher(p) <==> RoleOf(p) == Some(Student) || RoleOf(p) == Some(Teacher)
    ensures IsUserAdmin(p) <==> RoleOf(p) == Some(DepartmentAdmin) || RoleOf(p) == Some(SuperAdmin)
    ensures IsUserStudent(p) <==> RoleOf(p) == Some(Student)
    ensures IsUserTeacher(p) <==> RoleOf(p) == Some(Teacher)
    ensures IsUserDepartmentAdmin(p) <==> RoleOf(p) == Some(DepartmentAdmin)
    ensures IsUserSuperAdmin(p) <==> RoleOf(p) == Some(SuperAdmin)
  {
  }

  /** A principal with a role is either an administrator or a student/teacher,
      never both; without one (or without a principal) it is neither. */
  lemma AdminOrStudentTeacher(p: Option<Principal>)
    ensures RoleOf(p).Some? ==> (IsUserAdmin(p) <==> !IsUserStudentOrTeacher(p))
    ensures RoleOf(p).None? ==> !IsUserAdmin(p) && !IsUserStudentOrTeacher(p)
  {
    RolePredicatesByRole(p);
    if RoleOf(p).Some? {
      match RoleOf(p).value
      case Student =>
      case Teacher =>
      case DepartmentAdmin =>
      case SuperAdmin =>
    }
  }

  /** The two-role predicates are the unions of the one-role predicates. */
  lemma CompositePredicates(p: Option<Principal>)
    ensures IsUserAdmin(p) <==> IsUserDepartmentAdmin(p) || IsUserSuperAdmin(p)
    ensures IsUserStudentOrTeacher(p) <==> IsUserStudent(p) || IsUserTeacher(p)
  {
  }
}

=== FILE: sorting.dfy ===
/** Sorting and query-parameter handling shared by the listing endpoints:
    `SortUtil`, `RequestParamValidator`, the two sort-field enums and the two
    search-request objects with their bean-validation constraints and
    `toPageable`. */
module Sorting {
  import opened Wrappers
  import opened Strings
  import opened Errors

  datatype Direction = Asc | Desc

  /** `Sort.by(direction, field)`. */
  datatype Sort = Sort(direction: Direction, field: string)

  /** `PageRequest.of(page, size, sort)`. */
  datatype Pageable = Pageable(page: int, size: int, sort: Sort)

  /** `"asc".equalsIgnoreCase(sortOrder) ? ASC : DESC`. */
  function DirectionOf(sortOrder: Option<string>): (d: Direction)
    ensures d == Asc <==> sortOrder.Some? && ToLower(sortOrder.value) == "asc"
  {
    if EqualsIgnoreCase("asc", sortOrder) then Asc else Desc
  }

  // ---------------------------------------------------------------- SortUtil

  /** `SortUtil.createSort(sortBy, sortOrder, allowedFields, defaultField)`:
      a null or blank field becomes the default, then the field is looked up
      in `allowedFields`, falling back to the default. */
  function CreateSort(sortBy: Option<string>, sortOrder: Option<string>, allowedFields: map<string, string>, defaultField: string)
    : (r: Sort)
    ensures r.field in allowedFields.Values || r.field == defaultField
    ensures r.direction == DirectionOf(sortOrder)
    ensures sortBy.Some? && !IsBlank(sortBy.value) && sortBy.value in allowedFields ==>
      r.field == allowedFields[sortBy.value]
    ensures sortBy.Some? && !IsBlank(sortBy.value) && sortBy.value !in allowedFields ==>
      r.field == defaultField
  {
    var key := if sortBy.None? || IsBlank(sortBy.value) then defaultField else sortBy.value;
    var field := if key in allowedFields then allowedFields[key] else defaultField;
    Sort(DirectionOf(sortOrder), field)
  }

  /** The three-argument overload: `createSort(sortBy, "desc", …)`. */
  function CreateSortDescending(sortBy: Option<string>, allowedFields: map<string, string>, defaultField: string)
    : (r: Sort)
    ensures r.direction == Desc
    ensures r == CreateSort(sortBy, Some("desc"), allowedFields, defaultField)
  {
    CreateSort(sortBy, Some("desc"), allowedFields, defaultField)
  }

  /** A missing or blank sort field is read as the default field, which is
      itself looked up in the map. */
  lemma BlankSortByUsesDefault(sortBy: Option<string>, sortOrder: Option<string>, allowedFields: map<string, string>, defaultField: string)
    requires sortBy.None? || IsBlank(sortBy.value)
    ensures CreateSort(sortBy, sortOrder, allowedFields, defaultField).field
      == (if defaultField in allowedFields then allowedFields[defaultField] else defaultField)
  {
  }

  // ---------------------------------------------------------------- RequestParamValidator

  /** `validatePagination`. */
  function ValidatePagination(page: int, size: int): (r: Outcome<Error>)
    ensures r.Pass? <==> page >= 0 && 1 <= size <= 100
    ensures r.Fail? ==> r.error == Api(InvalidRequest)
  {
    if page < 0 then Fail(Api(InvalidRequest))
    else if size <= 0 || size > 100 then Fail(Api(InvalidRequest))
    else Pass
  }

  /** `isValidSortByField`: exact, case-sensitive membership; null is valid. */
  function IsValidSortByField(field: Option<string>, allowedFields: seq<string>): (r: bool)
    ensures r <==> field.None? || exists i :: 0 <= i < |allowedFields| && allowedFields[i] == field.value
  {
    field.None? || field.value in allowedFields
  }

  /** `validateSortParams`: the field is checked first, then the order, which
      must be "asc" or "desc" in any case and may not be null. */
  function ValidateSortParams(sortBy: Option<string>, sortOrder: Option<string>, allowedFields: seq<string>)
    : (r: Outcome<Error>)
    ensures r.Pass? <==>
      (sortBy.None? || sortBy.value in allowedFields)
      && sortOrder.Some? && (ToLower(sortOrder.value) == "asc" || ToLower(sortOrder.value) == "desc")
    ensures r.Fail? ==> r.error == Api(InvalidRequest)
  {
    if sortBy.Some? && !IsValidSortByField(sortBy, allowedFields) then Fail(Api(InvalidRequest))
    else if !EqualsIgnoreCase("asc", sortOrder) && !EqualsIgnoreCase("desc", sortOrder) then Fail(Api(InvalidRequest))
    else Pass
  }

  /** One status matches some allowed status, ignoring case. */
  predicate StatusAllowed(status: string, allowedStatuses: seq<string>) {
    exists j :: 0 <= j < |allowedStatuses| && EqualsIgnoreCase(status, Some(allowedStatuses[j]))
  }

  /** Every split piece, trimmed, is an allowed status. */
  predicate AllPiecesAllowed(pieces: seq<string>, allowedStatuses: seq<string>) {
    forall i :: 0 <= i < |pieces| ==> StatusAllowed(Trim(pieces[i]), allowedStatuses)
  }

  /** `validateStatus`: a null or blank string passes; otherwise each
      comma-separated piece, trimmed, must equal an allowed status ignoring
      case. The split is Java's, which drops trailing empty pieces. */
  function ValidateStatus(statusStr: Option<string>, allowedStatuses: seq<string>): (r: Outcome<Error>)
    ensures statusStr.None? || IsBlank(statusStr.value) ==> r.Pass?
    ensures statusStr.Some? && !IsBlank(statusStr.value) ==>
      (r.Pass? <==> forall i :: 0 <= i < |JavaSplit(statusStr.value, ',')| ==>
                      StatusAllowed(Trim(JavaSplit(statusStr.value, ',')[i]), allowedStatuses))
    ensures r.Fail? ==> r.error == Api(InvalidRequest)
  {
    if statusStr.None? || IsBlank(statusStr.value) then Pass
    else Need(AllPiecesAllowed(JavaSplit(statusStr.value, ','), allowedStatuses), Api(InvalidRequest))
  }

  /** Splitting a comma-joined list gives the list back, when no piece holds a
      comma. */
  lemma {:induction false} SplitAllJoin(pieces: seq<string>, sep: char)
    requires |pieces| >= 1
    requires forall i :: 0 <= i < |pieces| ==> sep !in pieces[i]
    ensures SplitAll(Join(pieces, sep), sep) == pieces
    decreases |pieces|
  {
    if |pieces| > 1 {
      var p := pieces[0];
      var rest := Join(pieces[1..], sep);
      var s := p + [sep] + rest;
      assert Join(pieces, sep) == s;
      FirstSeparatorEndsPiece(p, sep, rest);
      assert s[..|p|] == p && s[|p| + 1..] == rest;
      assert SplitAll(s, sep) == [p] + SplitAll(rest, sep);
      SplitAllJoin(pieces[1..], sep);
      assert pieces == [p] + pieces[1..];
    } else {
      assert Join(pieces, sep) == pieces[0];
    }
  }

  /** The first separator of `p + [sep] + rest` is the one after `p`, when
      `p` holds none. */
  lemma FirstSeparatorEndsPiece(p: string, sep: char, rest: string)
    requires sep !in p
    ensures sep in p + [sep] + rest && FirstIndex(p + [sep] + rest, sep) == |p|
  {
    var s := p + [sep] + rest;
    assert s[|p|] == sep;
    assert forall j :: 0 <= j < |p| ==> s[j] == p[j];
  }

  /** Java's split of a joined list gives back a prefix of the list: the
      pieces up to the last non-empty one. */
  lemma JavaSplitJoin(pieces: seq<string>, sep: char)
    requires |pieces| >= 1
    requires forall i :: 0 <= i < |pieces| ==> sep !in pieces[i]
    ensures var r := JavaSplit(Join(pieces, sep), sep);
      |r| <= |pieces| && r == pieces[..|r|]
  {
    if sep in Join(pieces, sep) {
      SplitAllJoin(pieces, sep);
    }
  }

  /** A comma-separated list of allowed statuses, in any case, passes. */
  lemma JoinedStatusesAccepted(pieces: seq<string>, allowedStatuses: seq<string>)
    requires |pieces| >= 1
    requires forall i :: 0 <= i < |pieces| ==> ',' !in pieces[i] && Trim(pieces[i]) in allowedStatuses
    ensures ValidateStatus(Some(Join(pieces, ',')), allowedStatuses).Pass?
  {
    var split := JavaSplit(Join(pieces, ','), ',');
    JavaSplitJoin(pieces, ',');
    forall i | 0 <= i < |split|
      ensures StatusAllowed(Trim(split[i]), allowedStatuses)
    {
      assert split[i] == pieces[i];
      var j :| 0 <= j < |allowedStatuses| && allowedStatuses[j] == Trim(pieces[i]);
      assert EqualsIgnoreCase(Trim(split[i]), Some(allowedStatuses[j]));
    }
  }

  /** A lone comma splits into no pieces at all, so it passes. */
  lemma LoneCommaAccepted()
    ensures ValidateStatus(Some(","), ["P"]).Pass?
  {
    assert TrimStart(",") == ",";
    assert FirstIndex(",", ',') == 0;
    assert SplitAll(",", ',') == ["", ""];
    assert JavaSplit(",", ',') == [];
  }

  /** A piece that trims to nothing before the last one is refused. */
  lemma LeadingEmptyPieceRefused()
    ensures ValidateStatus(Some(",a"), ["a"]).Fail?
  {
    assert TrimStart(",a") == ",a";
    assert FirstIndex(",a", ',') == 0;
    assert SplitAll(",a", ',') == ["", "a"];
    assert JavaSplit(",a", ',')[0] == "";
    assert Trim("") == "";
    assert !StatusAllowed("", ["a"]) by {
      assert |ToLower("a")| == 1;
    }
  }

  // ---------------------------------------------------------------- sort-field enums

  /** One enum constant: its API name and the entity field it sorts by. */
  datatype SortField = SortField(apiField: string, entityField: string)

  /** `ResearchPaperSortField.values()`. */
  const PaperSortFields: seq<SortField> := [
    SortField("title", "title"),
    SortField("authorName", "authorName"),
    SortField("submissionDate", "submissionDate")]

  /** `DocumentRequestSortField.values()`. */
  const RequestSortFields: seq<SortField> := [
    SortField("createdAt", "createdAt"),
    SortField("status", "status"),
    SortField("paper.title", "paper.title"),
    SortField("user.fullName", "user.fullName")]

  /** `fromApiField`: the entity field of the first constant whose API name
      equals the argument ignoring case, otherwise the default. */
  function FromApiField(fields: seq<SortField>, apiField: Option<string>, defaultField: string): (r: string)
    ensures r == defaultField || exists i :: 0 <= i < |fields| && fields[i].entityField == r
    ensures (exists i :: 0 <= i < |fields| && EqualsIgnoreCase(fields[i].apiField, apiField)) ==>
      exists i :: 0 <= i < |fields| && EqualsIgnoreCase(fields[i].apiField, apiField) && fields[i].entityField == r
    ensures (forall i :: 0 <= i < |fields| ==> !EqualsIgnoreCase(fields[i].apiField, apiField)) ==> r == defaultField
    ensures forall i :: (0 <= i < |fields| && EqualsIgnoreCase(fields[i].apiField, apiField) &&
      (forall j :: 0 <= j < i ==> !EqualsIgnoreCase(fields[j].apiField, apiField))) ==> r == fields[i].entityField
  {
    if |fields| == 0 then defaultField
    else if EqualsIgnoreCase(fields[0].apiField, apiField) then fields[0].entityField
    else
      var r := FromApiField(fields[1..], apiField, defaultField);
      assert forall i :: 1 <= i < |fields| ==> fields[i] == fields[1..][i - 1];
      r
  }

  /** Every constant sorts by its own API name. */
  predicate SelfNamed(fields: seq<SortField>) {
    forall i :: 0 <= i < |fields| ==> fields[i].entityField == fields[i].apiField
  }

  /** A field name that differs only in case from some constant's API name is
      mapped to that constant's name, whichever constant the loop meets first. */
  lemma FromApiFieldCanonical(fields: seq<SortField>, name: string, defaultField: string)
    requires SelfNamed(fields)
    requires exists i :: 0 <= i < |fields| && ToLower(fields[i].apiField) == ToLower(name)
    ensures ToLower(FromApiField(fields, Some(name), defaultField)) == ToLower(name)
  {
  }

  /** The paper and request constants are self-named, so every canonical name
      maps to itself, as do its other spellings' lower-case forms, and no
      spelling outside the enum slips through. */
  lemma SortFieldTables()
    ensures SelfNamed(PaperSortFields) && SelfNamed(RequestSortFields)
    ensures FromApiField(PaperSortFields, Some("TITLE"), "submissionDate") == "title"
    ensures FromApiField(PaperSortFields, None, "submissionDate") == "submissionDate"
    ensures FromApiField(RequestSortFields, Some("paper_title"), "createdAt") == "createdAt"
  {
    SortFieldsSelfNamed();
    UpperTitleSortsByTitle();
    MissingFieldSortsByDefault();
    UnderscoreTitleNamesNoRequestField();
  }

  lemma SortFieldsSelfNamed()
    ensures SelfNamed(PaperSortFields) && SelfNamed(RequestSortFields)
  {
  }

  /** No sort field names no constant. */
  lemma MissingFieldSortsByDefault()
    ensures FromApiField(PaperSortFields, None, "submissionDate") == "submissionDate"
  {
  }

  /** The first paper constant, "title", matches "TITLE". */
  lemma UpperTitleSortsByTitle()
    ensures FromApiField(PaperSortFields, Some("TITLE"), "submissionDate") == "title"
  {
    assert ToLower("TITLE") == "title" == ToLower("title");
    assert EqualsIgnoreCase(PaperSortFields[0].apiField, Some("TITLE"));
  }

  /** "paper_title" equals no request constant's name in any case. */
  lemma UnderscoreTitleNamesNoRequestField()
    ensures FromApiField(RequestSortFields, Some("paper_title"), "createdAt") == "createdAt"
  {
    var key := ToLower("paper_title");
    assert |key| == 11 && key[5] == '_';
    assert ToLower("paper.title")[5] == '.';
    assert |ToLower("createdAt")| == 9 && |ToLower("status")| == 6 && |ToLower("user.fullName")| == 13;
    forall i | 0 <= i < |RequestSortFields|
      ensures !EqualsIgnoreCase(RequestSortFields[i].apiField, Some("paper_title"))
    {
    }
  }

  // ---------------------------------------------------------------- search requests

  /** `ResearchPaperSearchRequest`. */
  datatype PaperSearchRequest = PaperSearchRequest(
    search: Option<string>,
    departmentId: Option<seq<int>>,
    year: Option<seq<int>>,
    archived: Option<bool>,
    page: int,
    size: int,
    sortBy: Option<string>,
    sortOrder: Option<string>)

  /** A request whose only parameters are the filters: the field defaults apply. */
  function DefaultPaperSearch(search: Option<string>, departmentId: Option<seq<int>>, year: Option<seq<int>>, archived: Option<bool>)
    : (r: PaperSearchRequest)
    ensures r.page == 0 && r.size == 20
    ensures r.sortBy == Some("submissionDate") && r.sortOrder == Some("desc")
    ensures r.search == search && r.departmentId == departmentId && r.year == year && r.archived == archived
  {
    PaperSearchRequest(search, departmentId, year, archived, 0, 20, Some("submissionDate"), Some("desc"))
  }

  /** `(?i)asc|desc`, a whole-string match; null satisfies `@Pattern`. */
  predicate SortOrderPattern(sortOrder: Option<string>) {
    sortOrder.None? || ToLower(sortOrder.value) == "asc" || ToLower(sortOrder.value) == "desc"
  }

  /** `submissionDate|title|authorName`. */
  predicate PaperSortByPattern(sortBy: Option<string>) {
    sortBy.None? || sortBy.value in ["submissionDate", "title", "authorName"]
  }

  /** The characters `java.util.regex` treats as line terminators when
      neither `DOTALL` nor `UNIX_LINES` is set. */
  predicate IsLineTerminator(c: char) {
    c == '\n' || c == '\r' || c == '\U{85}' || c == '\U{2028}' || c == '\U{2029}'
  }

  /** Matches `text` with each `.` of `pattern` standing for any one
      character other than a line terminator. */
  predicate DotMatch(text: string, pattern: string) {
    |text| == |pattern|
    && forall i :: 0 <= i < |text| ==> (pattern[i] == '.' && !IsLineTerminator(text[i])) || text[i] == pattern[i]
  }

  /** `createdAt|status|paper.title|user.fullName`, where `.` is the regular-
      expression wildcard. */
  predicate RequestSortByPattern(sortBy: Option<string>) {
    sortBy.None?
    || sortBy.value == "createdAt" || sortBy.value == "status"
    || DotMatch(sortBy.value, "paper.title") || DotMatch(sortBy.value, "user.fullName")
  }

  /** The bean-validation constraints of `ResearchPaperSearchRequest`. */
  predicate ValidPaperSearch(r: PaperSearchRequest) {
    && r.page >= 0
    && 1 <= r.size <= 100
    && (r.year.Some? ==> forall i :: 0 <= i < |r.year.value| ==> 1900 <= r.year.value[i] <= 2100)
    && PaperSortByPattern(r.sortBy)
    && SortOrderPattern(r.sortOrder)
  }

  /** `PageRequest.of` refuses a negative page or a size below one. */
  function PageRequestOf(page: int, size: int, sort: Sort): (r: Result<Pageable, Error>)
    ensures r.Success? <==> page >= 0 && size >= 1
    ensures r.Success? ==> r.value == Pageable(page, size, sort)
    ensures r.Failure? ==> r.error == Runtime(IllegalArgument)
  {
    if page < 0 || size < 1 then Failure(Runtime(IllegalArgument)) else Success(Pageable(page, size, sort))
  }

  /** `ResearchPaperSearchRequest.toPageable`. */
  function PaperToPageable(r: PaperSearchRequest): (p: Result<Pageable, Error>)
    ensures p.Success? <==> r.page >= 0 && r.size >= 1
    ensures p.Success? ==> p.value.page == r.page && p.value.size == r.size
    ensures p.Success? ==> p.value.sort.direction == DirectionOf(r.sortOrder)
    ensures p.Success? ==> p.value.sort.field == FromApiField(PaperSortFields, r.sortBy, "submissionDate")
  {
    PageRequestOf(r.page, r.size, Sort(DirectionOf(r.sortOrder), FromApiField(PaperSortFields, r.sortBy, "submissionDate")))
  }

  /** A valid paper search sorts by exactly the field it names (the default
      when it names none), in the direction it names. */
  lemma ValidPaperSearchSortsAsRequested(r: PaperSearchRequest)
    requires ValidPaperSearch(r)
    ensures PaperToPageable(r).Success?
    ensures PaperToPageable(r).value.sort.field == (if r.sortBy.Some? then r.sortBy.value else "submissionDate")
    ensures PaperToPageable(r).value.sort.direction == Asc <==> r.sortOrder.Some? && ToLower(r.sortOrder.value) == "asc"
  {
    if r.sortBy.Some? {
      PaperFieldSortsByItself(r.sortBy.value);
    }
  }

  /** Each name the paper pattern admits selects its own constant: the names
      differ in length, so no other constant matches ignoring case. */
  lemma PaperFieldSortsByItself(s: string)
    requires s in ["submissionDate", "title", "authorName"]
    ensures FromApiField(PaperSortFields, Some(s), "submissionDate") == s
  {
    var r := FromApiField(PaperSortFields, Some(s), "submissionDate");
    var k := if s == "title" then 0 else if s == "authorName" then 1 else 2;
    assert PaperSortFields[k].apiField == s;
    assert EqualsIgnoreCase(PaperSortFields[k].apiField, Some(s));
    var i :| 0 <= i < |PaperSortFields| && EqualsIgnoreCase(PaperSortFields[i].apiField, Some(s))
             && PaperSortFields[i].entityField == r;
    assert |PaperSortFields[i].apiField| == |s|;
  }

  /** `DocumentRequestSearchRequest`. */
  datatype RequestSearchRequest = RequestSearchRequest(
    search: Option<string>,
    status: Option<seq<string>>,
    departmentId: Option<int>,
    page: int,
    size: int,
    sortBy: Option<string>,
    sortOrder: Option<string>)

  function DefaultRequestSearch(search: Option<string>, departmentId: Option<int>)
    : (r: RequestSearchRequest)
    ensures r.page == 0 && r.size == 20
    ensures r.sortBy == Some("createdAt") && r.sortOrder == Some("desc")
    ensures r.search == search && r.departmentId == departmentId && r.status.None?
  {
    RequestSearchRequest(search, None, departmentId, 0, 20, Some("createdAt"), Some("desc"))
  }

  /** The bean-validation constraints of `DocumentRequestSearchRequest`. */
  predicate ValidRequestSearch(r: RequestSearchRequest) {
    && r.page >= 0
    && 1 <= r.size <= 100
    && RequestSortByPattern(r.sortBy)
    && SortOrderPattern(r.sortOrder)
  }

  /** `DocumentRequestSearchRequest.toPageable`. */
  function RequestToPageable(r: RequestSearchRequest): (p: Result<Pageable, Error>)
    ensures p.Success? <==> r.page >= 0 && r.size >= 1
    ensures p.Success? ==> p.value.page == r.page && p.value.size == r.size
    ensures p.Success? ==> p.value.sort.direction == DirectionOf(r.sortOrder)
    ensures p.Success? ==> p.value.sort.field == FromApiField(RequestSortFields, r.sortBy, "createdAt")
  {
    PageRequestOf(r.page, r.size, Sort(DirectionOf(r.sortOrder), FromApiField(RequestSortFields, r.sortBy, "createdAt")))
  }

  /** The request pattern's unescaped dot admits "paper_title", which passes
      validation yet names no sort field, so the listing falls back to
      `createdAt`. */
  lemma RequestSortPatternDot()
    ensures var r := RequestSearchRequest(None, None, None, 0, 20, Some("paper_title"), Some("asc"));
      ValidRequestSearch(r) && RequestToPageable(r) == Success(Pageable(0, 20, Sort(Asc, "createdAt")))
  {
    var r := RequestSearchRequest(None, None, None, 0, 20, Some("paper_title"), Some("asc"));
    assert ValidRequestSearch(r) by {
      UnderscoreMatchesTitlePattern();
      assert ToLower("asc") == "asc";
    }
    assert DirectionOf(r.sortOrder) == Asc by {
      assert ToLower("asc") == "asc";
    }
    UnderscoreTitleNamesNoRequestField();
  }

  /** The unescaped dot of `paper.title` matches the underscore. */
  lemma UnderscoreMatchesTitlePattern()
    ensures RequestSortByPattern(Some("paper_title"))
  {
    var text, pattern := "paper_title", "paper.title";
    forall i | 0 <= i < |text|
      ensures (pattern[i] == '.' && !IsLineTerminator(text[i])) || text[i] == pattern[i]
    {
    }
    assert DotMatch(text, pattern);
  }

  /** The wildcard does not match a line break, so "paper\ntitle" is refused. */
  lemma LineBreakRefusedBySortPattern()
    ensures !RequestSortByPattern(Some("paper\ntitle"))
  {
    var text := "paper\ntitle";
    assert IsLineTerminator(text[5]);
    assert !DotMatch(text, "paper.title") by {
      assert !((("paper.title")[5] == '.' && !IsLineTerminator(text[5])) || text[5] == ("paper.title")[5]);
    }
    assert |text| != |"user.fullName"|;
  }
}

=== FILE: strings.dfy ===
/** The `java.lang.String` and `java.lang.Integer` operations the application
    relies on, over `seq<char>`. Case mapping covers ASCII letters only. */
module Strings {
  import opened Wrappers

  // ---------------------------------------------------------------- case

  function LowerChar(c: char): char {
    if 'A' <= c <= 'Z' then (c as int + 32) as char else c
  }

  /** `String.toLowerCase` on ASCII letters; every other character is kept. */
  function ToLower(s: string): (r: string)
    ensures |r| == |s|
    ensures forall i :: 0 <= i < |s| ==> r[i] == LowerChar(s[i])
  {
    seq(|s|, i requires 0 <= i < |s| => LowerChar(s[i]))
  }

  predicate IsLower(s: string) {
    forall i :: 0 <= i < |s| ==> !('A' <= s[i] <= 'Z')
  }

  lemma LowerIsLower(s: string)
    ensures IsLower(ToLower(s))
  {
  }

  /** Lower-casing twice is lower-casing once. */
  lemma ToLowerIdempotent(s: string)
    ensures ToLower(ToLower(s)) == ToLower(s)
  {
  }

  lemma ToLowerOfLower(s: string)
    requires IsLower(s)
    ensures ToLower(s) == s
  {
  }

  lemma ToLowerAppend(a: string, b: string)
    ensures ToLower(a + b) == ToLower(a) + ToLower(b)
  {
  }

  /** `String.equalsIgnoreCase` with a possibly null argument. */
  predicate EqualsIgnoreCase(a: string, b: Option<string>) {
    b.Some? && ToLower(a) == ToLower(b.value)
  }

  // ---------------------------------------------------------------- trim

  /** The characters `String.trim` removes: every code point up to U+0020. */
  predicate IsSpace(c: char) {
    c <= ' '
  }

  function TrimStart(s: string): (r: string)
    ensures |r| <= |s| && r == s[|s| - |r|..]
    ensures |r| > 0 ==> !IsSpace(r[0])
    ensures forall i :: 0 <= i < |s| - |r| ==> IsSpace(s[i])
  {
    if |s| > 0 && IsSpace(s[0]) then TrimStart(s[1..]) else s
  }

  function TrimEnd(s: string): (r: string)
    ensures |r| <= |s| && r == s[..|r|]
    ensures |r| > 0 ==> !IsSpace(r[|r| - 1])
    ensures forall i :: |r| <= i < |s| ==> IsSpace(s[i])
  {
    if |s| > 0 && IsSpace(s[|s| - 1]) then TrimEnd(s[..|s| - 1]) else s
  }

  /** `String.trim`. */
  function Trim(s: string): string {
    TrimEnd(TrimStart(s))
  }

  /** `s.trim().isEmpty()`. */
  predicate IsBlank(s: string) {
    Trim(s) == []
  }

  /** A string is blank exactly when all its characters are spaces. */
  lemma BlankIffAllSpace(s: string)
    ensures IsBlank(s) <==> forall i :: 0 <= i < |s| ==> IsSpace(s[i])
  {
    if forall i :: 0 <= i < |s| ==> IsSpace(s[i]) {
      AllSpaceIsBlank(s);
    }
    if IsBlank(s) {
      BlankIsAllSpace(s);
    }
  }

  lemma AllSpaceIsBlank(s: string)
    requires forall i :: 0 <= i < |s| ==> IsSpace(s[i])
    ensures IsBlank(s)
  {
    var t := TrimStart(s);
    assert |t| == 0;
  }

  lemma BlankIsAllSpace(s: string)
    requires IsBlank(s)
    ensures forall i :: 0 <= i < |s| ==> IsSpace(s[i])
  {
    var t := TrimStart(s);
    assert TrimEnd(t) == [];
    assert |t| == 0;
  }

  /** The trimmed string has no space at either end and sits inside the input. */
  lemma TrimShape(s: string)
    ensures var r := Trim(s);
      (|r| > 0 ==> !IsSpace(r[0]) && !IsSpace(r[|r| - 1]))
      && exists i :: OccursAt(s, r, i)
  {
    var t := TrimStart(s);
    var r := TrimEnd(t);
    var i := |s| - |t|;
    assert t == s[i..];
    assert r == t[..|r|];
    assert s[i..i + |r|] == t[..|r|];
    assert r == Trim(s);
    assert OccursAt(s, r, i);
    if |r| > 0 {
      assert r[0] == t[0];
    }
  }

  /** Trimming a lower-case string leaves it lower-case. */
  lemma TrimPreservesLower(s: string)
    requires IsLower(s)
    ensures IsLower(Trim(s))
  {
    var t := TrimStart(s);
    var r := TrimEnd(t);
    forall k | 0 <= k < |r|
      ensures !('A' <= r[k] <= 'Z')
    {
      assert r[k] == t[k] == s[|s| - |t| + k];
    }
  }

  // ---------------------------------------------------------------- affixes

  predicate StartsWith(s: string, prefix: string) {
    |prefix| <= |s| && s[..|prefix|] == prefix
  }

  lemma StartsWithAppend(prefix: string, rest: string)
    ensures StartsWith(prefix + rest, prefix)
  {
    assert (prefix + rest)[..|prefix|] == prefix;
  }

  predicate EndsWith(s: string, suffix: string) {
    |suffix| <= |s| && s[|s| - |suffix|..] == suffix
  }

  /** `t` occurs in `s` starting at index `i`. */
  predicate OccursAt(s: string, t: string, i: int) {
    0 <= i <= |s| - |t| && s[i..i + |t|] == t
  }

  /** `s.contains(t)`: `t` occurs in `s` at some index. */
  predicate Contains(s: string, t: string) {
    exists i :: 0 <= i <= |s| - |t| && OccursAt(s, t, i)
  }

  lemma EndsWithAppend(a: string, suffix: string)
    ensures EndsWith(a + suffix, suffix)
  {
    assert (a + suffix)[|a|..] == suffix;
  }

  // ---------------------------------------------------------------- search

  /** `s.lastIndexOf(c)`: the last index holding `c`, or -1. */
  function LastIndexOf(s: string, c: char): (r: int)
    ensures -1 <= r < |s|
    ensures r >= 0 ==> s[r] == c
    ensures forall i :: r < i < |s| ==> s[i] != c
  {
    if |s| == 0 then -1
    else if s[|s| - 1] == c then |s| - 1
    else LastIndexOf(s[..|s| - 1], c)
  }

  lemma {:induction false} LastIndexOfAppend(a: string, c: char, b: string)
    requires c !in b
    ensures LastIndexOf(a + [c] + b, c) == |a|
    decreases |b|
  {
    var s := a + [c] + b;
    if |b| > 0 {
      var b' := b[..|b| - 1];
      assert s[|s| - 1] == b[|b| - 1];
      assert s[..|s| - 1] == a + [c] + b';
      assert c !in b' by {
        assert forall x :: x in b' ==> x in b;
      }
      LastIndexOfAppend(a, c, b');
    }
  }

  // ---------------------------------------------------------------- split

  /** Splits on every occurrence of `sep`, keeping empty pieces. */
  function SplitAll(s: string, sep: char): (r: seq<string>)
    ensures |r| >= 1
    ensures forall i :: 0 <= i < |r| ==> sep !in r[i]
    decreases |s|
  {
    if sep !in s then [s]
    else
      var i := FirstIndex(s, sep);
      [s[..i]] + SplitAll(s[i + 1..], sep)
  }

  function FirstIndex(s: string, c: char): (r: nat)
    requires c in s
    ensures r < |s| && s[r] == c && c !in s[..r]
  {
    if s[0] == c then 0 else 1 + FirstIndex(s[1..], c)
  }

  /** Joins pieces with `sep` in between, the inverse of `SplitAll`. */
  function Join(pieces: seq<string>, sep: char): string
    requires |pieces| >= 1
  {
    if |pieces| == 1 then pieces[0] else pieces[0] + [sep] + Join(pieces[1..], sep)
  }

  /** Splitting and joining again gives back the original string. */
  lemma {:induction false} JoinSplitAll(s: string, sep: char)
    ensures Join(SplitAll(s, sep), sep) == s
    decreases |s|
  {
    if sep in s {
      var i := FirstIndex(s, sep);
      var rest := s[i + 1..];
      var pieces := SplitAll(s, sep);
      assert pieces == [s[..i]] + SplitAll(rest, sep);
      assert |pieces| >= 2 && pieces[0] == s[..i] && pieces[1..] == SplitAll(rest, sep);
      JoinSplitAll(rest, sep);
      assert Join(pieces, sep) == s[..i] + [sep] + rest;
      assert s == s[..i] + [sep] + rest;
    } else {
      assert SplitAll(s, sep) == [s];
    }
  }

  function DropTrailingEmpty(pieces: seq<string>): (r: seq<string>)
    ensures |r| <= |pieces| && r == pieces[..|r|]
    ensures |r| > 0 ==> r[|r| - 1] != []
    ensures forall i :: |r| <= i < |pieces| ==> pieces[i] == []
  {
    if |pieces| > 0 && pieces[|pieces| - 1] == [] then DropTrailingEmpty(pieces[..|pieces| - 1])
    else pieces
  }

  /** `s.split(String.valueOf(sep))`: when `sep` occurs, trailing empty pieces
      are dropped; otherwise the whole string is the only piece. */
  function JavaSplit(s: string, sep: char): seq<string> {
    if sep !in s then [s] else DropTrailingEmpty(SplitAll(s, sep))
  }

  // ---------------------------------------------------------------- integers

  const IntMin: int := -0x8000_0000
  const IntMax: int := 0x7fff_ffff

  /** The range of a Java `int` / `Integer`. */
  predicate IsInt32(n: int) {
    IntMin <= n <= IntMax
  }

  /** `Number.intValue()` of a wider integer: two's-complement truncation. */
  function ToInt32(n: int): (r: int)
    ensures IsInt32(r)
    ensures IsInt32(n) ==> r == n
  {
    (n - IntMin) % 0x1_0000_0000 + IntMin
  }

  predicate IsDigit(c: char) {
    '0' <= c <= '9'
  }

  predicate AllDigits(s: string) {
    forall i :: 0 <= i < |s| ==> IsDigit(s[i])
  }

  function DigitChar(d: nat): char
    requires d < 10
  {
    ('0' as int + d) as char
  }

  function DigitValue(c: char): nat
    requires IsDigit(c)
  {
    c as int - '0' as int
  }

  /** Decimal digits of a natural number, most significant first. */
  function NatToString(n: nat): (r: string)
    ensures |r| >= 1
    decreases n
  {
    if n < 10 then [DigitChar(n)] else NatToString(n / 10) + [DigitChar(n % 10)]
  }

  /** `Integer.toString` / `String.valueOf(int)`. */
  function IntToString(n: int): string {
    if n < 0 then "-" + NatToString(-n) else NatToString(n)
  }

  /** Different numbers print differently. */
  lemma IntToStringInjective(a: int, b: int)
    requires IntToString(a) == IntToString(b)
    ensures a == b
  {
    var ma: nat := if a < 0 then -a else a;
    var mb: nat := if b < 0 then -b else b;
    NatToStringDigits(ma);
    NatToStringDigits(mb);
    assert IsDigit(NatToString(ma)[0]) && IsDigit(NatToString(mb)[0]);
    assert (a < 0) == (b < 0);
    if a < 0 {
      assert NatToString(ma) == IntToString(a)[1..];
      assert NatToString(mb) == IntToString(b)[1..];
    }
  }

  /** The value of a string of decimal digits. */
  function DigitsValue(s: string): nat
    requires AllDigits(s)
  {
    if |s| == 0 then 0 else DigitsValue(s[..|s| - 1]) * 10 + DigitValue(s[|s| - 1])
  }

  lemma {:induction false} NatToStringDigits(n: nat)
    ensures AllDigits(NatToString(n))
    ensures DigitsValue(NatToString(n)) == n
    decreases n
  {
    if n >= 10 {
      NatToStringDigits(n / 10);
      var s := NatToString(n);
      assert s[..|s| - 1] == NatToString(n / 10);
    }
  }

  /** `Integer.valueOf(String)`: an optional sign then one or more decimal
      digits whose value fits an `int`; anything else is a
      `NumberFormatException` (`None`). A null string is `None` as well. */
  function ParseInt(s: Option<string>): Option<int> {
    if s.None? || |s.value| == 0 then None
    else
      var t := s.value;
      var negative := t[0] == '-';
      var digits := if t[0] == '-' || t[0] == '+' then t[1..] else t;
      if |digits| == 0 || !AllDigits(digits) then None
      else
        var v: int := if negative then 0 - DigitsValue(digits) else DigitsValue(digits);
        if IsInt32(v) then Some(v) else None
  }

  /** Printing an `int` and parsing it back gives the same `int`. */
  lemma ParseIntToString(n: int)
    requires IsInt32(n)
    ensures ParseInt(Some(IntToString(n))) == Some(n)
  {
    var m: nat := if n < 0 then -n else n;
    NatToStringDigits(m);
    var d := NatToString(m);
    assert IsDigit(d[0]);
    if n < 0 {
      assert IntToString(n)[1..] == d;
    }
  }

  /** Only strings of digits with an optional sign parse. */
  lemma ParseIntRejectsNonNumeric(s: string)
    requires |s| > 0 && !IsDigit(s[0]) && s[0] != '-' && s[0] != '+'
    ensures ParseInt(Some(s)) == None
  {
  }
}

=== FILE: tokens.dfy ===
/** The refresh-token table and the JPQL queries over it. Token values are
    unique (a unique column), so the table is a map from token value to row. */
module Tokens {
  import opened Wrappers
  import opened Model

  type TokenStore = map<string, RefreshToken>

  /** Every row sits under its own token value. */
  predicate TokensKeyed(tokens: TokenStore) {
    forall t :: t in tokens ==> tokens[t].token == t
  }

  /** `findByToken`: the unique row with that value, if any. */
  function FindByToken(tokens: TokenStore, token: string): (r: Option<RefreshToken>)
    requires TokensKeyed(tokens)
    ensures r.Some? <==> token in tokens
    ensures r.Some? ==> r.value.token == token && r.value == tokens[token]
  {
    if token in tokens then Some(tokens[token]) else None
  }

  /** A delete only removes rows; the rows it keeps are unchanged. */
  predicate Shrinks(before: TokenStore, after: TokenStore) {
    forall t :: t in after ==> t in before && after[t] == before[t]
  }

  /** `DELETE FROM RefreshToken rt WHERE rt.user.userId = :userId`
      (`UserRepository.deleteByUserId`). */
  function DeleteByUserId(tokens: TokenStore, userId: int): (r: TokenStore)
    ensures Shrinks(tokens, r)
    ensures forall t :: t in tokens ==> (t in r <==> tokens[t].userId != userId)
    ensures forall t :: t in r ==> r[t].userId != userId
  {
    map t | t in tokens && tokens[t].userId != userId :: tokens[t]
  }

  /** `DELETE FROM RefreshToken rt WHERE rt.expiresAt < :now`
      (`UserRepository.deleteExpiredTokens`). */
  function DeleteExpiredTokens(tokens: TokenStore, now: int): (r: TokenStore)
    ensures Shrinks(tokens, r)
    ensures forall t :: t in tokens ==> (t in r <==> tokens[t].expiresAt >= now)
    ensures forall t :: t in r ==> r[t].expiresAt >= now
  {
    map t | t in tokens && !(tokens[t].expiresAt < now) :: tokens[t]
  }

  /** `DELETE FROM RefreshToken r WHERE r.user.userId = :userId AND r.expiresAt < :now`
      (`RefreshTokenRepository.deleteExpiredByUserId`). */
  function DeleteExpiredByUserId(tokens: TokenStore, userId: int, now: int): (r: TokenStore)
    ensures Shrinks(tokens, r)
    ensures forall t :: t in tokens ==> (t in r <==> !(tokens[t].userId == userId && tokens[t].expiresAt < now))
    ensures forall t :: t in tokens && tokens[t].userId != userId ==> t in r && r[t] == tokens[t]
  {
    map t | t in tokens && !(tokens[t].userId == userId && tokens[t].expiresAt < now) :: tokens[t]
  }

  /** Each delete is idempotent: a second run finds nothing more to remove. */
  lemma DeletesIdempotent(tokens: TokenStore, userId: int, now: int)
    ensures DeleteByUserId(DeleteByUserId(tokens, userId), userId) == DeleteByUserId(tokens, userId)
    ensures DeleteExpiredTokens(DeleteExpiredTokens(tokens, now), now) == DeleteExpiredTokens(tokens, now)
    ensures DeleteExpiredByUserId(DeleteExpiredByUserId(tokens, userId, now), userId, now)
      == DeleteExpiredByUserId(tokens, userId, now)
  {
  }

  /** The per-user expiry purge removes a subset of what the global purge
      removes, and only the user's share of it. */
  lemma PerUserPurgeWithinGlobalPurge(tokens: TokenStore, userId: int, now: int)
    ensures DeleteExpiredTokens(tokens, now).Keys <= DeleteExpiredByUserId(tokens, userId, now).Keys
    ensures DeleteExpiredByUserId(tokens, userId, now)
      == map t | t in tokens && (tokens[t].userId != userId || t in DeleteExpiredTokens(tokens, now)) :: tokens[t]
  {
  }

  /** A row expiring exactly at `now` is not expired: both purges keep it. */
  lemma ExpiryIsStrict(tokens: TokenStore, t: string, now: int)
    requires t in tokens && tokens[t].expiresAt == now
    ensures t in DeleteExpiredTokens(tokens, now)
    ensures t in DeleteExpiredByUserId(tokens, tokens[t].userId, now)
  {
  }

  /** The deletes keep the table keyed by token value. */
  lemma DeletesKeepKeyed(tokens: TokenStore, userId: int, now: int)
    requires TokensKeyed(tokens)
    ensures TokensKeyed(DeleteByUserId(tokens, userId))
    ensures TokensKeyed(DeleteExpiredTokens(tokens, now))
    ensures TokensKeyed(DeleteExpiredByUserId(tokens, userId, now))
  {
  }
}

=== FILE: user_service.dfy ===
/** Account provisioning on sign-in (`UserService`): the email is normalised,
    a role and department are derived from the privileged registry, and the
    user row is created or brought up to date. The user table is a map from
    (normalised) email to row. */
module UserService {
  import opened Wrappers
  import opened Strings
  import opened Errors
  import opened Model
  import opened Privileged
  import GoogleAuth

  type UserStore = map<string, User>

  /** `email` is a unique column: every row sits under its own email. */
  predicate UsersKeyed(users: UserStore) {
    forall e :: e in users ==> users[e].email == e
  }

  /** `normalizeEmail`: lower-case, then trim. */
  function NormalizeEmail(email: string): (r: string)
    ensures IsLower(r)
    ensures |r| == 0 || (!IsSpace(r[0]) && !IsSpace(r[|r| - 1]))
  {
    NormalizedShape(email);
    Trim(ToLower(email))
  }

  lemma NormalizedShape(email: string)
    ensures var r := Trim(ToLower(email));
      IsLower(r) && (|r| == 0 || (!IsSpace(r[0]) && !IsSpace(r[|r| - 1])))
  {
    LowerIsLower(email);
    TrimPreservesLower(ToLower(email));
    TrimShape(ToLower(email));
  }

  /** Normalising twice changes nothing. */
  lemma NormalizeIdempotent(email: string)
    ensures NormalizeEmail(NormalizeEmail(email)) == NormalizeEmail(email)
  {
    var r := NormalizeEmail(email);
    ToLowerOfLower(r);
    assert TrimStart(r) == r;
    assert TrimEnd(r) == r;
  }

  /** `email` is written exactly so in a possibly null list. */
  predicate ListedExactly(list: Option<seq<string>>, email: string) {
    list.Some? && email in list.value
  }

  /** `determineUserRole`: the super-admin list wins, then the teacher list
      (both exact, case-sensitive membership), then the department-admin
      entries (lower-cased), and everyone else is a STUDENT. A null registry
      throws, and so does building the department-admin map from an
      incomplete or colliding list, once the two lists have not decided. */
  function DetermineUserRole(email: string, config: Option<PrivilegedUserConfig>): (r: Result<UserRole, Error>)
    ensures config.None? ==> r == Failure(Runtime(NullPointer))
    ensures r.Failure? ==> r.error in {Runtime(NullPointer), Runtime(IllegalState)}
    ensures config.Some? ==>
      var c := config.value;
      && (r == Success(SuperAdmin) <==> ListedExactly(c.superAdmins, email))
      && (r == Success(Teacher) <==> !ListedExactly(c.superAdmins, email) && ListedExactly(c.teachers, email))
      && (r.Failure? <==>
            !ListedExactly(c.superAdmins, email) && !ListedExactly(c.teachers, email) && !AdminMapBuilds(c))
      && (r == Success(DepartmentAdmin) <==>
            !ListedExactly(c.superAdmins, email) && !ListedExactly(c.teachers, email)
            && AdminMapBuilds(c) && NamedDepartmentAdmin(c, email))
      && (r == Success(Student) <==>
            !ListedExactly(c.superAdmins, email) && !ListedExactly(c.teachers, email)
            && AdminMapBuilds(c) && !NamedDepartmentAdmin(c, email))
  {
    if config.None? then Failure(Runtime(NullPointer))
    else
      var c := config.value;
      DepartmentAdminsMapMeaning(c);
      if c.superAdmins.Some? && email in c.superAdmins.value then Success(SuperAdmin)
      else if c.teachers.Some? && email in c.teachers.value then Success(Teacher)
      else
        var m :- DepartmentAdminsMap(c);
        if email in m then Success(DepartmentAdmin) else Success(Student)
  }

  /** Every role other than STUDENT passes the sign-in's privilege check for
      the email it was determined from. */
  lemma PrivilegedRoleSignsIn(email: string, c: PrivilegedUserConfig, role: UserRole)
    requires DetermineUserRole(NormalizeEmail(email), Some(c)) == Success(role) && role != Student
    ensures GoogleAuth.IsPrivilegedUser(email, Some(c)) == Success(true)
  {
    var normalized := NormalizeEmail(email);
    ToLowerOfLower(normalized);
    if ListedExactly(c.superAdmins, normalized) {
      var i :| 0 <= i < |c.superAdmins.value| && c.superAdmins.value[i] == normalized;
      assert ToLower(c.superAdmins.value[i]) == Trim(ToLower(email));
    } else if ListedExactly(c.teachers, normalized) {
      var i :| 0 <= i < |c.teachers.value| && c.teachers.value[i] == normalized;
      assert ToLower(c.teachers.value[i]) == Trim(ToLower(email));
    }
  }

  /** An email the sign-in finds unprivileged is provisioned as a STUDENT. */
  lemma UnprivilegedBecomesStudent(email: string, c: PrivilegedUserConfig)
    requires GoogleAuth.IsPrivilegedUser(email, Some(c)) == Success(false)
    ensures DetermineUserRole(NormalizeEmail(email), Some(c)) == Success(Student)
  {
    var r := DetermineUserRole(NormalizeEmail(email), Some(c));
    if r.Success? && r.value != Student {
      PrivilegedRoleSignsIn(email, c, r.value);
    }
  }

  /** `resolveDepartment`: the department of the entry that names the email,
      whatever role the email was given; an id with no department throws
      `IllegalArgumentException`. */
  function ResolveDepartment(email: string, config: Option<PrivilegedUserConfig>, departments: DepartmentStore)
    : (r: Result<Option<Department>, Error>)
    ensures config.None? ==> r == Failure(Runtime(NullPointer))
    ensures config.Some? && !AdminMapBuilds(config.value) ==>
      r.Failure? && r.error in {Runtime(NullPointer), Runtime(IllegalState)}
    ensures config.Some? && AdminMapBuilds(config.value) && !NamedDepartmentAdmin(config.value, email) ==>
      r == Success(None)
    ensures forall i ::
      (config.Some? && AdminMapBuilds(config.value) && 0 <= i < |AdminEntries(config.value)|
       && Key(AdminEntries(config.value)[i]) == email) ==>
        var id := AdminEntries(config.value)[i].departmentId.value;
        && (r.Success? <==> exists j :: 0 <= j < |departments| && departments[j].departmentId == id)
        && (r.Success? ==> r.value.Some? && r.value.value in departments && r.value.value.departmentId == id)
        && (r.Failure? ==> r.error == Runtime(IllegalArgument))
  {
    if config.None? then Failure(Runtime(NullPointer))
    else
      DepartmentAdminsMapMeaning(config.value);
      var m :- DepartmentAdminsMap(config.value);
      if email !in m then Success(None)
      else
        match FindDepartment(departments, m[email])
        case None => Failure(Runtime(IllegalArgument))
        case Some(d) => Success(Some(d))
  }

  /** The department follows the role: a STUDENT gets none, and a department
      admin gets the department of its entry or provisioning fails. */
  lemma DepartmentFollowsRole(email: string, c: PrivilegedUserConfig, departments: DepartmentStore)
    requires DetermineUserRole(email, Some(c)).Success?
    ensures DetermineUserRole(email, Some(c)) == Success(Student) ==>
      ResolveDepartment(email, Some(c), departments) == Success(None)
    ensures DetermineUserRole(email, Some(c)) == Success(DepartmentAdmin) ==>
      var r := ResolveDepartment(email, Some(c), departments);
      r == Failure(Runtime(IllegalArgument)) || (r.Success? && r.value.Some? && r.value.value in departments)
  {
    if DetermineUserRole(email, Some(c)) == Success(DepartmentAdmin) {
      var entries := AdminEntries(c);
      var i :| 0 <= i < |entries| && Complete(entries[i]) && Key(entries[i]) == email;
    }
  }

  datatype Update = Update(changed: bool, user: User)

  /** `updateUserIfChanged`: role, department, full name and picture are set
      to the new values, and the flag says whether any of them differed. */
  function UpdateUserIfChanged(user: User, info: GoogleUserInfo, newRole: UserRole, newDepartment: Option<Department>)
    : (r: Update)
    ensures r.user.role == newRole && r.user.department == newDepartment
    ensures r.user.fullName == info.name && r.user.profilePictureUrl == info.profilePictureUrl
    ensures r.user.userId == user.userId && r.user.email == user.email
    ensures r.changed <==> r.user != user
  {
    var changed :=
      user.role != newRole
      || user.department != newDepartment
      || user.fullName != info.name
      || user.profilePictureUrl != info.profilePictureUrl;
    Update(changed, user.(role := newRole, department := newDepartment,
                          fullName := info.name, profilePictureUrl := info.profilePictureUrl))
  }

  /** An immediate second update with the same values reports no change. */
  lemma UpdateIdempotent(user: User, info: GoogleUserInfo, newRole: UserRole, newDepartment: Option<Department>)
    ensures var first := UpdateUserIfChanged(user, info, newRole, newDepartment);
      var second := UpdateUserIfChanged(first.user, info, newRole, newDepartment);
      !second.changed && second.user == first.user
  {
  }

  datatype Provisioned = Provisioned(user: User, users: UserStore)

  /** `findOrCreateUser`. `freshId` is the id the database assigns to a new row. */
  function FindOrCreateUser(
    users: UserStore,
    info: GoogleUserInfo,
    config: Option<PrivilegedUserConfig>,
    departments: DepartmentStore,
    freshId: int): (r: Result<Provisioned, Error>)
    ensures r.Success? ==>
      var email := NormalizeEmail(info.email);
      && DetermineUserRole(email, config) == Success(r.value.user.role)
      && ResolveDepartment(email, config, departments) == Success(r.value.user.department)
      && (email in users ==> r.value.user.email == users[email].email)
      && (email !in users ==> r.value.user.email == email)
      && r.value.user.fullName == info.name
      && r.value.user.profilePictureUrl == info.profilePictureUrl
      && r.value.users == users[email := r.value.user]
      && (email in users ==> r.value.user.userId == users[email].userId)
      && (email !in users ==> r.value.user.userId == freshId)
    ensures r.Failure? <==>
      DetermineUserRole(NormalizeEmail(info.email), config).Failure?
      || ResolveDepartment(NormalizeEmail(info.email), config, departments).Failure?
  {
    var email := NormalizeEmail(info.email);
    var role :- DetermineUserRole(email, config);
    var department :- ResolveDepartment(email, config, departments);
    if email in users then
      var update := UpdateUserIfChanged(users[email], info, role, department);
      var saved := if update.changed then users[email := update.user] else users;
      assert saved == users[email := update.user];
      Success(Provisioned(update.user, saved))
    else
      var user := User(freshId, email, info.name, role, department, info.profilePictureUrl);
      Success(Provisioned(user, users[email := user]))
  }

  /** An existing row whose role, department, name and picture already match
      is returned as it is and the table is left untouched. */
  lemma UnchangedUserNotSaved(
    users: UserStore,
    info: GoogleUserInfo,
    config: Option<PrivilegedUserConfig>,
    departments: DepartmentStore,
    freshId: int)
    requires var email := NormalizeEmail(info.email);
      && email in users
      && DetermineUserRole(email, config) == Success(users[email].role)
      && ResolveDepartment(email, config, departments) == Success(users[email].department)
      && users[email].fullName == info.name
      && users[email].profilePictureUrl == info.profilePictureUrl
    ensures var r := FindOrCreateUser(users, info, config, departments, freshId);
      r.Success? && r.value.users == users && r.value.user == users[NormalizeEmail(info.email)]
  {
  }

  /** An email that is both a teacher and a department admin becomes a TEACHER
      that nonetheless carries the department. */
  lemma TeacherWithDepartment()
    ensures var config := Some(PrivilegedUserConfig(None, Some(["t@x.com"]),
      Some([DepartmentAdminEntry(Some("t@x.com"), Some(3))])));
      var departments := [Department(3, "Physics")];
      DetermineUserRole("t@x.com", config) == Success(Teacher)
      && ResolveDepartment("t@x.com", config, departments) == Success(Some(Department(3, "Physics")))
  {
    var config := PrivilegedUserConfig(None, Some(["t@x.com"]), Some([DepartmentAdminEntry(Some("t@x.com"), Some(3))]));
    assert ToLower("t@x.com") == "t@x.com";
    assert DepartmentAdminsMap(config) == Success(map["t@x.com" := 3]);
  }

  /** A department id that names no department stops provisioning with
      `IllegalArgumentException`. */
  lemma UnknownDepartmentRejected()
    ensures var config := Some(PrivilegedUserConfig(None, None,
      Some([DepartmentAdminEntry(Some("d@x.com"), Some(9))])));
      ResolveDepartment("d@x.com", config, [Department(3, "Physics")]) == Failure(Runtime(IllegalArgument))
  {
    var config := PrivilegedUserConfig(None, None, Some([DepartmentAdminEntry(Some("d@x.com"), Some(9))]));
    assert ToLower("d@x.com") == "d@x.com";
    assert DepartmentAdminsMap(config) == Success(map["d@x.com" := 9]);
  }

  /** A super admin listed in mixed case passes the sign-in as privileged but
      is provisioned as a STUDENT: the sign-in lower-cases list entries, the
      role lookup compares them exactly. */
  lemma MixedCaseSuperAdminBecomesStudent()
    ensures var config := Some(PrivilegedUserConfig(Some(["Boss@x.com"]), None, None));
      GoogleAuth.IsPrivilegedUser("boss@x.com", config) == Success(true)
      && DetermineUserRole(NormalizeEmail("boss@x.com"), config) == Success(Student)
  {
    assert ToLower("boss@x.com") == "boss@x.com";
    assert ToLower("Boss@x.com") == "boss@x.com";
    assert TrimStart("boss@x.com") == "boss@x.com";
    assert TrimEnd("boss@x.com") == "boss@x.com";
    assert NormalizeEmail("boss@x.com") == "boss@x.com";
    assert "boss@x.com" != "Boss@x.com";
    assert ToLower(["Boss@x.com"][0]) == Trim(ToLower("boss@x.com"));
  }
}

=== FILE: wrappers.dfy ===
/** Failure-compatible wrappers: `Option` for Java's nullable references and
    `Optional`, `Result` for a call that either returns or throws, and
    `Outcome` for a void call that either returns or throws. */
module Wrappers {

  datatype Option<+T> = None | Some(value: T) {

    predicate IsFailure() {
      None?
    }

    function PropagateFailure<U>(): Option<U>
      requires None?
    {
      None
    }

    function Extract(): T
      requires Some?
    {
      value
    }

    function GetOr(default: T): T {
      match this
      case Some(v) => v
      case None => default
    }
  }

  datatype Result<+R, +E> = Success(value: R) | Failure(error: E) {

    predicate IsFailure() {
      Failure?
    }

    function PropagateFailure<U>(): Result<U, E>
      requires Failure?
    {
      Failure(error)
    }

    function Extract(): R
      requires Success?
    {
      value
    }
  }

  datatype Outcome<+E> = Pass | Fail(error: E) {

    predicate IsFailure() {
      Fail?
    }

    function PropagateFailure<U>(): Result<U, E>
      requires Fail?
    {
      Failure(error)
    }
  }

  /** Returns `Pass` when `condition` holds and fails with `error` otherwise. */
  function Need<E>(condition: bool, error: E): (r: Outcome<E>)
    ensures r.Pass? <==> condition
    ensures r.Fail? ==> r.error == error
  {
    if condition then Pass else Fail(error)
  }
}
